=== FILE: README.md ===
# Watch Circle, modelled in Dafny

Watch Circle is a small social web client for films and series. Users rate
titles from 1 to 5 stars, follow series and see their upcoming episodes in
a calendar. They add friends and read their friends' ratings in a feed,
and see a taste-compatibility score for each friend. At sign-up they pick
their streaming services and three favourite series. Storage and sign-in
live in a hosted database; title metadata comes from an external movie
API.

This project models the decision rules and list transformations of that
client as pure Dafny functions over immutable rows, and proves properties
about them:

- Every database table is a sequence of rows.
- Every remote call is an input: a database error, whether a query
  returned data, or what the metadata API answered.
- Every service becomes a total function from the tables and those
  outcomes to the new tables and the returned value.

Modules, one per area of the application:

| module | file | models |
|---|---|---|
| `Wrappers`, `Seqs`, `Sorting`, `Text` | wrappers.dfy, seqs.dfy, sorting.dfy, text.dfy | shared helpers: `Option`, filters, stable sort, decimal text, trimming, scalar-value order |
| `Schema` | schema.dfy | the rows, enums and update shapes of types/database.ts |
| `Tmdb` | tmdb.dfy | the search-result and details shapes of types/tmdb.ts |
| `Compatibility` | compatibility.dfy | services/compatibility.ts |
| `Subscriptions` | subscriptions.dfy | services/subscriptions.ts |
| `Providers` | providers.dfy | provider grid order and the "All" toggle (hooks/useOnboarding.ts, StreamingSubscriptions, StreamingStep, CompletionStep) |
| `Wizard` | wizard.dfy | the onboarding step machine and series selection (hooks/useOnboarding.ts) |
| `OnboardingSteps` | onboarding_steps.dfy | ProgressBar and the favourites search of FavoritesStep |
| `OnboardingImport` | onboarding_import.dfy | app/onboarding/actions.ts and services/onboarding.ts |
| `SearchRoute` | search_route.dfy | app/api/tmdb/search/route.ts |
| `Friendships` | friendships.dfy | services/friendships.ts |
| `Ratings` | ratings.dfy | services/ratings.ts |
| `Movies` | movies.dfy | services/movies.ts |
| `Episodes` | episodes.dfy | services/episodes.ts |
| `Notifications` | notifications.dfy | hooks/useNotifications.ts |
| `FriendsView` | friends_view.dfy | hooks/useFriends.ts, UserSearchBar, CompatibilityScore |
| `RatingState` | rating_state.dfy | StarRating, hooks/useRating.ts, MovieDetail |
| `Calendar` | calendar.dfy | CalendarView and EpisodeRow |
| `MovieRoute` | movie_route.dfy | the `/movie/{media_type}-{id}` segment and how the title page reads it |
| `PosterCard` | poster_card.dfy | components/movie/PosterCard.tsx |
| `BottomNav` | bottom_nav.dfy | components/layout/BottomNav.tsx with the routes of utils/constants.ts |
| `CountBadge` | count_badge.dfy | components/ui/Badge.tsx |

## Model

| member | source | states |
|---|---|---|
| Schema.ParseStatus | types/database.ts:129 | a parsed status names back to the same text; only the three stored words are statuses |
| Schema.StatusRoundTrip | types/database.ts:129 | every friendship status is stored as text that reads back as that status |
| Schema.ParseNotificationType | types/database.ts:244 | a parsed notification type names back to the same text |
| Schema.NotificationTypeRoundTrip | types/database.ts:244 | each of the four notification types survives storage as text |
| Schema.ApplyNotificationUpdate | types/database.ts:261-263 | a notification update can change only `read`; id, owner, type, title, body, data and creation time are kept |
| Schema.ApplyFriendshipUpdate | types/database.ts:141-144 | a friendship update never changes who asked whom or when the row was created; it sets exactly the status and `updated_at` it carries and keeps the old values otherwise |
| Schema.ApplyRatingUpdate | types/database.ts:102-106 | a rating update never moves the rating to another user or title |
| Compatibility.ScoreRowsOf | services/compatibility.ts:17-20 | one row per rating of the user, in table order, with its title and score, and no row of anyone else |
| Compatibility.LookupScore | services/compatibility.ts:27-32 | the map lookup finds a score exactly when B rated the title, and the score is B's |
| Compatibility.CommonRatings | services/compatibility.ts:27-36 | as many pairs as A has rows whose title B rated, each pair holding the score of some row of A and B's score for that row's title |
| Compatibility.CommonRatingsPairs | services/compatibility.ts:27-36 | the pairs are exactly one per row of A whose title B rated, in A's order, pair k holding that row's score and the score B's map gives for its title |
| Compatibility.RoundDiv | services/compatibility.ts:49 | `Math.round` of a positive-denominator quotient, characterised as the integer within one half of it (halves round up) |
| Compatibility.Compatibility | services/compatibility.ts:22-51 | a missing rating list gives (0, 0); otherwise commonCount is the number of A's titles B also rated; no common title means score 0 |
| Compatibility.ScoreOfNoDifference | services/compatibility.ts:42-49 | equal scores on every common title give 100 |
| Compatibility.ScoreOfMaximalDifference | services/compatibility.ts:42-49 | a difference of 4 on every common title gives 0 |
| Compatibility.ScoreInRange | services/compatibility.ts:43-49 | with every difference at most 4 the score lies in 0..100 |
| Compatibility.ScoreAntitone | services/compatibility.ts:44-49 | for a fixed number of common titles, a larger total difference never raises the score |
| Compatibility.TotalDiffBounded | services/compatibility.ts:44-47 | with 1..5 scores the total difference is at most 4 per common title |
| Compatibility.CompatibilityInRange | services/compatibility.ts:43-49 | with 1..5 scores the result is always in 0..100 |
| Compatibility.AgreementHasNoDifference | services/compatibility.ts:44-47 | users who agree on every common title have total difference 0 |
| Compatibility.IdenticalTasteGives100 | services/compatibility.ts:42-49 | users who agree on every common title (and share one) score 100 |
| Compatibility.OppositionHasMaximalDifference | services/compatibility.ts:44-47 | users 4 apart on every common title have the maximal total difference |
| Compatibility.OpposedTasteGives0 | services/compatibility.ts:42-49 | users 4 apart on every common title score 0 |
| Compatibility.RowSumsOfUnique | services/compatibility.ts:27-32 | against a list with one row per title, a row of A matches at most once, and contributes its difference exactly when B rated it |
| Compatibility.CommonAsDoubleSums | services/compatibility.ts:29-47 | the common count and total difference are sums over all pairs of rows, which makes them independent of which side loops |
| Compatibility.DoubleSumSwap | services/compatibility.ts:29-47 | a symmetric pair weight sums to the same total whichever list is outer |
| Compatibility.CompatibilitySymmetric | services/compatibility.ts:27-51 | with one rating per user and title, compatibility of A with B equals that of B with A |
| Compatibility.ScoreRowsOfUnique | services/ratings.ts:49 | the unique (user, movie) key gives each user's rows one entry per title |
| Compatibility.CompatibilityOfSymmetric | services/compatibility.ts:11-51 | computed from the ratings table, compatibility is symmetric in the two users |
| Subscriptions.SubscribedProviderIds | services/subscriptions.ts:17-25 | a failed query gives []; otherwise exactly the providers the user subscribes to |
| Subscriptions.RowsFor | services/subscriptions.ts:43-46 | one row per provider id, in order, owned by the user |
| Subscriptions.SetUserSubscriptions | services/subscriptions.ts:27-53 | a delete error is returned with the table unchanged; an empty list only deletes; otherwise the insert's error is returned; other users' rows are never touched |
| Subscriptions.SetThenGet | services/subscriptions.ts:32-52 | after a successful write the user's subscriptions read back as exactly the ids written, in order |
| Subscriptions.SetLeavesOthers | services/subscriptions.ts:32-52 | another user's rows are the same after the write, even a failed one |
| Subscriptions.EmbeddedTmdbId | services/subscriptions.ts:62-70 | the embedded provider is found exactly when a provider with that id exists |
| Subscriptions.GetFilteredMovieIds | services/subscriptions.ts:55-90 | no filter exactly when the user has no rows or subscribes to "All"; otherwise a duplicate-free list of exactly the movies on a subscribed provider, [] when the second query gave nothing |
| Subscriptions.SubscribedIdsOf | services/subscriptions.ts:77 | a provider id is among the user's ids exactly when the user has a row for it |
| Subscriptions.FilteredMembers | services/subscriptions.ts:77-89 | the deduplicated list holds exactly the movies available on a subscribed provider |
| Subscriptions.FilteredMovieIsAvailable | services/subscriptions.ts:80-89 | every listed movie streams on one of the user's providers |
| Subscriptions.AvailableMovieIsFiltered | services/subscriptions.ts:80-89 | every movie on one of the user's providers is listed |
| Providers.ProviderLeIsTotalPreorder | components/profile/StreamingSubscriptions.tsx:31-35 | the grid comparator is a total preorder, so sorting by it is well defined |
| Providers.SortProviders | components/onboarding/StreamingStep.tsx:25-29 | the sorted grid is a permutation of the providers, sorted by the comparator |
| Providers.SortedGridOrder | components/profile/StreamingSubscriptions.tsx:31-35 | "All" comes before every other provider, and the rest are in name order |
| Providers.FindAll | components/profile/StreamingSubscriptions.tsx:37 | `find` returns the first "All" provider of the list, and none only when there is none |
| Providers.DropOptional | hooks/useOnboarding.ts:58 | filtering by a missing id keeps everything; otherwise it removes that id |
| Providers.NextSelection | hooks/useOnboarding.ts:52-61 | "All" toggles between [] and [All]; a selected provider is removed; an unselected one drops "All" and is appended |
| Providers.ToggleProvider | hooks/useOnboarding.ts:46-64 | the onboarding toggle, with "All" looked up among all providers, follows the same four cases |
| Providers.ToggleCases | hooks/useOnboarding.ts:54-61 | deselecting removes only that id and keeps the order; selecting appends it after the rest minus "All" |
| Providers.HandleToggle | components/profile/StreamingSubscriptions.tsx:39-58 | the settings toggle follows the same four cases, with "All" looked up in the sorted grid |
| Providers.FindAllOfSorted | components/profile/StreamingSubscriptions.tsx:31-37 | with one "All" provider, sorting does not change which one `find` returns |
| Providers.HandleToggleMatchesToggleProvider | components/profile/StreamingSubscriptions.tsx:39-58 | the settings screen and the onboarding hook compute the same next selection |
| Providers.ToggleKeepsSelectionWellFormed | components/profile/StreamingSubscriptions.tsx:43-56 | a toggle keeps the selection duplicate-free and never holds "All" together with another id |
| Providers.ProviderLabel | components/onboarding/StreamingStep.tsx:56 | the label is "All" for the pseudo-provider and the provider's name otherwise; `AllTileFirst` puts it at the head of the grid |
| Providers.ProviderGrid | components/onboarding/StreamingStep.tsx:24-56 | tile k shows the k-th provider of the sorted grid with its label, marked selected exactly when its id is selected; every provider has its tile |
| Providers.AllTileFirst | components/onboarding/StreamingStep.tsx:24-56 | whenever an "All" provider exists, the first tile of the grid reads "All" |
| Providers.ContinueDisabled | components/onboarding/StreamingStep.tsx:66 | Continue is disabled exactly when the step cannot advance |
| Providers.SelectedProviders | components/onboarding/CompletionStep.tsx:28-30 | shown providers are exactly those whose id is selected, in the order of all providers |
| Providers.SelectionOrderIgnored | components/onboarding/CompletionStep.tsx:28-30 | the summary depends only on which ids are selected, not on their order |
| Providers.UnknownIdIgnored | components/onboarding/CompletionStep.tsx:28-30 | a selected id that names no provider changes nothing |
| Providers.CompletionControlsFor | components/onboarding/CompletionStep.tsx:35-123 | back and finish are disabled exactly while saving, and the finish label says so; `Wizard.CompletionClickAt` routes clicks through it |
| Wizard.Next | hooks/useOnboarding.ts:33-39 | from step 1 to 2 exactly when a provider is chosen, from 2 to 3 exactly with three series, never past 3; nothing else changes |
| Wizard.Back | hooks/useOnboarding.ts:41-44 | one step down from 2 or 3, no change at step 1 |
| Wizard.BackUndoesNext | hooks/useOnboarding.ts:36-44 | a step forward is undone by a step back |
| Wizard.NextUndoesBack | hooks/useOnboarding.ts:36-44 | a step back is undone by a step forward when the earlier step's guard holds |
| Wizard.ToggleSeries | hooks/useOnboarding.ts:66-72 | an absent series is appended, a present one removed everywhere; membership flips and distinct ids stay distinct |
| Wizard.FilterKeepsUniqueIds | hooks/useOnboarding.ts:69 | removing entries keeps a duplicate-free selection duplicate-free |
| Wizard.ToggleSeriesTwice | hooks/useOnboarding.ts:66-72 | adding a series and clicking it again restores the selection |
| Wizard.MappedName | hooks/useOnboarding.ts:80 | `name ?? title ?? ""`: only a missing name falls through to the title |
| Wizard.MappedSeries | hooks/useOnboarding.ts:78-82 | one record per chosen series, in order, with its id, mapped name and poster |
| Wizard.MappedSeriesKeepsIds | hooks/useOnboarding.ts:78-82 | mapping keeps distinct ids distinct |
| Wizard.StartFinish | hooks/useOnboarding.ts:74-76 | finishing starts saving with no error shown, keeping the step and the selections |
| Wizard.SettleFinish | hooks/useOnboarding.ts:84-94 | only a completed call without error moves on to the feed; an error or exception shows the generic message and stops saving |
| Wizard.CompletionClickAt | components/onboarding/CompletionStep.tsx:35-114 | a click reaches back or finish only while not saving; while saving it changes nothing |
| Wizard.FinishClickLocksScreen | hooks/useOnboarding.ts:74-76 | after a finish click the button reads "Setting up your profile..." and further clicks on either button change nothing: one save at a time |
| Wizard.FailedFinishReenables | hooks/useOnboarding.ts:74-94 | a failed or thrown save shows the generic message, re-enables both buttons with "Get Started", and keeps the step and selections |
| Wizard.DispatchKeepsReady | app/onboarding/page.tsx:73-101 | every action a screen offers keeps the guards of the steps already passed |
| Wizard.Run | app/onboarding/page.tsx:73-101 | a run of offered actions never changes the loaded providers |
| Wizard.RunKeepsReady | hooks/useOnboarding.ts:33-44 | whatever is clicked, the completion screen is reached only with a service and three series chosen |
| OnboardingSteps.ActiveSegments | components/onboarding/ProgressBar.tsx:6-23 | a segment is lit exactly when its step is at most the current one; lit segments form a prefix as long as the current step |
| OnboardingSteps.ActiveSegmentsAtEnds | components/onboarding/ProgressBar.tsx:6-23 | at step 1 only the first segment is lit, at step 3 all are |
| OnboardingSteps.OnQueryChange | components/onboarding/FavoritesStep.tsx:30-39 | a blank query clears the grid and stops searching; any other query starts a search for itself |
| OnboardingSteps.OnSearchSettled | components/onboarding/FavoritesStep.tsx:41-53 | once the fetch settles only series are shown, in the answer's order; a failure shows nothing; the flag is off |
| OnboardingSteps.TypedQueryShowsUpstreamSeries | components/onboarding/FavoritesStep.tsx:39-53 | a signed-in search ends with exactly the series the metadata API found |
| OnboardingSteps.SignedOutShowsNothing | components/onboarding/FavoritesStep.tsx:43-50 | signed out, the grid stays empty whatever the search would find |
| OnboardingSteps.ContinueLabel | components/onboarding/FavoritesStep.tsx:170 | the label reads back the number of chosen series between "Continue (" and "/3 minimum)" |
| OnboardingSteps.ContinueEnabledIffNextAdvances | components/onboarding/FavoritesStep.tsx:162 | the series screen's Continue is enabled exactly when `next` moves to step 3 |
| OnboardingImport.ActionSeries | app/onboarding/actions.ts:42-67 | a series is rejected exactly when its fetch, movie save or rating fails, with that step's message; a fulfilled series is rated 5 with no comment; keys stay unique |
| OnboardingImport.ActionSeriesKeepsRatedFive | app/onboarding/actions.ts:41-68 | a series already rated 5 stays rated 5 whatever the next series does |
| OnboardingImport.ActionImport | app/onboarding/actions.ts:41-68 | one outcome per series; subscriptions and completion untouched; keys stay unique |
| OnboardingImport.ActionImportRatesFulfilled | app/onboarding/actions.ts:56-62 | every fulfilled series ends up rated 5 with no comment |
| OnboardingImport.ActionImportSettled | app/onboarding/actions.ts:45-66 | outcome k is a rejection exactly when series k's fetch, movie save or rating failed |
| OnboardingImport.FirstReason | app/onboarding/actions.ts:75 | the first rejection's message, or "Failed to save series." when it has none |
| OnboardingImport.AllRejectedIff | app/onboarding/actions.ts:70-74 | the rejected outcomes are all of them exactly when no series was imported |
| OnboardingImport.ActionAfterSubscriptions | app/onboarding/actions.ts:41-89 | an error exactly when every series failed (an empty list counts) or the profile update failed; the profile is completed only on success |
| OnboardingImport.CompleteOnboardingAction | app/onboarding/actions.ts:16-90 | signed out: an error and no write; a subscription failure returns before any series |
| OnboardingImport.ServiceSeries | services/onboarding.ts:28-43 | a failed fetch or movie save skips the series; otherwise it is rated 5 and rating errors are ignored |
| OnboardingImport.ServiceImport | services/onboarding.ts:28-43 | the loop touches neither subscriptions nor completion |
| OnboardingImport.CompleteOnboarding | services/onboarding.ts:17-51 | a subscription error is returned at once; otherwise the profile is completed even if every series was skipped, and only the profile error is returned |
| OnboardingImport.ServiceWritesLikeAction | services/onboarding.ts:28-43 | the service's loop makes the same writes as the action's per-series promises |
| OnboardingImport.ServiceImportRatesSurvivors | services/onboarding.ts:42 | every series whose fetch, save and rating succeed ends up rated 5 |
| OnboardingImport.AllFailedContrast | app/onboarding/actions.ts:74-78 | when no series can be imported the action reports an error and leaves the profile incomplete, while the service completes it |
| SearchRoute.Route | app/api/tmdb/search/route.ts:9-16 | signed out gives 401; a missing or empty query gives no results; only otherwise is the upstream searched, for that query |
| SearchRoute.AfterSearch | app/api/tmdb/search/route.ts:18-27 | an upstream failure gives 500; otherwise exactly the films and series, in order and each as often as upstream returned it, with the count of the filtered list |
| SearchRoute.Search | app/api/tmdb/search/route.ts:5-28 | the whole handler: the early returns, then the upstream outcome |
| Friendships.UpdateWhere | services/friendships.ts:28-32 | the selected rows get the update and every other row is unchanged |
| Friendships.SendFriendRequest | services/friendships.ts:6-25 | on success one pending requester-to-addressee row and, when stored, exactly one unread "friend_request" notification for the addressee; on error nothing changes |
| Friendships.AcceptFriendRequest | services/friendships.ts:27-47 | only the row with this id and addressee becomes accepted; otherwise an error and no change; on success the requester is notified with "friend_accepted" |
| Friendships.SingleMatch | services/friendships.ts:31-34 | with unique ids at most one row matches, so `.single()` succeeds when one does |
| Friendships.RejectFriendRequest | services/friendships.ts:49-56 | only the addressee's matching row becomes rejected; no notification |
| Friendships.RemoveFriend | services/friendships.ts:58-65 | the row is deleted only when the caller is one of its parties; every other row is kept in order |
| Friendships.GetFriends | services/friendships.ts:67-74 | the data of a successful query: exactly the accepted rows in which the user is either party, as many as the table holds, in table order |
| Friendships.GetFriendsRead | services/friendships.ts:67-74 | `{ data, error }`: a failed query gives null data and its error; otherwise exactly the accepted rows involving the user, each as often as stored |
| Friendships.NewerFirstIsTotalPreorder | services/friendships.ts:82 | the newest-first order is a total preorder |
| Friendships.GetPendingRequests | services/friendships.ts:76-84 | the data of a successful query: exactly the pending rows addressed to the user, newest first |
| Friendships.GetPendingRequestsRead | services/friendships.ts:76-84 | `{ data, error }`: a failed query gives null data and its error; otherwise the incoming pending rows as a multiset, newest first |
| Friendships.GetFriendshipStatus | services/friendships.ts:86-95 | when the query itself succeeds: the row between the two users when exactly one exists |
| Friendships.GetFriendshipStatusRead | services/friendships.ts:86-95 | only `data` is returned, so a failed query reads as null, like no row; otherwise the row when exactly one exists |
| Friendships.GetFriendshipStatusSymmetric | services/friendships.ts:86-95 | asking about (a, b) or (b, a) gives the same answer |
| Friendships.AcceptMakesFriends | services/friendships.ts:27-74 | after an accept each party finds the other among their friends |
| Friendships.SendThenStatusPending | services/friendships.ts:6-95 | after a first request between two users the lookup finds the pending row from either side |
| Ratings.GetUserRating | services/ratings.ts:56-64 | a row only when exactly one row has the key, and it is that user's rating of that title |
| Ratings.GetUserRatingFinds | services/ratings.ts:49-64 | with the key unique, an existing rating is the one the lookup finds |
| Ratings.UpsertRating | services/ratings.ts:32-54 | the key's row gets the new score and comment, or a new row is added; other rows unchanged; the key stays unique and the lookup then finds the returned row |
| Ratings.DeleteRating | services/ratings.ts:66-73 | only the key's rows go; every other row is kept in order |
| Ratings.DeleteKeepsOtherLookups | services/ratings.ts:56-73 | after a delete, the lookup of every other (user, title) key returns what it returned before |
| Ratings.DeleteAfterUpsert | services/ratings.ts:32-73 | upserting then deleting a key leaves the table as deleting alone |
| Ratings.NewestFirstIsTotalPreorder | services/ratings.ts:26 | the newest-first order is a total preorder |
| Ratings.FriendIds | services/ratings.ts:8-16 | every accepted friendship of the user contributes its other party |
| Ratings.FriendIdsAreOtherParties | services/ratings.ts:14-16 | every friend id is the other party of an accepted friendship of the user |
| Ratings.Page | services/ratings.ts:27 | at most `limit` rows, taken from position `offset` on |
| Ratings.PagesTile | services/ratings.ts:27 | consecutive pages join into one larger page |
| Ratings.GetFriendsFeed | services/ratings.ts:6-30 | no friends gives [] with no error; otherwise the query error, or exactly the page at `offset` of at most `limit` of the friends' ratings, newest first |
| Ratings.FeedCallsTile | services/ratings.ts:6-30 | two consecutive feed calls, the second starting where the first ended, return what one call with the summed limit returns |
| Ratings.FriendsRatings | services/ratings.ts:22-26 | exactly the friends' ratings, newest first |
| Ratings.PagesFromIsPage | services/ratings.ts:27 | reading pages one after another is reading one long page |
| Ratings.FeedPagesCoverFriendsRatings | services/ratings.ts:22-27 | paging through the feed shows every friend rating exactly once, in order |
| Movies.GenreNames | services/movies.ts:30 | the genre names in the metadata's order |
| Movies.FirstRunTime | services/movies.ts:15 | the first episode run time, or none when the list is absent or empty |
| Movies.FieldsOf | services/movies.ts:13-32 | a film gives its title, release date, runtime and no season count; a series its name, first air date, first run time and season count; absent genres are [] |
| Movies.Overwrite | services/movies.ts:18-36 | the upserted columns replace the row's, which keeps its id and creation time |
| Movies.UpsertOn | services/movies.ts:18-38 | rows outside the conflict key are untouched; the key's rows are overwritten, or a row is added |
| Movies.EnsureMovieExistsAsWritten | services/movies.ts:7-41 | keyed on `tmdb_id` alone: on success no error and at most one row added; the returned row carries the given identity and columns, and rows with other ids are kept |
| Movies.FindTitle | services/movies.ts:35 | the lookup under the corrected (tmdb id, media type) key of the first Findings row: the row of that identity, if any |
| Movies.FilmOverwritesSeriesWithSameId | services/movies.ts:35 | as written, saving a film with a stored series' external id leaves no series of that id, and the series' row id now holds the film |
| Movies.EnsureMovieExists | services/movies.ts:7-41 | keyed on (tmdb id, media type): on success no error and at most one row added; other identities are kept, one row per identity holds, and the lookup finds the returned row |
| Movies.FindTitleUnique | services/movies.ts:35 | with one row per corrected identity, that lookup finds the row |
| Movies.EnsureMovieExistsKeepsIds | services/movies.ts:18-38 | saving any title keeps every stored identity under the same row id |
| Movies.FilmAndSeriesCoexist | services/movies.ts:35 | with the corrected key the stored series survives the film's save next to it, and a `tmdb_id`-only lookup then matches two rows and fails |
| Movies.GetMovieByTmdbId | services/movies.ts:43-50 | `getMovieByTmdbId`: the row when exactly one row has the `tmdb_id`, whatever its media type; otherwise the `.single()` error or the query's own error |
| Movies.GetMovieByTmdbIdFinds | services/movies.ts:43-50 | with one row per `tmdb_id`, every stored row is what the lookup of its id returns |
| Movies.SaveThenGetAsWritten | services/movies.ts:7-50 | as written, the row a successful save returns is what the lookup by `tmdb_id` returns afterwards |
| Episodes.FollowedMovieIds | services/episodes.ts:27-36 | exactly the shows the user follows |
| Episodes.AirDateAscendingIsTotalPreorder | services/episodes.ts:44 | the air-date order is a total preorder |
| Episodes.GetUpcomingEpisodes | services/episodes.ts:20-47 | no follows gives [] with no error; otherwise exactly the followed shows' episodes dated within the range, each once per stored row, by air date, or the query error |
| Episodes.BroadcastOrderIsTotalPreorder | services/episodes.ts:54-55 | season-then-episode order is a total preorder |
| Episodes.GetEpisodesForShow | services/episodes.ts:49-57 | exactly the show's episodes, by season and then episode number |
| Notifications.MarkRead | hooks/useNotifications.ts:25-30 | the entries with that id become read; every entry keeps its place and other fields; other ids are untouched |
| Notifications.MarkAllRead | hooks/useNotifications.ts:32-35 | every entry becomes read, nothing else changes, and the unread count is 0 |
| Notifications.UnreadCount | hooks/useNotifications.ts:37 | at most the length; zero exactly when all are read, the length exactly when none is |
| Notifications.UnreadCountAppend | hooks/useNotifications.ts:37 | the count is additive over concatenation |
| Notifications.MarkReadLowersCount | hooks/useNotifications.ts:25-37 | marking an id read lowers the count by the unread entries carrying it |
| Notifications.MarkUnreadDecrementsBadge | hooks/useNotifications.ts:25-37 | with unique ids, marking an unread entry lowers the count by exactly one |
| Notifications.MarkReadKeepsBadge | hooks/useNotifications.ts:25-37 | marking an already-read or absent id leaves the count as it is |
| Notifications.MarkReadIdempotent | hooks/useNotifications.ts:27-29 | marking the same id twice is marking it once |
| Notifications.MarkReadAfterMarkAll | hooks/useNotifications.ts:27-34 | after marking all, marking one changes nothing |
| FriendsView.FriendItems | hooks/useFriends.ts:38-46 | one entry per row, in order, with the friendship id; the profile shown is the other party's |
| FriendsView.ProfileIds | hooks/useFriends.ts:44 | the ids of the profiles shown, in order |
| FriendsView.FriendListIsFeedFriends | hooks/useFriends.ts:38-46 | the friend list shows exactly the users whose ratings the feed reads, in the same order |
| FriendsView.PendingItems | hooks/useFriends.ts:49-55 | one entry per request row, in order, with the requester's profile |
| FriendsView.FetchData | hooks/useFriends.ts:31-58 | each list is rebuilt from its rows when its query returned data, and kept as it was when the query failed |
| FriendsView.FetchedFriendsAreFeedFriends | hooks/useFriends.ts:31-58 | after a refetch whose friends query succeeded, the friend list shows exactly the feed's friends, whatever it showed before |
| FriendsView.PendingItemsAskedTheUser | hooks/useFriends.ts:49-55 | everyone on the request list has a pending request to the user |
| FriendsView.StatusLabel | components/friends/UserSearchBar.tsx:74-80 | no row gives no label; accepted, pending and rejected give "Friends", "Pending" and "Rejected" |
| FriendsView.StatusLabelInjective | components/friends/UserSearchBar.tsx:74-80 | different statuses never show the same label |
| FriendsView.EntriesOf | components/friends/UserSearchBar.tsx:42-50 | with every status query answered: one entry per profile found, with the status of the row between the user and that profile |
| FriendsView.EntriesOfRead | components/friends/UserSearchBar.tsx:42-50 | one entry per profile found; a profile whose status query failed shows no status, and every other shows what `EntriesOf` shows |
| FriendsView.EntriesOfReadWithoutErrors | components/friends/UserSearchBar.tsx:42-50 | with no failed status query the entries are those of `EntriesOf` |
| FriendsView.FailedStatusOffersAdd | components/friends/UserSearchBar.tsx:42-121 | a profile whose status query failed gets no label and the "Add" button, even when a row links it to the user |
| FriendsView.MarkPending | components/friends/UserSearchBar.tsx:61-72 | only the target profile's entries become pending; the others are unchanged |
| FriendsView.MarkPendingMatchesLookup | components/friends/UserSearchBar.tsx:61-72 | after a successful first request the local update equals looking the statuses up again |
| FriendsView.AddButton | components/friends/UserSearchBar.tsx:110-121 | the add button appears exactly when there is no label, disabled only for the profile being sent to |
| FriendsView.OnQueryChangeAsWritten | components/friends/UserSearchBar.tsx:31-39 | as written: a blank query clears the results and cancels the timer but leaves the searching flag as it was |
| FriendsView.OnQueryChange | components/onboarding/FavoritesStep.tsx:33-36 | as intended: a blank query clears the results and stops searching |
| FriendsView.OnTimerFired | components/friends/UserSearchBar.tsx:41-53 | the timer replaces the results with those found (keeps them when none came back) and stops searching |
| FriendsView.RunKeepsHonest | components/friends/UserSearchBar.tsx:31-59 | with the intended effect, "Searching..." is shown exactly while a search is scheduled, whatever is typed |
| FriendsView.ErasedQueryKeepsSearching | components/friends/UserSearchBar.tsx:34-37 | as written, typing one letter and erasing it leaves "Searching..." on for good with nothing scheduled |
| FriendsView.ColourOf | components/friends/CompatibilityScore.tsx:31-36 | four disjoint bands at 80, 60 and 40 cover every score |
| FriendsView.ColourMonotone | components/friends/CompatibilityScore.tsx:31-36 | a higher score never gets a worse colour |
| FriendsView.Badge | components/friends/CompatibilityScore.tsx:29-36 | nothing before the result loads or with no common title; otherwise the score in its band's colour |
| FriendsView.BadgeSymmetric | components/friends/CompatibilityScore.tsx:21-36 | two friends see the same badge on each other's profile |
| FriendsView.IdenticalTasteBadge | components/friends/CompatibilityScore.tsx:29-36 | identical taste shows 100 in the success colour |
| FriendsView.OpposedTasteBadge | components/friends/CompatibilityScore.tsx:29-36 | opposed taste shows 0 in the danger colour |
| RatingState.DisplayValue | components/movie/StarRating.tsx:22 | the hovered star while hovering, the value otherwise |
| RatingState.OneTo | components/movie/StarRating.tsx:26 | the star numbers 1 to k in order |
| RatingState.FilledAmongFirst | components/movie/StarRating.tsx:43 | among stars 1 to k, as many are filled as the shown value clamped to 0..k |
| RatingState.FilledStarsCount | components/movie/StarRating.tsx:26-43 | of the five stars, the shown value clamped to 0..5 are filled |
| RatingState.FilledStarsArePrefix | components/movie/StarRating.tsx:43 | a filled star has every star to its left filled |
| RatingState.ClickValue | components/movie/StarRating.tsx:36 | read-only stars report nothing; clicking the current value reports 0, any other star its number |
| RatingState.OnHover | components/movie/StarRating.tsx:37-38 | entering a star shows it, leaving shows the value; read-only stars ignore hovering |
| RatingState.ClickTwice | components/movie/StarRating.tsx:22-36 | clicking a star sets it and clicking it again clears it |
| RatingState.LoadRating | hooks/useRating.ts:13-19 | an existing rating loads its score and comment (a missing comment as ""); otherwise the form is kept |
| RatingState.SubmitRating | hooks/useRating.ts:21-32 | score 0 deletes and empties the form; another score upserts with `newComment ?? comment` and keeps the form's comment |
| RatingState.RemoveRating | hooks/useRating.ts:34-40 | deletes the rating and empties the form |
| RatingState.RemoveIsSubmitZero | hooks/useRating.ts:21-40 | removing is submitting score 0 |
| RatingState.SubmitThenLoad | hooks/useRating.ts:13-32 | a successful submit without a new comment is what a reload shows |
| RatingState.SubmitNewCommentDiverges | hooks/useRating.ts:28-30 | with a new comment, the reload shows it while the form keeps the old one |
| RatingState.HeaderOf | components/movie/MovieDetail.tsx:39-41 | title, date and runtime come from the film or the series shape |
| RatingState.HeaderMatchesStoredRow | components/movie/MovieDetail.tsx:39-41 | the header and the stored row derive title, date and runtime the same way |
| RatingState.InitMovie | components/movie/MovieDetail.tsx:44-60 | once the row is stored the page loads the rating, the follow flag (series only) and the watchlist flag; otherwise nothing changes |
| RatingState.HandleRate | components/movie/MovieDetail.tsx:67-78 | nothing before the row is known; score 0 deletes, any other upserts with an empty comment stored as none |
| RatingState.HandleComment | components/movie/MovieDetail.tsx:80-85 | nothing before the row is known or while the score is 0; otherwise the shown score and comment are saved |
| RatingState.RateThenReopen | components/movie/MovieDetail.tsx:44-78 | a successful rating survives reopening the page |
| RatingState.ClickCurrentStarClears | components/movie/MovieDetail.tsx:67-78 | clicking the current score's star deletes the rating, and a reload shows none |
| RatingState.HandleWatchlist | components/movie/MovieDetail.tsx:87-98 | removes a listed title, adds an unlisted one, flips the flag; nothing before the row is known |
| RatingState.WatchlistTwice | components/movie/MovieDetail.tsx:87-98 | two presses restore the flag, through one add and one remove |
| RatingState.HandleFollow | components/movie/MovieDetail.tsx:100-115 | unfollows or follows and flips the flag; episodes are synced only when following a series |
| Calendar.GroupKey | components/calendar/CalendarView.tsx:30 | an episode groups under its air date, or "Unknown" when it has none or an empty one |
| Calendar.GroupIndex | components/calendar/CalendarView.tsx:31 | the group with that date, if any |
| Calendar.GroupByAirDateGroups | components/calendar/CalendarView.tsx:29-34 | each group holds exactly its date's episodes in input order, dates are distinct, every episode has a group, and the sizes sum to the input length |
| Calendar.AddToGroupsKeeps | components/calendar/CalendarView.tsx:31-33 | one step of the reduce keeps all of those promises |
| Calendar.AddToGroupsFilters | components/calendar/CalendarView.tsx:31-33 | after a step each group still holds exactly its date's episodes |
| Calendar.UngroupedKeyUnused | components/calendar/CalendarView.tsx:31 | a date that heads no group is the date of no episode |
| Calendar.JoinGroupFilters | components/calendar/CalendarView.tsx:32 | an episode joining its date's group keeps the groups exact |
| Calendar.NewGroupFilters | components/calendar/CalendarView.tsx:31-32 | an episode opening a new group keeps the groups exact |
| Calendar.AddToGroupsTotal | components/calendar/CalendarView.tsx:31-33 | a step adds one row in total |
| Calendar.AddToGroupsCovers | components/calendar/CalendarView.tsx:31-33 | after a step every episode, old and new, has a group |
| Calendar.TotalRowsUpdate | components/calendar/CalendarView.tsx:32 | growing one group changes the total by the growth |
| Calendar.EachEpisodeInOneGroup | components/calendar/CalendarView.tsx:29-34 | each episode is listed under exactly one heading, its date's |
| Calendar.NoEpisodesNoGroups | components/calendar/CalendarView.tsx:85-106 | no episodes gives no groups |
| Calendar.ShowsList | components/calendar/CalendarView.tsx:85-106 | the list is shown exactly when there are episodes; the empty state otherwise |
| Calendar.TwoDigits | components/calendar/EpisodeRow.tsx:13 | the number's digits padded to two; wider numbers kept whole; reads back as the number |
| Calendar.EpisodeLabelInjective | components/calendar/EpisodeRow.tsx:13 | the `SxxEyy` label determines season and episode |
| Calendar.SplitAtFirstE | components/calendar/EpisodeRow.tsx:13 | a run of digits followed by `E` ends at the first `E` |
| Calendar.EpisodeHref | components/calendar/EpisodeRow.tsx:12 | `/movie/tv-` and the show's id, the same link the rest of the app builds |
| Calendar.EpisodeHrefOpensShow | components/calendar/EpisodeRow.tsx:12 | the row's link opens the series page of its show |
| Calendar.NameSuffix | components/calendar/EpisodeRow.tsx:39 | ` · name` only for an episode with a non-empty name |
| Calendar.ShownAirDate | components/calendar/EpisodeRow.tsx:42-46 | the air date is shown only when present and non-empty |
| MovieRoute.RouteId | components/movie/PosterCard.tsx:15 | the id segment is the media type, a dash and the decimal id |
| MovieRoute.RouteIdRoundTrip | components/movie/PosterCard.tsx:15 | every link built for a title with a positive id is parsed back by the title page to that title |
| PosterCard.CardTitle | components/movie/PosterCard.tsx:13 | the film title, else the series name, else "Unknown"; empty strings count as missing; never empty |
| PosterCard.CardDate | components/movie/PosterCard.tsx:14 | the release date, else the first air date, else "" |
| PosterCard.CardYear | components/movie/PosterCard.tsx:14-36 | at most the first four characters of that date; the year line is hidden exactly when there is no date |
| PosterCard.CardYearOfIsoDate | components/movie/PosterCard.tsx:14 | for a `YYYY-MM-DD` date the year line is `YYYY` |
| PosterCard.AsMediaType | components/movie/PosterCard.tsx:15 | films and series have a title page type, people none |
| PosterCard.CardHref | components/movie/PosterCard.tsx:15 | `/movie/` followed by the media type, a dash and the id |
| PosterCard.CardOpensItsTitle | components/movie/PosterCard.tsx:15 | the card of a film or series with a positive id opens exactly that title's page |
| PosterCard.CardWithoutTitleNotFound | components/movie/PosterCard.tsx:15 | a person's card, or one with a non-positive id, leads to "not found" |
| BottomNav.ActivePrefix | components/layout/BottomNav.tsx:24 | an active tab's route is a prefix of the path |
| BottomNav.ActiveBelow | components/layout/BottomNav.tsx:24 | every page below a tab's route keeps the tab active |
| BottomNav.SiblingNotActive | components/layout/BottomNav.tsx:24 | a path that only extends the route's name (`/feedback` for `/feed`) does not activate it |
| BottomNav.DifferingNotActive | components/layout/BottomNav.tsx:24 | a path that differs from the route at a shared position does not activate it |
| BottomNav.AtMostOneActive | components/layout/BottomNav.tsx:9-24 | with the five routes, no path activates two tabs |
| BottomNav.ActiveTab | components/layout/BottomNav.tsx:9-24 | the highlighted tab is the one tab the path activates, and there is none only when no tab is active |
| CountBadge.BadgeLabel | components/ui/Badge.tsx:9-18 | no bubble for a count of 0 or less; digits up to 99; "99+" above; never longer than 3 characters |
| CountBadge.BadgeShowsCount | components/ui/Badge.tsx:18 | from 1 to 99 the bubble reads back as the exact count |
| CountBadge.BadgeDistinguishesSmallCounts | components/ui/Badge.tsx:18 | counts up to 99 get different bubbles, and none is confused with "99+" |
| CountBadge.BellBubbleIffUnread | hooks/useNotifications.ts:37 | fed the unread count, the bell shows a bubble exactly when some notification is unread |
| CountBadge.MarkAllReadHidesBubble | hooks/useNotifications.ts:32-37 | after "mark all as read" the bell shows no bubble |

The title page `app/(app)/movie/[id]/page.tsx` splits its route segment at lines 19-24; its path cannot be written in a table cell above, so its members are listed here:

- `MovieRoute.BeforeDash` (line 19): the text before the first dash, which contains none.
- `MovieRoute.BeforeDashStops` (line 19): splitting `a-b` gives `a` when `a` has no dash.
- `MovieRoute.ParseMediaType` (line 22): exactly "movie" and "tv" are media types.
- `MovieRoute.ParseRouteId` (lines 19-24): only a film or series with a positive id is a title page.
- `MovieRoute.RouteIdRoundTrip` (lines 19-24, with the link of PosterCard.tsx:15 above): every link built for a title with a positive id opens that title's page.

## Left out

- Network, authentication and sessions. The database client, the metadata API client, `syncEpisodesFromTMDB` and the auth plumbing are not modelled. Their answers are inputs: a database error, whether data came back, the details fetched.
- Thin single-query services and hooks (watchlist, follows, notifications, profiles, feed, subscriptions hooks). Their behaviour lives in the database library; only the calls the modelled code makes are represented, as `WatchlistCall`/`FollowCall` values or as table updates.
- Clocks and ids. `new Date().toISOString()` and database-generated ids are parameters (`now`, `newId`); timestamps are ordered values, not dates.
- Dates are compared as "YYYY-MM-DD" text, as the database compares them. Calendar date arithmetic (hooks/useCalendar.ts, utils/formatDate.ts) is not modelled.
- Timers and concurrency. Debounce timers are events in a sequence. `Promise.all`/`allSettled` are folds over the list in order; results overlapping with new typing are not modelled.
- Compatibility.RoundDiv: the score is computed in exact rational arithmetic. Floating-point `Math.round` could differ only at binary rounding boundaries.
- The CompatibilityScore circle's stroke arithmetic (floating point) is not modelled; only the visibility rule and the colour bands are.
- Text order: `localeCompare` is modelled as lexicographic order on Unicode scalar values (`Text.LexLe`), a total order. Locale collation is not modelled.
- Characters: strings are sequences of Unicode scalar values (Dafny `char`), not UTF-16 code units. Outside the Basic Multilingual Plane a JavaScript character counts as two units, so `slice`, `padStart` and the order can differ there; lone surrogates cannot be represented. Every string whose length the model uses is digits or an ISO date.
- OnboardingImport.ActionSeries: saves the series with the corrected movie upsert (`Movies.EnsureMovieExists`, keyed on tmdb id and media type) instead of the `tmdb_id`-only upsert of services/movies.ts:35, because the rest of the model uses the corrected half of the first row under Findings; with the key as written, importing a series whose external id equals a rated film's overwrites that film's row and replaces its rating by 5.
- OnboardingImport.ActionImport: folds `ActionSeries`, so it has the same corrected movie key.
- OnboardingImport.CompleteOnboardingAction: its movie writes use the corrected movie key, as `ActionSeries`.
- OnboardingImport.ServiceSeries: saves the series with the corrected movie key, as `ActionSeries`.
- OnboardingImport.ServiceImport: folds `ServiceSeries`, so it has the same corrected movie key.
- OnboardingImport.CompleteOnboarding: its movie writes use the corrected movie key, as `ServiceSeries`.
- Ratings.GetFriendsFeed: requires `limit >= 1`; `range(offset, offset - 1)` for a zero limit is left to the database library.
- Rows with equal sort keys: the database chooses their order. The model uses one stable order, and every ordering property is stated as sortedness plus the multiset of rows.
- MovieRoute.ParseRouteId: reads only plain decimal digits. `Number()` also accepts forms such as "1e3", " 7" or "0x10", which no link in the app produces.
- The profile's `onboarding_completed` flag is modelled as the set of users who completed onboarding; the rest of the profile update is not modelled.
- hooks/useFriends.ts: the `loading` flag is not modelled. The refetch after each action is `FriendsView.FetchData` on the new tables' query outcomes.
- FriendsView.MarkPendingMatchesLookup: the results are marked pending after any send, even one that failed. The lemma covers the successful send only.
- `getStatusLabel`'s final `return null` cannot be reached with the three statuses of the schema; the model has no such case.
- JSON parsing errors and thrown exceptions are modelled as the outcomes they lead to (`None` from the search, a rejected promise, the generic finish error).
- The calendar's group order is the order in which dates first appear. JavaScript object keys keep insertion order for non-numeric strings, which covers dates and "Unknown".
- Pure presentation (layout, icons, images, avatars, the landing page) is not modelled.

## Findings

| source | as written | input that shows it | evidently intended | confidence | as-written member | corrected member |
|---|---|---|---|---|---|---|
| services/movies.ts:35 | the movie upsert conflicts on `tmdb_id` alone, while films and series are numbered separately by the metadata API | save series 1399, then film 1399: the film's columns overwrite the series row (the lemmas state it for every id and table) | one row per (tmdb_id, media_type), so a film and a series with the same number coexist | medium, not executed | Movies.EnsureMovieExistsAsWritten, Movies.FilmOverwritesSeriesWithSameId | Movies.EnsureMovieExists, Movies.FilmAndSeriesCoexist |
| components/friends/UserSearchBar.tsx:34-37 | a blank query clears the results and cancels the pending timer but does not reset `searching` | type "a", then erase it within 400 ms: "Searching..." stays on and no search will ever clear it | reset `searching` to false on a blank query, as components/onboarding/FavoritesStep.tsx:33-36 does | high, not executed | FriendsView.OnQueryChangeAsWritten, FriendsView.ErasedQueryKeepsSearching | FriendsView.OnQueryChange, FriendsView.RunKeepsHonest |

=== FILE: bottom_nav.dfy ===
/** The tab bar at the bottom of every signed-in page
    (components/layout/BottomNav.tsx): five tabs, each highlighted when the
    current path is its route or lies below it. */
module BottomNav {
  import opened Wrappers
  import opened Text
  import opened Seqs

  /** The routes of the tab bar (utils/constants.ts). */
  const FeedRoute := "/feed"
  const CalendarRoute := "/calendar"
  const SearchRoute := "/search"
  const FriendsRoute := "/friends"
  const ProfileRoute := "/profile"

  datatype Tab = Tab(href: string, caption: string)

  const Tabs: seq<Tab> := [
    Tab(FeedRoute, "Feed"),
    Tab(CalendarRoute, "Calendar"),
    Tab(SearchRoute, "Search"),
    Tab(FriendsRoute, "Friends"),
    Tab(ProfileRoute, "Profile")
  ]

  /** A tab is active when the path is its route or starts with the route
      followed by `/`. */
  predicate IsActive(pathname: string, href: string) {
    pathname == href || StartsWith(pathname, href + "/")
  }

  /** An active tab's route is a prefix of the path. */
  lemma ActivePrefix(pathname: string, href: string)
    requires IsActive(pathname, href)
    ensures |href| <= |pathname| && pathname[..|href|] == href
  {
    if pathname != href {
      assert pathname[..|href|] == (href + "/")[..|href|];
    }
  }

  /** Every page below a tab's route keeps the tab active. */
  lemma {:induction false} ActiveBelow(href: string, rest: string)
    ensures IsActive(href + "/" + rest, href)
  {
    assert (href + "/" + rest)[..|href + "/"|] == href + "/";
  }

  /** A path that merely extends the route's name without a `/` (`/feedback`
      for `/feed`) does not activate the tab. */
  lemma {:induction false} SiblingNotActive(href: string, c: char, rest: string)
    requires c != '/'
    ensures !IsActive(href + [c] + rest, href)
  {
    var p := href + [c] + rest;
    assert p[|href|] == c;
    assert |p| > |href|;
  }

  /** A path that differs from the route at a position both have does not
      activate the tab. */
  lemma DifferingNotActive(pathname: string, href: string, k: nat)
    requires k < |href| && k < |pathname| && pathname[k] != href[k]
    ensures !IsActive(pathname, href)
  {
  }

  /** No path activates two tabs: any two routes differ at a position both
      have, so no path starts with both. */
  lemma {:induction false} AtMostOneActive(pathname: string, i: nat, j: nat)
    requires i < |Tabs| && j < |Tabs| && i != j
    ensures IsActive(pathname, Tabs[i].href) ==> !IsActive(pathname, Tabs[j].href)
  {
    var a := Tabs[i].href;
    var b := Tabs[j].href;
    var k := if a[1] != b[1] then 1 else 2;
    assert k < |a| && k < |b| && a[k] != b[k];
    if IsActive(pathname, a) {
      ActivePrefix(pathname, a);
      assert pathname[k] == pathname[..|a|][k];
      DifferingNotActive(pathname, b, k);
    }
  }

  function HrefActive(pathname: string): Tab -> bool {
    (t: Tab) => IsActive(pathname, t.href)
  }

  /** The highlighted tab, if any: the position of the tab the path
      activates, which is the only one it activates. */
  function ActiveTab(pathname: string): (r: Option<nat>)
    ensures r.Some? ==> r.value < |Tabs| && IsActive(pathname, Tabs[r.value].href)
    ensures r.Some? ==> forall j :: 0 <= j < |Tabs| && j != r.value ==> !IsActive(pathname, Tabs[j].href)
    ensures r.None? <==> forall j :: 0 <= j < |Tabs| ==> !IsActive(pathname, Tabs[j].href)
  {
    var r := IndexWhere(Tabs, HrefActive(pathname));
    assert r.Some? ==> forall j :: 0 <= j < |Tabs| && j != r.value ==> !IsActive(pathname, Tabs[j].href) by {
      if r.Some? {
        forall j | 0 <= j < |Tabs| && j != r.value
          ensures !IsActive(pathname, Tabs[j].href)
        {
          AtMostOneActive(pathname, r.value, j);
        }
      }
    }
    r
  }
}

=== FILE: calendar.dfy ===
/** The calendar screen's list (components/calendar/CalendarView.tsx) and its
    rows (components/calendar/EpisodeRow.tsx): episodes grouped by air date,
    and each row's label, link and optional parts. */
module Calendar {
  import opened Wrappers
  import opened Schema
  import opened Seqs
  import opened Text
  import MovieRoute

  /** An episode with its show embedded (`select("*, movies(*)")`). */
  datatype EpisodeWithShow = EpisodeWithShow(episode: Episode, show: MovieRow)

  // ---------------------------------------------------------------------
  // Grouping by air date
  // ---------------------------------------------------------------------

  const UnknownDate := "Unknown"

  /** `ep.air_date || "Unknown"`: a missing or empty date groups as "Unknown". */
  function GroupKey(e: EpisodeWithShow): (key: string)
    ensures e.episode.airDate.Some? && e.episode.airDate.value != "" ==> key == e.episode.airDate.value
    ensures e.episode.airDate.None? || e.episode.airDate.value == "" ==> key == UnknownDate
  {
    match e.episode.airDate
    case Some(d) => if d != "" then d else UnknownDate
    case None => UnknownDate
  }

  function KeyIs(key: string): EpisodeWithShow -> bool {
    (e: EpisodeWithShow) => GroupKey(e) == key
  }

  /** One heading of the list and the rows under it. */
  datatype Group = Group(date: string, episodes: seq<EpisodeWithShow>)

  /** The number of rows over all groups. */
  function TotalRows(groups: seq<Group>): nat
    decreases |groups|
  {
    if groups == [] then 0 else TotalRows(groups[..|groups| - 1]) + |groups[|groups| - 1].episodes|
  }

  /** The index of the group with the given date, if any. */
  function GroupIndex(groups: seq<Group>, date: string): (r: Option<nat>)
    ensures r.Some? ==> r.value < |groups| && groups[r.value].date == date
    ensures r.None? ==> forall g :: 0 <= g < |groups| ==> groups[g].date != date
  {
    IndexWhere(groups, (g: Group) => g.date == date)
  }

  /** What the grouping `reduce` promises about its result for a list of
      episodes: each group holds exactly the episodes with its date, in input
      order; no date heads two groups; no group is empty; every episode's
      date heads a group; and the groups together hold every episode once. */
  ghost predicate GroupsOf(groups: seq<Group>, eps: seq<EpisodeWithShow>) {
    && Partitioned(groups, eps)
    && (forall i :: 0 <= i < |eps| ==> GroupIndex(groups, GroupKey(eps[i])).Some?)
    && TotalRows(groups) == |eps|
  }

  /** Each group holds exactly the episodes with its date, in input order;
      no date heads two groups; no group is empty. */
  ghost predicate Partitioned(groups: seq<Group>, eps: seq<EpisodeWithShow>) {
    && (forall g :: 0 <= g < |groups| ==> groups[g].episodes == Filter(eps, KeyIs(groups[g].date)))
    && (forall g, h :: 0 <= g < h < |groups| ==> groups[g].date != groups[h].date)
    && (forall g :: 0 <= g < |groups| ==> |groups[g].episodes| > 0)
  }

  /** One step of the `reduce`: the episode joins the group of its date, or
      opens a new group at the end. */
  function AddToGroups(groups: seq<Group>, e: EpisodeWithShow): seq<Group> {
    var key := GroupKey(e);
    match GroupIndex(groups, key)
    case Some(j) => groups[j := Group(key, groups[j].episodes + [e])]
    case None => groups + [Group(key, [e])]
  }

  /** The grouping `reduce`: groups appear in the order their date first
      occurs (the object's insertion order). */
  function GroupByAirDate(eps: seq<EpisodeWithShow>): seq<Group>
    decreases |eps|
  {
    if eps == [] then [] else AddToGroups(GroupByAirDate(eps[..|eps| - 1]), eps[|eps| - 1])
  }

  /** The grouping keeps every promise of `GroupsOf`. */
  lemma {:induction false} GroupByAirDateGroups(eps: seq<EpisodeWithShow>)
    ensures GroupsOf(GroupByAirDate(eps), eps)
    decreases |eps|
  {
    if eps != [] {
      var n := |eps| - 1;
      var prev := GroupByAirDate(eps[..n]);
      GroupByAirDateGroups(eps[..n]);
      assert GroupByAirDate(eps) == AddToGroups(prev, eps[n]);
      AddToGroupsKeeps(prev, eps[..n], eps[n]);
      LastSplit(eps);
    }
  }

  /** Adding one episode to a correct grouping of a list gives a correct
      grouping of the longer list. */
  lemma AddToGroupsKeeps(prev: seq<Group>, eps: seq<EpisodeWithShow>, e: EpisodeWithShow)
    requires GroupsOf(prev, eps)
    ensures GroupsOf(AddToGroups(prev, e), eps + [e])
  {
    AddToGroupsFilters(prev, eps, e);
    AddToGroupsCovers(prev, eps, e);
    AddToGroupsTotal(prev, eps, e);
  }

  /** After the step each group still holds exactly the episodes of its date,
      and dates stay distinct. */
  lemma AddToGroupsFilters(prev: seq<Group>, eps: seq<EpisodeWithShow>, e: EpisodeWithShow)
    requires Partitioned(prev, eps)
    requires forall i :: 0 <= i < |eps| ==> GroupIndex(prev, GroupKey(eps[i])).Some?
    ensures Partitioned(AddToGroups(prev, e), eps + [e])
  {
    match GroupIndex(prev, GroupKey(e))
    case Some(j) =>
      JoinGroupFilters(prev, eps, e, j);
    case None =>
      UngroupedKeyUnused(prev, eps, GroupKey(e));
      NewGroupFilters(prev, eps, e);
  }

  /** A date that heads no group is the date of no episode. */
  lemma UngroupedKeyUnused(prev: seq<Group>, eps: seq<EpisodeWithShow>, key: string)
    requires forall i :: 0 <= i < |eps| ==> GroupIndex(prev, GroupKey(eps[i])).Some?
    requires GroupIndex(prev, key).None?
    ensures Filter(eps, KeyIs(key)) == []
  {
    forall i | 0 <= i < |eps| ensures !KeyIs(key)(eps[i]) {
      assert GroupIndex(prev, GroupKey(eps[i])).Some?;
    }
    FilterNone(eps, KeyIs(key));
  }

  /** The episode joins the existing group `j` of its date. */
  lemma {:induction false} JoinGroupFilters(prev: seq<Group>, eps: seq<EpisodeWithShow>, e: EpisodeWithShow, j: nat)
    requires forall g :: 0 <= g < |prev| ==> prev[g].episodes == Filter(eps, KeyIs(prev[g].date))
    requires forall g, h :: 0 <= g < h < |prev| ==> prev[g].date != prev[h].date
    requires forall g :: 0 <= g < |prev| ==> |prev[g].episodes| > 0
    requires GroupIndex(prev, GroupKey(e)) == Some(j)
    ensures Partitioned(prev[j := Group(GroupKey(e), prev[j].episodes + [e])], eps + [e])
  {
    var key := GroupKey(e);
    var groups := prev[j := Group(key, prev[j].episodes + [e])];
    forall g | 0 <= g < |groups| ensures groups[g].episodes == Filter(eps + [e], KeyIs(groups[g].date)) {
      FilterAppend(eps, [e], KeyIs(groups[g].date));
      if g != j {
        assert groups[g] == prev[g];
        assert prev[g].date != prev[j].date;
      }
    }
  }

  /** The episode opens a new group at the end. */
  lemma {:induction false} NewGroupFilters(prev: seq<Group>, eps: seq<EpisodeWithShow>, e: EpisodeWithShow)
    requires forall g :: 0 <= g < |prev| ==> prev[g].episodes == Filter(eps, KeyIs(prev[g].date))
    requires forall g, h :: 0 <= g < h < |prev| ==> prev[g].date != prev[h].date
    requires forall g :: 0 <= g < |prev| ==> |prev[g].episodes| > 0
    requires Filter(eps, KeyIs(GroupKey(e))) == []
    requires GroupIndex(prev, GroupKey(e)).None?
    ensures Partitioned(prev + [Group(GroupKey(e), [e])], eps + [e])
  {
    var key := GroupKey(e);
    var groups := prev + [Group(key, [e])];
    forall g | 0 <= g < |groups| ensures groups[g].episodes == Filter(eps + [e], KeyIs(groups[g].date)) {
      if g < |prev| {
        assert groups[g] == prev[g];
        OldGroupUnchanged(prev[g], eps, e);
      } else {
        assert groups[g] == Group(key, [e]);
        NewGroupExact(eps, e);
      }
    }
    forall g, h | 0 <= g < h < |groups| ensures groups[g].date != groups[h].date {
      assert groups[g] == prev[g];
    }
    forall g | 0 <= g < |groups| ensures |groups[g].episodes| > 0 {
      if g < |prev| {
        assert groups[g] == prev[g];
      }
    }
  }

  /** The first episode of a date makes up its group. */
  lemma NewGroupExact(eps: seq<EpisodeWithShow>, e: EpisodeWithShow)
    requires Filter(eps, KeyIs(GroupKey(e))) == []
    ensures [e] == Filter(eps + [e], KeyIs(GroupKey(e)))
  {
    FilterAppend(eps, [e], KeyIs(GroupKey(e)));
    FilterOne(e, GroupKey(e));
  }

  /** A group of another date does not take the new episode. */
  lemma OldGroupUnchanged(group: Group, eps: seq<EpisodeWithShow>, e: EpisodeWithShow)
    requires group.episodes == Filter(eps, KeyIs(group.date))
    requires group.date != GroupKey(e)
    ensures group.episodes == Filter(eps + [e], KeyIs(group.date))
  {
    FilterAppend(eps, [e], KeyIs(group.date));
    FilterOne(e, group.date);
  }

  /** The episodes of one date among a single episode. */
  lemma FilterOne(e: EpisodeWithShow, date: string)
    ensures Filter([e], KeyIs(date)) == if GroupKey(e) == date then [e] else []
  {
    assert [e][..0] == [];
  }

  /** After the step the rows add up to one more. */
  lemma {:induction false} AddToGroupsTotal(prev: seq<Group>, eps: seq<EpisodeWithShow>, e: EpisodeWithShow)
    requires TotalRows(prev) == |eps|
    ensures TotalRows(AddToGroups(prev, e)) == |eps + [e]|
  {
    var key := GroupKey(e);
    match GroupIndex(prev, key)
    case Some(j) =>
      TotalRowsUpdate(prev, j, Group(key, prev[j].episodes + [e]));
    case None =>
      assert (prev + [Group(key, [e])])[..|prev|] == prev;
  }

  /** After the step every episode, old and new, has a group. */
  lemma {:induction false} AddToGroupsCovers(prev: seq<Group>, eps: seq<EpisodeWithShow>, e: EpisodeWithShow)
    requires forall i :: 0 <= i < |eps| ==> GroupIndex(prev, GroupKey(eps[i])).Some?
    ensures forall i :: 0 <= i < |eps + [e]| ==> GroupIndex(AddToGroups(prev, e), GroupKey((eps + [e])[i])).Some?
  {
    var all := eps + [e];
    var groups := AddToGroups(prev, e);
    var key := GroupKey(e);
    assert |groups| >= |prev|;
    assert forall g :: 0 <= g < |prev| ==> groups[g].date == prev[g].date;
    forall i | 0 <= i < |all| ensures GroupIndex(groups, GroupKey(all[i])).Some? {
      if i < |eps| {
        assert all[i] == eps[i];
        var g := GroupIndex(prev, GroupKey(eps[i])).value;
        assert groups[g].date == GroupKey(all[i]);
      } else {
        assert all[i] == e;
        var g := if GroupIndex(prev, key).Some? then GroupIndex(prev, key).value else |prev|;
        assert groups[g].date == key;
      }
    }
  }

  /** Growing one group by one row adds one to the total. */
  lemma {:induction false} TotalRowsUpdate(groups: seq<Group>, j: nat, g: Group)
    requires j < |groups|
    ensures TotalRows(groups[j := g]) == TotalRows(groups) - |groups[j].episodes| + |g.episodes|
    decreases |groups|
  {
    var n := |groups| - 1;
    var updated := groups[j := g];
    assert updated[..n] == if j < n then groups[..n][j := g] else groups[..n];
    if j < n {
      TotalRowsUpdate(groups[..n], j, g);
    }
  }

  /** Each episode is listed under exactly one heading: the one for its date. */
  lemma EachEpisodeInOneGroup(eps: seq<EpisodeWithShow>, i: nat)
    requires i < |eps|
    ensures var groups := GroupByAirDate(eps);
      forall g :: 0 <= g < |groups| ==> (eps[i] in groups[g].episodes <==> groups[g].date == GroupKey(eps[i]))
  {
    var groups := GroupByAirDate(eps);
    GroupByAirDateGroups(eps);
    forall g | 0 <= g < |groups|
      ensures eps[i] in groups[g].episodes <==> groups[g].date == GroupKey(eps[i])
    {
      FilterMembers(eps, KeyIs(groups[g].date));
    }
  }

  /** No episodes, no headings: the empty state is shown instead. */
  lemma NoEpisodesNoGroups()
    ensures GroupByAirDate([]) == []
  {
  }

  /** Whether the list (`true`) or the empty state (`false`) is shown. */
  function ShowsList(eps: seq<EpisodeWithShow>): (shown: bool)
    ensures shown <==> eps != []
  {
    var groups := GroupByAirDate(eps);
    GroupByAirDateGroups(eps);
    assert eps != [] ==> GroupIndex(groups, GroupKey(eps[0])).Some?;
    |groups| > 0
  }

  // ---------------------------------------------------------------------
  // One row
  // ---------------------------------------------------------------------

  /** A non-negative number in decimal, zero-padded to at least two digits:
      `String(n).padStart(2, "0")`. Wider numbers are kept whole. */
  function TwoDigits(n: nat): (s: string)
    ensures AllDigits(s)
    ensures |s| == if n < 10 then 2 else |NatToString(n)|
    ensures DigitsValue(s) == n
    ensures s[|s| - |NatToString(n)|..] == NatToString(n)
  {
    var digits := NatToString(n);
    var s := PadStart(digits, 2, '0');
    NatToStringRoundTrip(n);
    assert n < 10 ==> DigitsValue(s) == n by {
      if n < 10 {
        assert s == "0" + digits;
        LeadingZeroValue(digits);
      }
    }
    s
  }

  /** `S{season}E{episode}`, each number padded to two digits. */
  function EpisodeLabel(season: nat, episode: nat): string {
    "S" + TwoDigits(season) + "E" + TwoDigits(episode)
  }

  /** The label determines season and episode: the digits between `S` and
      the first `E`, and those after it. */
  lemma EpisodeLabelInjective(s1: nat, e1: nat, s2: nat, e2: nat)
    requires EpisodeLabel(s1, e1) == EpisodeLabel(s2, e2)
    ensures s1 == s2 && e1 == e2
  {
    LabelParts(TwoDigits(s1), TwoDigits(e1), TwoDigits(s2), TwoDigits(e2));
    TwoDigitsInjective(s1, s2);
    TwoDigitsInjective(e1, e2);
  }

  /** `S`, digits, `E` and a tail split back into the digits and the tail. */
  lemma LabelParts(a1: string, b1: string, a2: string, b2: string)
    requires AllDigits(a1) && AllDigits(a2)
    requires "S" + a1 + "E" + b1 == "S" + a2 + "E" + b2
    ensures a1 == a2 && b1 == b2
  {
    AfterS(a1 + "E" + b1);
    AfterS(a2 + "E" + b2);
    assert "S" + a1 + "E" + b1 == "S" + (a1 + "E" + b1);
    assert "S" + a2 + "E" + b2 == "S" + (a2 + "E" + b2);
    SplitAtFirstE(a1, b1, a2, b2);
  }

  lemma AfterS(rest: string)
    ensures ("S" + rest)[1..] == rest
  {
  }

  /** Padding keeps numbers apart. */
  lemma TwoDigitsInjective(m: nat, n: nat)
    requires TwoDigits(m) == TwoDigits(n)
    ensures m == n
  {
  }

  /** A run of digits followed by `E` ends at the first `E`. */
  lemma {:induction false} SplitAtFirstE(a1: string, b1: string, a2: string, b2: string)
    requires AllDigits(a1) && AllDigits(a2)
    requires a1 + "E" + b1 == a2 + "E" + b2
    ensures a1 == a2 && b1 == b2
    decreases |a1|
  {
    var t := a1 + "E" + b1;
    assert a1 == [] <==> t[0] == 'E' by {
      if a1 != [] {
        assert t[0] == a1[0] && IsDigit(a1[0]);
      }
    }
    assert a2 == [] <==> t[0] == 'E' by {
      if a2 != [] {
        assert t[0] == a2[0] && IsDigit(a2[0]);
      }
    }
    if a1 == [] {
      assert b1 == (a1 + "E" + b1)[1..];
      assert b2 == (a2 + "E" + b2)[1..];
    } else {
      assert (a1 + "E" + b1)[0] == a1[0] && (a2 + "E" + b2)[0] == a2[0];
      assert (a1 + "E" + b1)[1..] == a1[1..] + "E" + b1;
      assert (a2 + "E" + b2)[1..] == a2[1..] + "E" + b2;
      SplitAtFirstE(a1[1..], b1, a2[1..], b2);
      assert a1 == [a1[0]] + a1[1..];
      assert a2 == [a2[0]] + a2[1..];
    }
  }

  /** `/movie/tv-{tmdb_id}`: the show's page. */
  function EpisodeHref(show: MovieRow): (href: string)
    ensures show.tmdbId >= 0 ==> href == "/movie/" + MovieRoute.RouteId(TvMedia, show.tmdbId)
    ensures StartsWith(href, "/movie/tv-")
  {
    "/movie/tv-" + IntToString(show.tmdbId)
  }

  /** The link leads to the series page of the row's show. */
  lemma EpisodeHrefOpensShow(show: MovieRow)
    requires show.tmdbId > 0
    ensures MovieRoute.ParseRouteId(EpisodeHref(show)[|"/movie/"|..]) == Some(MovieRoute.Route(TvMedia, show.tmdbId))
  {
    MovieRoute.RouteIdRoundTrip(TvMedia, show.tmdbId);
  }

  /** ` · {name}` after the label, only for an episode with a (non-empty) name. */
  function NameSuffix(e: Episode): (suffix: string)
    ensures suffix != "" <==> e.name.Some? && e.name.value != ""
    ensures suffix != "" ==> suffix == " · " + e.name.value
  {
    if e.name.Some? && e.name.value != "" then " · " + e.name.value else ""
  }

  /** The air date at the end of the row, only when there is one. */
  function ShownAirDate(e: Episode): (date: Option<string>)
    ensures date.Some? <==> e.airDate.Some? && e.airDate.value != ""
    ensures date.Some? ==> date.value == e.airDate.value
  {
    if e.airDate.Some? && e.airDate.value != "" then e.airDate else None
  }
}

=== FILE: compatibility.dfy ===
/** Taste compatibility between two users (services/compatibility.ts): the mean
    absolute difference of their scores over the titles both have rated,
    rescaled so that identical taste is 100 and maximally opposed taste
    (1 against 5 everywhere) is 0, then rounded with `Math.round`. */
module Compatibility {
  import opened Wrappers
  import opened Schema
  import opened Seqs
  import Ratings

  /** One row of `select("movie_id, score")` on `ratings` for one user. */
  datatype ScoreRow = ScoreRow(movieId: Uuid, score: int)

  datatype CompatibilityResult = CompatibilityResult(score: int, commonCount: nat)

  /** A title both users rated, with A's and B's scores. */
  datatype CommonPair = CommonPair(scoreA: int, scoreB: int)

  /** The largest possible difference between two 1..5 scores. */
  const MaxDiff := 4

  /** `r` is the score row of one of the user's ratings in the table. */
  predicate RowOfUser(table: seq<Rating>, user: Uuid, r: ScoreRow) {
    exists i :: 0 <= i < |table| && table[i].userId == user
      && r == ScoreRow(table[i].movieId, table[i].score)
  }

  /** A row of the user's ratings in a prefix is one in the whole table. */
  lemma RowsOfPrefix(table: seq<Rating>, user: Uuid, rows: seq<ScoreRow>)
    requires table != []
    requires forall k :: 0 <= k < |rows| ==> RowOfUser(table[..|table| - 1], user, rows[k])
    ensures forall k :: 0 <= k < |rows| ==> RowOfUser(table, user, rows[k])
  {
    forall k | 0 <= k < |rows| ensures RowOfUser(table, user, rows[k]) {
      var t' := table[..|table| - 1];
      assert RowOfUser(t', user, rows[k]);
      var i :| 0 <= i < |t'| && t'[i].userId == user
        && rows[k] == ScoreRow(t'[i].movieId, t'[i].score);
      assert table[i] == t'[i];
    }
  }

  function ByUser(user: Uuid): Rating -> bool {
    (x: Rating) => x.userId == user
  }

  /** The user's rows of the ratings table, as the query returns them: one
      row per rating of the user, in table order, and nothing else. */
  function ScoreRowsOf(table: seq<Rating>, user: Uuid): (rows: seq<ScoreRow>)
    ensures forall k :: 0 <= k < |rows| ==> RowOfUser(table, user, rows[k])
    ensures |rows| <= |table|
    ensures var mine := Filter(table, ByUser(user));
      |rows| == |mine|
      && forall k :: 0 <= k < |mine| ==> rows[k] == ScoreRow(mine[k].movieId, mine[k].score)
    decreases |table|
  {
    if table == [] then []
    else
      var rest := ScoreRowsOf(table[..|table| - 1], user);
      var last := table[|table| - 1];
      RowsOfPrefix(table, user, rest);
      if last.userId == user then
        assert RowOfUser(table, user, ScoreRow(last.movieId, last.score));
        rest + [ScoreRow(last.movieId, last.score)]
      else rest
  }

  predicate RatedBy(rows: seq<ScoreRow>, m: Uuid) {
    exists i :: 0 <= i < |rows| && rows[i].movieId == m
  }

  /** No title occurs twice among one user's rows. */
  predicate UniqueMovies(rows: seq<ScoreRow>) {
    forall i, j :: 0 <= i < j < |rows| ==> rows[i].movieId != rows[j].movieId
  }

  /** `new Map(ratingsB.map(r => [r.movie_id, r.score])).get(m)`: when a title
      occurs more than once, the later row overwrites the earlier one. */
  function LookupScore(rows: seq<ScoreRow>, m: Uuid): (r: Option<int>)
    ensures r.None? <==> !RatedBy(rows, m)
    ensures r.Some? ==>
      exists i :: 0 <= i < |rows| && rows[i] == ScoreRow(m, r.value)
                 && forall j :: i < j < |rows| ==> rows[j].movieId != m
    decreases |rows|
  {
    if rows == [] then None
    else if rows[|rows| - 1].movieId == m then Some(rows[|rows| - 1].score)
    else
      var r := LookupScore(rows[..|rows| - 1], m);
      assert RatedBy(rows, m) ==> RatedBy(rows[..|rows| - 1], m) by {
        if RatedBy(rows, m) {
          var i :| 0 <= i < |rows| && rows[i].movieId == m;
          assert rows[..|rows| - 1][i].movieId == m;
        }
      }
      r
  }

  /** Rows whose title occurs among `b`. */
  function RatedIn(b: seq<ScoreRow>): ScoreRow -> bool {
    (x: ScoreRow) => RatedBy(b, x.movieId)
  }

  /** The loop over A's rows: one pair per row of A whose title B has rated,
      in A's order. */
  function CommonRatings(a: seq<ScoreRow>, b: seq<ScoreRow>): (r: seq<CommonPair>)
    ensures |r| == CountWhere(a, RatedIn(b))
    ensures forall k :: 0 <= k < |r| ==>
      exists i :: 0 <= i < |a| && LookupScore(b, a[i].movieId) == Some(r[k].scoreB)
        && r[k].scoreA == a[i].score
    decreases |a|
  {
    if a == [] then []
    else
      var a' := a[..|a| - 1];
      var x := a[|a| - 1];
      var rest := CommonRatings(a', b);
      match LookupScore(b, x.movieId)
      case Some(s) => rest + [CommonPair(x.score, s)]
      case None => rest
  }

  /** The pairs are exactly one per row of A whose title B rated, in A's
      order, each holding that row's score and B's score for the title. */
  lemma {:induction false} CommonRatingsPairs(a: seq<ScoreRow>, b: seq<ScoreRow>)
    ensures PairsOf(CommonRatings(a, b), Filter(a, RatedIn(b)), b)
    decreases |a|
  {
    if a != [] {
      var a' := a[..|a| - 1];
      var x := a[|a| - 1];
      CommonRatingsPairs(a', b);
      if LookupScore(b, x.movieId).Some? {
        PairsOfAppend(CommonRatings(a', b), Filter(a', RatedIn(b)), b, x);
      }
    }
  }

  /** `pairs` holds one pair per row of `rated`, in order: the row's score and
      the score B's map gives for its title. */
  predicate PairsOf(pairs: seq<CommonPair>, rated: seq<ScoreRow>, b: seq<ScoreRow>) {
    |pairs| == |rated|
    && forall k :: 0 <= k < |rated| ==>
         LookupScore(b, rated[k].movieId).Some?
         && pairs[k] == CommonPair(rated[k].score, LookupScore(b, rated[k].movieId).value)
  }

  lemma PairsOfAppend(pairs: seq<CommonPair>, rated: seq<ScoreRow>, b: seq<ScoreRow>, x: ScoreRow)
    requires PairsOf(pairs, rated, b)
    requires LookupScore(b, x.movieId).Some?
    ensures PairsOf(pairs + [CommonPair(x.score, LookupScore(b, x.movieId).value)], rated + [x], b)
  {
    var p := pairs + [CommonPair(x.score, LookupScore(b, x.movieId).value)];
    var r := rated + [x];
    forall k | 0 <= k < |r|
      ensures LookupScore(b, r[k].movieId).Some?
              && p[k] == CommonPair(r[k].score, LookupScore(b, r[k].movieId).value)
    {
      if k < |rated| {
        assert r[k] == rated[k] && p[k] == pairs[k];
      }
    }
  }

  function AbsDiff(p: CommonPair): nat {
    if p.scoreA >= p.scoreB then p.scoreA - p.scoreB else p.scoreB - p.scoreA
  }

  /** `commonRatings.reduce((sum, p) => sum + Math.abs(p.scoreA - p.scoreB), 0)`. */
  function TotalDiff(pairs: seq<CommonPair>): nat
    decreases |pairs|
  {
    if pairs == [] then 0 else TotalDiff(pairs[..|pairs| - 1]) + AbsDiff(pairs[|pairs| - 1])
  }

  /** `Math.round(num / den)` for a positive denominator, in exact arithmetic:
      the integer nearest the quotient, halves rounding up. */
  function RoundDiv(num: int, den: int): (k: int)
    requires den > 0
    ensures 2 * den * k <= 2 * num + den < 2 * den * (k + 1)
  {
    (2 * num + den) / (2 * den)
  }

  /** `Math.round(((maxDiff - totalDiff / n) / maxDiff) * 100)`; the value
      rounded is (100 * n - 25 * totalDiff) / n. */
  function Score(totalDiff: int, n: nat): int
    requires n > 0
  {
    RoundDiv(100 * n - 25 * totalDiff, n)
  }

  /** `calculateCompatibility`: a missing rating list or no common titles give
      score 0 with no titles in common. */
  function Compatibility(ratingsA: Option<seq<ScoreRow>>, ratingsB: Option<seq<ScoreRow>>)
    : (r: CompatibilityResult)
    ensures ratingsA.None? || ratingsB.None? ==> r == CompatibilityResult(0, 0)
    ensures ratingsA.Some? && ratingsB.Some? ==>
      r.commonCount == CountWhere(ratingsA.value, RatedIn(ratingsB.value))
    ensures r.commonCount == 0 ==> r.score == 0
  {
    if ratingsA.None? || ratingsB.None? then CompatibilityResult(0, 0)
    else
      var common := CommonRatings(ratingsA.value, ratingsB.value);
      if |common| == 0 then CompatibilityResult(0, 0)
      else CompatibilityResult(Score(TotalDiff(common), |common|), |common|)
  }

  /** The compatibility of two users computed from the ratings table. */
  function CompatibilityOf(table: seq<Rating>, userA: Uuid, userB: Uuid): CompatibilityResult {
    Compatibility(Some(ScoreRowsOf(table, userA)), Some(ScoreRowsOf(table, userB)))
  }

  // ---------------------------------------------------------------------
  // Properties of the score arithmetic.

  lemma MulNonPositive(n: int, d: int)
    requires n > 0
    ensures d <= 0 ==> n * d <= 0
  {
  }

  /** A positive factor can be cancelled from a strict inequality. */
  lemma MulPositiveCancelLt(n: int, x: int, y: int)
    requires n > 0 && n * x < n * y
    ensures x < y
  {
    MulNonPositive(n, y - x);
    assert n * (y - x) == n * y - n * x;
  }

  /** Equal scores on every common title give 100. */
  lemma ScoreOfNoDifference(n: nat)
    requires n > 0
    ensures Score(0, n) == 100
  {
    var k := Score(0, n);
    MulPositiveCancelLt(2 * n, k, 101);
    MulPositiveCancelLt(2 * n, 99, k);
  }

  /** A difference of 4 on every common title gives 0. */
  lemma ScoreOfMaximalDifference(n: nat)
    requires n > 0
    ensures Score(MaxDiff * n, n) == 0
  {
    var k := Score(MaxDiff * n, n);
    MulPositiveCancelLt(2 * n, k, 1);
    MulPositiveCancelLt(2 * n, -1, k);
  }

  /** With every difference at most 4 the score is a percentage. */
  lemma ScoreInRange(totalDiff: int, n: nat)
    requires n > 0
    requires 0 <= totalDiff <= MaxDiff * n
    ensures 0 <= Score(totalDiff, n) <= 100
  {
    var k := Score(totalDiff, n);
    MulPositiveCancelLt(2 * n, k, 101);
    MulPositiveCancelLt(2 * n, -1, k);
  }

  /** A larger total difference over the same number of titles never gives a
      higher score. */
  lemma ScoreAntitone(t1: int, t2: int, n: nat)
    requires n > 0 && t1 <= t2
    ensures Score(t2, n) <= Score(t1, n)
  {
    var k1 := Score(t1, n);
    var k2 := Score(t2, n);
    MulPositiveCancelLt(2 * n, k2, k1 + 1);
  }

  // ---------------------------------------------------------------------
  // Properties of the common-title computation.

  predicate ScoresInRange(rows: seq<ScoreRow>) {
    forall i :: 0 <= i < |rows| ==> 1 <= rows[i].score <= 5
  }

  lemma {:induction false} TotalDiffBounded(a: seq<ScoreRow>, b: seq<ScoreRow>)
    requires ScoresInRange(a) && ScoresInRange(b)
    ensures TotalDiff(CommonRatings(a, b)) <= MaxDiff * |CommonRatings(a, b)|
    decreases |a|
  {
    if a != [] {
      var a' := a[..|a| - 1];
      assert ScoresInRange(a');
      TotalDiffBounded(a', b);
      var x := a[|a| - 1];
      var rest := CommonRatings(a', b);
      match LookupScore(b, x.movieId)
      case Some(s) =>
        var r := rest + [CommonPair(x.score, s)];
        assert r[..|r| - 1] == rest;
      case None =>
    }
  }

  /** With at least one title in common the score is computed from the
      common pairs. */
  lemma ScoreOfCommon(a: seq<ScoreRow>, b: seq<ScoreRow>)
    requires |CommonRatings(a, b)| > 0
    ensures Compatibility(Some(a), Some(b)).score
      == Score(TotalDiff(CommonRatings(a, b)), |CommonRatings(a, b)|)
  {
  }

  /** For 1..5 scores the result is always in 0..100. */
  lemma CompatibilityInRange(a: seq<ScoreRow>, b: seq<ScoreRow>)
    requires ScoresInRange(a) && ScoresInRange(b)
    ensures 0 <= Compatibility(Some(a), Some(b)).score <= 100
  {
    var common := CommonRatings(a, b);
    if |common| > 0 {
      TotalDiffBounded(a, b);
      ScoreInRange(TotalDiff(common), |common|);
      ScoreOfCommon(a, b);
    }
  }

  /** Every common title with B's score equal to A's. */
  predicate AgreeEverywhere(a: seq<ScoreRow>, b: seq<ScoreRow>) {
    forall i :: 0 <= i < |a| && RatedBy(b, a[i].movieId) ==>
      LookupScore(b, a[i].movieId) == Some(a[i].score)
  }

  lemma {:induction false} AgreementHasNoDifference(a: seq<ScoreRow>, b: seq<ScoreRow>)
    requires AgreeEverywhere(a, b)
    ensures TotalDiff(CommonRatings(a, b)) == 0
    decreases |a|
  {
    if a != [] {
      var a' := a[..|a| - 1];
      assert AgreeEverywhere(a', b) by {
        forall i | 0 <= i < |a'| && RatedBy(b, a'[i].movieId)
          ensures LookupScore(b, a'[i].movieId) == Some(a'[i].score)
        {
          assert a'[i] == a[i];
        }
      }
      AgreementHasNoDifference(a', b);
      var x := a[|a| - 1];
      var rest := CommonRatings(a', b);
      match LookupScore(b, x.movieId)
      case Some(s) =>
        var r := rest + [CommonPair(x.score, s)];
        assert r[..|r| - 1] == rest;
      case None =>
    }
  }

  /** Users who agree on every common title are 100% compatible. */
  lemma IdenticalTasteGives100(a: seq<ScoreRow>, b: seq<ScoreRow>)
    requires AgreeEverywhere(a, b)
    requires Compatibility(Some(a), Some(b)).commonCount > 0
    ensures Compatibility(Some(a), Some(b)).score == 100
  {
    AgreementHasNoDifference(a, b);
    ScoreOfNoDifference(|CommonRatings(a, b)|);
    ScoreOfCommon(a, b);
  }

  /** Every common title rated 4 apart. */
  predicate OpposedEverywhere(a: seq<ScoreRow>, b: seq<ScoreRow>) {
    forall i :: 0 <= i < |a| && RatedBy(b, a[i].movieId) ==>
      LookupScore(b, a[i].movieId).Some?
      && (LookupScore(b, a[i].movieId).value - a[i].score == MaxDiff
          || a[i].score - LookupScore(b, a[i].movieId).value == MaxDiff)
  }

  lemma {:induction false} OppositionHasMaximalDifference(a: seq<ScoreRow>, b: seq<ScoreRow>)
    requires OpposedEverywhere(a, b)
    ensures TotalDiff(CommonRatings(a, b)) == MaxDiff * |CommonRatings(a, b)|
    decreases |a|
  {
    if a != [] {
      var a' := a[..|a| - 1];
      assert OpposedEverywhere(a', b) by {
        forall i | 0 <= i < |a'| && RatedBy(b, a'[i].movieId)
          ensures LookupScore(b, a'[i].movieId).Some?
            && (LookupScore(b, a'[i].movieId).value - a'[i].score == MaxDiff
                || a'[i].score - LookupScore(b, a'[i].movieId).value == MaxDiff)
        {
          assert a'[i] == a[i];
        }
      }
      OppositionHasMaximalDifference(a', b);
      var x := a[|a| - 1];
      var rest := CommonRatings(a', b);
      match LookupScore(b, x.movieId)
      case Some(s) =>
        var r := rest + [CommonPair(x.score, s)];
        assert r[..|r| - 1] == rest;
      case None =>
    }
  }

  /** Users 4 apart on every common title are 0% compatible. */
  lemma OpposedTasteGives0(a: seq<ScoreRow>, b: seq<ScoreRow>)
    requires OpposedEverywhere(a, b)
    ensures Compatibility(Some(a), Some(b)).score == 0
  {
    var common := CommonRatings(a, b);
    if |common| > 0 {
      OppositionHasMaximalDifference(a, b);
      ScoreOfMaximalDifference(|common|);
      ScoreOfCommon(a, b);
    }
  }

  // ---------------------------------------------------------------------
  // Symmetry: with one row per title on each side, the result does not
  // depend on which user is A.

  /** Weight of a pair of rows in the title-matching double sum. */
  function MatchWeight(x: ScoreRow, y: ScoreRow): int {
    if x.movieId == y.movieId then 1 else 0
  }

  function DiffWeight(x: ScoreRow, y: ScoreRow): int {
    if x.movieId == y.movieId then AbsDiff(CommonPair(x.score, y.score)) else 0
  }

  /** Sum of `w(x, y)` over the rows `y` of `b`. */
  function RowSum(x: ScoreRow, b: seq<ScoreRow>, w: (ScoreRow, ScoreRow) -> int): int
    decreases |b|
  {
    if b == [] then 0 else RowSum(x, b[..|b| - 1], w) + w(x, b[|b| - 1])
  }

  /** Sum of `w(y, x)` over the rows `y` of `b`. */
  function ColumnSum(b: seq<ScoreRow>, x: ScoreRow, w: (ScoreRow, ScoreRow) -> int): int
    decreases |b|
  {
    if b == [] then 0 else ColumnSum(b[..|b| - 1], x, w) + w(b[|b| - 1], x)
  }

  /** Sum of `w(x, y)` over all pairs of rows of `a` and `b`. */
  function DoubleSum(a: seq<ScoreRow>, b: seq<ScoreRow>, w: (ScoreRow, ScoreRow) -> int): int
    decreases |a|
  {
    if a == [] then 0 else DoubleSum(a[..|a| - 1], b, w) + RowSum(a[|a| - 1], b, w)
  }

  ghost predicate Symmetric(w: (ScoreRow, ScoreRow) -> int) {
    forall x, y :: w(x, y) == w(y, x)
  }

  lemma {:induction false} RowIsColumn(x: ScoreRow, b: seq<ScoreRow>, w: (ScoreRow, ScoreRow) -> int)
    requires Symmetric(w)
    ensures RowSum(x, b, w) == ColumnSum(b, x, w)
    decreases |b|
  {
    if b != [] {
      RowIsColumn(x, b[..|b| - 1], w);
    }
  }

  /** Adding a row `x` to the second list adds its column to the double sum. */
  lemma {:induction false} DoubleSumAppendRight(
    b: seq<ScoreRow>, a: seq<ScoreRow>, x: ScoreRow, w: (ScoreRow, ScoreRow) -> int)
    ensures DoubleSum(b, a + [x], w) == DoubleSum(b, a, w) + ColumnSum(b, x, w)
    decreases |b|
  {
    if b != [] {
      DoubleSumAppendRight(b[..|b| - 1], a, x, w);
      assert (a + [x])[..|a + [x]| - 1] == a;
    }
  }

  lemma {:induction false} DoubleSumSwap(a: seq<ScoreRow>, b: seq<ScoreRow>, w: (ScoreRow, ScoreRow) -> int)
    requires Symmetric(w)
    ensures DoubleSum(a, b, w) == DoubleSum(b, a, w)
    decreases |a|
  {
    if a == [] {
      DoubleSumOfEmpty(b, w);
    } else {
      var a' := a[..|a| - 1];
      var x := a[|a| - 1];
      DoubleSumSwap(a', b, w);
      assert a == a' + [x];
      DoubleSumAppendRight(b, a', x, w);
      RowIsColumn(x, b, w);
    }
  }

  lemma {:induction false} DoubleSumOfEmpty(b: seq<ScoreRow>, w: (ScoreRow, ScoreRow) -> int)
    ensures DoubleSum(b, [], w) == 0
    decreases |b|
  {
    if b != [] {
      DoubleSumOfEmpty(b[..|b| - 1], w);
    }
  }

  /** Against rows with one entry per title, the match weights of `x` count
      whether its title is rated and the difference weights give its
      difference to the rated score. */
  lemma {:induction false} RowSumsOfUnique(x: ScoreRow, b: seq<ScoreRow>)
    requires UniqueMovies(b)
    ensures RowSum(x, b, MatchWeight) == if RatedBy(b, x.movieId) then 1 else 0
    ensures RowSum(x, b, DiffWeight) ==
      match LookupScore(b, x.movieId)
      case Some(s) => AbsDiff(CommonPair(x.score, s))
      case None => 0
    decreases |b|
  {
    if b != [] {
      var b' := b[..|b| - 1];
      var y := b[|b| - 1];
      assert UniqueMovies(b');
      RowSumsOfUnique(x, b');
      if y.movieId == x.movieId {
        assert !RatedBy(b', x.movieId);
      } else {
        assert RatedBy(b, x.movieId) == RatedBy(b', x.movieId) by {
          if RatedBy(b, x.movieId) {
            var i :| 0 <= i < |b| && b[i].movieId == x.movieId;
            assert b'[i].movieId == x.movieId;
          }
        }
      }
    }
  }

  /** The common-title count and total difference are the two double sums. */
  lemma {:induction false} CommonAsDoubleSums(a: seq<ScoreRow>, b: seq<ScoreRow>)
    requires UniqueMovies(b)
    ensures |CommonRatings(a, b)| == DoubleSum(a, b, MatchWeight)
    ensures TotalDiff(CommonRatings(a, b)) == DoubleSum(a, b, DiffWeight)
    decreases |a|
  {
    if a != [] {
      var a' := a[..|a| - 1];
      var x := a[|a| - 1];
      CommonAsDoubleSums(a', b);
      RowSumsOfUnique(x, b);
      CommonRatingsStep(a, b);
    }
  }

  /** The last row of A adds one pair, with its difference, exactly when B
      rated its title. */
  lemma CommonRatingsStep(a: seq<ScoreRow>, b: seq<ScoreRow>)
    requires a != []
    ensures var x := a[|a| - 1];
      && |CommonRatings(a, b)| == |CommonRatings(a[..|a| - 1], b)| + (if RatedBy(b, x.movieId) then 1 else 0)
      && TotalDiff(CommonRatings(a, b)) == TotalDiff(CommonRatings(a[..|a| - 1], b)) +
           match LookupScore(b, x.movieId)
           case Some(s) => AbsDiff(CommonPair(x.score, s))
           case None => 0
  {
    var x := a[|a| - 1];
    var rest := CommonRatings(a[..|a| - 1], b);
    match LookupScore(b, x.movieId)
    case Some(s) =>
      var r := rest + [CommonPair(x.score, s)];
      assert r[..|r| - 1] == rest;
    case None =>
  }

  /** Given one rating per user and title (the unique key of `ratings`), the
      compatibility of A with B equals that of B with A. */
  lemma CompatibilitySymmetric(a: seq<ScoreRow>, b: seq<ScoreRow>)
    requires UniqueMovies(a) && UniqueMovies(b)
    ensures Compatibility(Some(a), Some(b)) == Compatibility(Some(b), Some(a))
  {
    assert Symmetric(MatchWeight);
    assert Symmetric(DiffWeight);
    CommonAsDoubleSums(a, b);
    CommonAsDoubleSums(b, a);
    DoubleSumSwap(a, b, MatchWeight);
    DoubleSumSwap(a, b, DiffWeight);
  }

  /** The rows the query returns for one user have one entry per title when
      the table keeps one rating per (user, title). */
  lemma {:induction false} ScoreRowsOfUnique(table: seq<Rating>, user: Uuid)
    requires Ratings.OneRatingPerUserMovie(table)
    ensures UniqueMovies(ScoreRowsOf(table, user))
    decreases |table|
  {
    if table != [] {
      var t' := table[..|table| - 1];
      var last := table[|table| - 1];
      assert Ratings.OneRatingPerUserMovie(t');
      ScoreRowsOfUnique(t', user);
      var rest := ScoreRowsOf(t', user);
      if last.userId == user {
        forall k | 0 <= k < |rest| ensures rest[k].movieId != last.movieId {
          assert RowOfUser(t', user, rest[k]);
        }
      }
    }
  }

  /** Compatibility read from the ratings table is symmetric in the two users. */
  lemma CompatibilityOfSymmetric(table: seq<Rating>, userA: Uuid, userB: Uuid)
    requires Ratings.OneRatingPerUserMovie(table)
    ensures CompatibilityOf(table, userA, userB) == CompatibilityOf(table, userB, userA)
  {
    ScoreRowsOfUnique(table, userA);
    ScoreRowsOfUnique(table, userB);
    CompatibilitySymmetric(ScoreRowsOf(table, userA), ScoreRowsOf(table, userB));
  }
}

=== FILE: count_badge.dfy ===
/** The small count bubble on the notification bell (components/ui/Badge.tsx):
    nothing for a count of zero or less, the number up to 99, and `99+`
    beyond. */
module CountBadge {
  import opened Wrappers
  import opened Text
  import opened Schema
  import opened Notifications

  /** The bubble's text, or `None` when no bubble is drawn. */
  function BadgeLabel(count: int): (text: Option<string>)
    ensures text.None? <==> count <= 0
    ensures text.Some? ==> 1 <= |text.value| <= 3
    ensures count > 99 ==> text == Some("99+")
    ensures 0 < count <= 99 ==> AllDigits(text.value)
  {
    if count <= 0 then None
    else if count > 99 then Some("99+")
    else
      assert count >= 10 ==> |NatToString(count / 10)| == 1;
      Some(NatToString(count))
  }

  /** Up to 99 the bubble reads back as the exact count. */
  lemma BadgeShowsCount(count: int)
    requires 0 < count <= 99
    ensures BadgeLabel(count).Some? && AllDigits(BadgeLabel(count).value)
    ensures DigitsValue(BadgeLabel(count).value) == count
  {
    NatToStringRoundTrip(count);
  }

  /** Counts up to 99 get different bubbles; every larger count shares `99+`. */
  lemma BadgeDistinguishesSmallCounts(a: int, b: int)
    requires 0 < a <= 99 && 0 < b <= 99 && a != b
    ensures BadgeLabel(a) != BadgeLabel(b)
    ensures BadgeLabel(a) != BadgeLabel(100)
  {
    BadgeShowsCount(a);
    BadgeShowsCount(b);
    assert !IsDigit(BadgeLabel(100).value[2]);
  }

  /** Fed the unread count of a notification list, the bell shows a bubble
      exactly when some notification is unread. */
  lemma BellBubbleIffUnread(ns: seq<Notification>)
    ensures BadgeLabel(UnreadCount(ns)).Some? <==> exists i :: 0 <= i < |ns| && !ns[i].read
  {
  }

  /** After "mark all as read" the bell shows no bubble. */
  lemma MarkAllReadHidesBubble(ns: seq<Notification>)
    ensures BadgeLabel(UnreadCount(MarkAllRead(ns))) == None
  {
  }
}

=== FILE: episodes.dfy ===
/** The episode queries (services/episodes.ts): the followed shows' episodes
    airing in a date range, and one show's episodes in broadcast order. */
module Episodes {
  import opened Wrappers
  import opened Schema
  import opened Seqs
  import opened Sorting
  import opened Text

  /** The show ids the user follows: `follows.map((f) => f.movie_id)` over
      the user's follow rows. */
  function FollowedMovieIds(follows: seq<Follow>, userId: Uuid): (ids: seq<Uuid>)
    ensures forall id :: id in ids <==> exists f :: f in follows && f.userId == userId && f.movieId == id
  {
    var mine := Filter(follows, (f: Follow) => f.userId == userId);
    var ids := seq(|mine|, k requires 0 <= k < |mine| => mine[k].movieId);
    assert forall id :: id in ids <==> exists f :: f in follows && f.userId == userId && f.movieId == id by {
      FilterMembers(follows, (f: Follow) => f.userId == userId);
      forall id | id in ids ensures exists f :: f in follows && f.userId == userId && f.movieId == id {
        var k :| 0 <= k < |ids| && ids[k] == id;
        assert mine[k] in mine;
      }
      forall id | exists f :: f in follows && f.userId == userId && f.movieId == id ensures id in ids {
        var f :| f in follows && f.userId == userId && f.movieId == id;
        assert f in mine;
        var k :| 0 <= k < |mine| && mine[k] == f;
        assert ids[k] == id;
      }
    }
    ids
  }

  /** `.gte("air_date", start).lte("air_date", end)`: a dated episode within
      the inclusive range; an undated one never matches. Dates are ISO
      `YYYY-MM-DD` strings, compared as text. */
  predicate AirsWithin(e: Episode, startDate: Date, endDate: Date) {
    e.airDate.Some? && LexLe(startDate, e.airDate.value) && LexLe(e.airDate.value, endDate)
  }

  function Upcoming(ids: seq<Uuid>, startDate: Date, endDate: Date): Episode -> bool {
    (e: Episode) => e.movieId in ids && AirsWithin(e, startDate, endDate)
  }

  /** `order("air_date", { ascending: true })`. */
  function AirDateAscending(a: Episode, b: Episode): bool {
    LexLe(a.airDate.GetOr(""), b.airDate.GetOr(""))
  }

  lemma AirDateAscendingIsTotalPreorder()
    ensures TotalPreorder(AirDateAscending)
  {
    forall a: Episode, b: Episode ensures AirDateAscending(a, b) || AirDateAscending(b, a) {
      LexLeTotal(a.airDate.GetOr(""), b.airDate.GetOr(""));
    }
    forall a: Episode, b: Episode, c: Episode | AirDateAscending(a, b) && AirDateAscending(b, c)
      ensures AirDateAscending(a, c)
    {
      LexLeTransitive(a.airDate.GetOr(""), b.airDate.GetOr(""), c.airDate.GetOr(""));
    }
  }

  datatype EpisodesResult = EpisodesResult(data: Option<seq<Episode>>, error: Option<DbError>)

  /** `getUpcomingEpisodes`. Without follows (or when they cannot be read)
      the result is empty and error-free. Otherwise it holds exactly the
      episodes of followed shows airing within the range, earliest first; a
      failed episode query yields no data and its error. */
  function GetUpcomingEpisodes(
    follows: Option<seq<Follow>>, episodes: seq<Episode>, userId: Uuid,
    startDate: Date, endDate: Date, episodesError: Option<DbError>): (r: EpisodesResult)
    ensures follows.None? || FollowedMovieIds(follows.value, userId) == [] ==>
      r == EpisodesResult(Some([]), None)
    ensures follows.Some? && FollowedMovieIds(follows.value, userId) != [] && episodesError.Some? ==>
      r == EpisodesResult(None, episodesError)
    ensures r.error.None? <==> r.data.Some?
    ensures r.data.Some? ==>
      && (forall e :: e in r.data.value <==>
            && e in episodes
            && follows.Some?
            && (exists f :: f in follows.value && f.userId == userId && f.movieId == e.movieId)
            && AirsWithin(e, startDate, endDate))
      && SortedBy(r.data.value, AirDateAscending)
    ensures r.data.Some? && follows.Some? && FollowedMovieIds(follows.value, userId) != [] ==>
      multiset(r.data.value)
        == multiset(Filter(episodes, Upcoming(FollowedMovieIds(follows.value, userId), startDate, endDate)))
  {
    if follows.None? || FollowedMovieIds(follows.value, userId) == [] then
      EpisodesResult(Some([]), None)
    else if episodesError.Some? then EpisodesResult(None, episodesError)
    else
      var ids := FollowedMovieIds(follows.value, userId);
      var matching := Filter(episodes, Upcoming(ids, startDate, endDate));
      var sorted := SortBy(matching, AirDateAscending);
      AirDateAscendingIsTotalPreorder();
      SortBySorted(matching, AirDateAscending);
      FilterMembers(episodes, Upcoming(ids, startDate, endDate));
      assert forall e :: e in sorted <==> e in matching by {
        assert forall e :: e in sorted <==> e in multiset(sorted);
        assert forall e :: e in matching <==> e in multiset(matching);
      }
      EpisodesResult(Some(sorted), None)
  }

  /** Season first, then episode number. */
  function BroadcastOrder(a: Episode, b: Episode): bool {
    a.seasonNumber < b.seasonNumber
    || (a.seasonNumber == b.seasonNumber && a.episodeNumber <= b.episodeNumber)
  }

  lemma BroadcastOrderIsTotalPreorder()
    ensures TotalPreorder(BroadcastOrder)
  {
  }

  function OfShow(movieId: Uuid): Episode -> bool {
    (e: Episode) => e.movieId == movieId
  }

  /** `getEpisodesForShow`: the show's episodes by season, then episode
      number; a failed query yields no data and its error. */
  function GetEpisodesForShow(episodes: seq<Episode>, movieId: Uuid, queryError: Option<DbError>)
    : (r: EpisodesResult)
    ensures queryError.Some? ==> r == EpisodesResult(None, queryError)
    ensures queryError.None? ==>
      && r.error.None? && r.data.Some?
      && multiset(r.data.value) == multiset(Filter(episodes, OfShow(movieId)))
      && (forall e :: e in r.data.value <==> e in episodes && e.movieId == movieId)
      && (forall i, j :: 0 <= i < j < |r.data.value| ==>
            r.data.value[i].seasonNumber < r.data.value[j].seasonNumber
            || (r.data.value[i].seasonNumber == r.data.value[j].seasonNumber
                && r.data.value[i].episodeNumber <= r.data.value[j].episodeNumber))
  {
    if queryError.Some? then EpisodesResult(None, queryError)
    else
      var mine := Filter(episodes, OfShow(movieId));
      var sorted := SortBy(mine, BroadcastOrder);
      BroadcastOrderIsTotalPreorder();
      SortBySorted(mine, BroadcastOrder);
      FilterMembers(episodes, OfShow(movieId));
      assert forall e :: e in sorted <==> e in mine by {
        assert forall e :: e in sorted <==> e in multiset(sorted);
        assert forall e :: e in mine <==> e in multiset(mine);
      }
      assert forall i, j :: 0 <= i < j < |sorted| ==> BroadcastOrder(sorted[i], sorted[j]);
      EpisodesResult(Some(sorted), None)
  }
}

=== FILE: friends_view.dfy ===
/** The friends screens' client rules: the friend and request lists built
    from the queried rows (hooks/useFriends.ts), the user search with its
    status labels and its local update after a request is sent
    (components/friends/UserSearchBar.tsx), and the compatibility badge
    (components/friends/CompatibilityScore.tsx). */
module FriendsView {
  import opened Wrappers
  import opened Schema
  import opened Seqs
  import opened Text
  import Friendships
  import Ratings
  import Compatibility

  // ---------------------------------------------------------------------
  // Friend and request lists
  // ---------------------------------------------------------------------

  /** A `getFriends` row with both embedded profiles: `profiles` through the
      requester key and `addressee` through the addressee key. */
  datatype FriendRow = FriendRow(friendship: Friendship, requester: Profile, addressee: Profile)

  /** A `getPendingRequests` row with the requester's profile embedded. */
  datatype PendingRow = PendingRow(friendship: Friendship, requester: Profile)

  /** An entry of the friend list or of the request list. */
  datatype FriendItem = FriendItem(id: Uuid, profile: Profile)

  /** The embedded profiles are the ones the row's keys point at. */
  predicate Joined(row: FriendRow) {
    row.requester.id == row.friendship.requesterId && row.addressee.id == row.friendship.addresseeId
  }

  /** The friend list: one entry per row, in order, carrying the friendship
      id and the profile of the other party (the addressee when the user
      asked, the requester otherwise). */
  function FriendItems(rows: seq<FriendRow>, userId: Uuid): (items: seq<FriendItem>)
    ensures |items| == |rows|
    ensures forall k :: 0 <= k < |rows| ==> items[k].id == rows[k].friendship.id
    ensures forall k :: 0 <= k < |rows| ==>
      items[k].profile == rows[k].requester || items[k].profile == rows[k].addressee
    ensures forall k :: 0 <= k < |rows| && Joined(rows[k]) ==>
      items[k].profile.id == Friendships.OtherParty(rows[k].friendship, userId)
  {
    seq(|rows|, k requires 0 <= k < |rows| =>
      FriendItem(rows[k].friendship.id,
                 if rows[k].friendship.requesterId == userId then rows[k].addressee
                 else rows[k].requester))
  }

  /** The ids of the profiles a list shows. */
  function ProfileIds(items: seq<FriendItem>): (ids: seq<Uuid>)
    ensures |ids| == |items|
    ensures forall k :: 0 <= k < |items| ==> ids[k] == items[k].profile.id
  {
    seq(|items|, k requires 0 <= k < |items| => items[k].profile.id)
  }

  /** The friend list shows exactly the users whose ratings the feed reads,
      in the same order, when the rows are the `getFriends` answer with
      their profiles joined. */
  lemma FriendListIsFeedFriends(fs: seq<Friendship>, rows: seq<FriendRow>, userId: Uuid)
    requires |rows| == |Friendships.GetFriends(fs, userId)|
    requires forall k :: 0 <= k < |rows| ==>
      rows[k].friendship == Friendships.GetFriends(fs, userId)[k] && Joined(rows[k])
    ensures ProfileIds(FriendItems(rows, userId)) == Ratings.FriendIds(fs, userId)
  {
    var friends := Friendships.GetFriends(fs, userId);
    var ids := Ratings.FriendIds(fs, userId);
    assert ids == seq(|friends|, k requires 0 <= k < |friends| => Friendships.OtherParty(friends[k], userId));
  }

  /** The two lists the friends screen shows. */
  datatype FriendLists = FriendLists(friends: seq<FriendItem>, pending: seq<FriendItem>)

  /** `fetchData`: a list is rebuilt from its query's rows when data came
      back (`Some`), and left as it was when the query failed (`None`). */
  function FetchData(
    prev: FriendLists, friendRows: Option<seq<FriendRow>>, pendingRows: Option<seq<PendingRow>>,
    userId: Uuid): (r: FriendLists)
    ensures friendRows.None? ==> r.friends == prev.friends
    ensures pendingRows.None? ==> r.pending == prev.pending
    ensures friendRows.Some? ==>
      && |r.friends| == |friendRows.value|
      && forall k :: 0 <= k < |friendRows.value| ==>
           && r.friends[k].id == friendRows.value[k].friendship.id
           && (Joined(friendRows.value[k]) ==>
                 r.friends[k].profile.id == Friendships.OtherParty(friendRows.value[k].friendship, userId))
    ensures pendingRows.Some? ==>
      && |r.pending| == |pendingRows.value|
      && forall k :: 0 <= k < |pendingRows.value| ==>
           r.pending[k] == FriendItem(pendingRows.value[k].friendship.id, pendingRows.value[k].requester)
  {
    FriendLists(
      if friendRows.Some? then FriendItems(friendRows.value, userId) else prev.friends,
      if pendingRows.Some? then PendingItems(pendingRows.value) else prev.pending)
  }

  /** A refetch whose friends query returned the joined `getFriends` rows
      shows exactly the feed's friends, whatever the screen showed before and
      whatever the request query did. */
  lemma FetchedFriendsAreFeedFriends(
    prev: FriendLists, fs: seq<Friendship>, rows: seq<FriendRow>,
    pendingRows: Option<seq<PendingRow>>, userId: Uuid)
    requires |rows| == |Friendships.GetFriends(fs, userId)|
    requires forall k :: 0 <= k < |rows| ==>
      rows[k].friendship == Friendships.GetFriends(fs, userId)[k] && Joined(rows[k])
    ensures ProfileIds(FetchData(prev, Some(rows), pendingRows, userId).friends) == Ratings.FriendIds(fs, userId)
  {
    FriendListIsFeedFriends(fs, rows, userId);
  }

  /** The request list: one entry per row, in order, carrying the friendship
      id and the requester's profile. */
  function PendingItems(rows: seq<PendingRow>): (items: seq<FriendItem>)
    ensures |items| == |rows|
    ensures forall k :: 0 <= k < |rows| ==>
      items[k].id == rows[k].friendship.id && items[k].profile == rows[k].requester
  {
    seq(|rows|, k requires 0 <= k < |rows| => FriendItem(rows[k].friendship.id, rows[k].requester))
  }

  /** Every entry of the request list shows someone with a pending request
      to the user, when the rows are the `getPendingRequests` answer with
      the requester's profile joined. */
  lemma PendingItemsAskedTheUser(fs: seq<Friendship>, rows: seq<PendingRow>, userId: Uuid)
    requires |rows| == |Friendships.GetPendingRequests(fs, userId)|
    requires forall k :: 0 <= k < |rows| ==>
      && rows[k].friendship == Friendships.GetPendingRequests(fs, userId)[k]
      && rows[k].requester.id == rows[k].friendship.requesterId
    ensures forall k :: 0 <= k < |rows| ==>
      exists f :: f in fs && f.status == Pending && f.addresseeId == userId
        && f.requesterId == PendingItems(rows)[k].profile.id && f.id == PendingItems(rows)[k].id
  {
    var pending := Friendships.GetPendingRequests(fs, userId);
    var items := PendingItems(rows);
    forall k | 0 <= k < |rows|
      ensures (exists f :: f in fs && f.status == Pending && f.addresseeId == userId
                 && f.requesterId == items[k].profile.id && f.id == items[k].id)
    {
      assert pending[k] in pending;
    }
  }

  // ---------------------------------------------------------------------
  // User search
  // ---------------------------------------------------------------------

  /** A profile found by the search and the status of the friendship row
      between it and the user, if the lookup found one. */
  datatype SearchEntry = SearchEntry(profile: Profile, status: Option<FriendshipStatus>)

  const FriendsLabel := "Friends"
  const PendingLabel := "Pending"
  const RejectedLabel := "Rejected"

  /** `getStatusLabel`: no row, no label; otherwise one label per status. */
  function StatusLabel(status: Option<FriendshipStatus>): (text: Option<string>)
    ensures text.None? <==> status.None?
    ensures status == Some(Accepted) ==> text == Some(FriendsLabel)
    ensures status == Some(Pending) ==> text == Some(PendingLabel)
    ensures status == Some(Rejected) ==> text == Some(RejectedLabel)
  {
    match status
    case None => None
    case Some(Accepted) => Some(FriendsLabel)
    case Some(Pending) => Some(PendingLabel)
    case Some(Rejected) => Some(RejectedLabel)
  }

  /** Different statuses never show the same label. */
  lemma StatusLabelInjective(a: Option<FriendshipStatus>, b: Option<FriendshipStatus>)
    requires StatusLabel(a) == StatusLabel(b)
    ensures a == b
  {
  }

  /** The status shown for each profile found: the status of the row
      `getFriendshipStatus` returns, which is there only when exactly one
      row links the two users. */
  function EntriesOf(profiles: seq<Profile>, fs: seq<Friendship>, userId: Uuid): (entries: seq<SearchEntry>)
    ensures |entries| == |profiles|
    ensures forall k :: 0 <= k < |profiles| ==> entries[k].profile == profiles[k]
    ensures forall k :: 0 <= k < |profiles| ==>
      (entries[k].status.Some? <==> |Filter(fs, Friendships.Between(userId, profiles[k].id))| == 1)
    ensures forall k :: 0 <= k < |profiles| && entries[k].status.Some? ==>
      exists f :: f in fs && Friendships.Between(userId, profiles[k].id)(f) && f.status == entries[k].status.value
  {
    seq(|profiles|, k requires 0 <= k < |profiles| =>
      var row := Friendships.GetFriendshipStatus(fs, userId, profiles[k].id);
      SearchEntry(profiles[k], if row.Some? then Some(row.value.status) else None))
  }

  /** The entries as the search builds them when some status queries fail:
      `statusErrors` maps a profile id to the error its `getFriendshipStatus`
      query met, and such a profile reads as having no row. */
  function EntriesOfRead(
    profiles: seq<Profile>, fs: seq<Friendship>, userId: Uuid, statusErrors: map<Uuid, DbError>)
    : (entries: seq<SearchEntry>)
    ensures |entries| == |profiles|
    ensures forall k :: 0 <= k < |profiles| ==> entries[k].profile == profiles[k]
    ensures forall k :: 0 <= k < |profiles| && profiles[k].id in statusErrors ==> entries[k].status.None?
    ensures forall k :: 0 <= k < |profiles| && profiles[k].id !in statusErrors ==>
      entries[k] == EntriesOf(profiles, fs, userId)[k]
  {
    seq(|profiles|, k requires 0 <= k < |profiles| =>
      var id := profiles[k].id;
      var row := Friendships.GetFriendshipStatusRead(
        fs, userId, id, if id in statusErrors then Some(statusErrors[id]) else None);
      SearchEntry(profiles[k], if row.Some? then Some(row.value.status) else None))
  }

  /** With every status query answered, the entries are `EntriesOf`. */
  lemma EntriesOfReadWithoutErrors(profiles: seq<Profile>, fs: seq<Friendship>, userId: Uuid)
    ensures EntriesOfRead(profiles, fs, userId, map[]) == EntriesOf(profiles, fs, userId)
  {
    var a := EntriesOfRead(profiles, fs, userId, map[]);
    var b := EntriesOf(profiles, fs, userId);
    assert forall k :: 0 <= k < |profiles| ==> a[k] == b[k];
  }

  /** A profile whose status query failed gets no label and the "Add"
      button, even when a row links it to the user. */
  lemma FailedStatusOffersAdd(
    profiles: seq<Profile>, fs: seq<Friendship>, userId: Uuid, statusErrors: map<Uuid, DbError>,
    k: nat, sending: Option<Uuid>)
    requires k < |profiles| && profiles[k].id in statusErrors
    ensures StatusLabel(EntriesOfRead(profiles, fs, userId, statusErrors)[k].status).None?
    ensures AddButton(EntriesOfRead(profiles, fs, userId, statusErrors)[k], sending).Some?
  {
  }

  /** `handleSend`'s update of the results: the entries of the profile the
      request went to show a pending request; all other entries are
      untouched. */
  function MarkPending(entries: seq<SearchEntry>, addresseeId: Uuid): (r: seq<SearchEntry>)
    ensures |r| == |entries|
    ensures forall k :: 0 <= k < |entries| ==> r[k].profile == entries[k].profile
    ensures forall k :: 0 <= k < |entries| && entries[k].profile.id == addresseeId ==>
      r[k].status == Some(Pending)
    ensures forall k :: 0 <= k < |entries| && entries[k].profile.id != addresseeId ==> r[k] == entries[k]
  {
    seq(|entries|, k requires 0 <= k < |entries| =>
      if entries[k].profile.id == addresseeId then entries[k].(status := Some(Pending)) else entries[k])
  }

  /** The local update agrees with the table: when a request to a user with
      no row yet between the two succeeds, looking the statuses up again
      gives exactly the updated list. The search never lists the user
      themself (`searchProfiles` excludes them). */
  lemma MarkPendingMatchesLookup(
    profiles: seq<Profile>, s: Friendships.Social, userId: Uuid, addresseeId: Uuid,
    newId: Uuid, notificationId: Uuid, now: Timestamp, notificationStored: bool)
    requires addresseeId != userId
    requires forall k :: 0 <= k < |profiles| ==> profiles[k].id != userId
    requires forall i :: 0 <= i < |s.friendships| ==>
      !Friendships.Between(userId, addresseeId)(s.friendships[i])
    ensures var r := Friendships.SendFriendRequest(s, userId, addresseeId, newId, notificationId, now,
                                                   None, notificationStored);
      MarkPending(EntriesOf(profiles, s.friendships, userId), addresseeId)
        == EntriesOf(profiles, r.state.friendships, userId)
  {
    var r := Friendships.SendFriendRequest(s, userId, addresseeId, newId, notificationId, now,
                                           None, notificationStored);
    var before := EntriesOf(profiles, s.friendships, userId);
    var local := MarkPending(before, addresseeId);
    var after := EntriesOf(profiles, r.state.friendships, userId);
    var row := r.data.value;
    forall k | 0 <= k < |profiles| ensures local[k] == after[k] {
      var p := profiles[k].id;
      if p == addresseeId {
        Friendships.SendThenStatusPending(s, userId, addresseeId, newId, notificationId, now,
                                          notificationStored);
      } else {
        FilterAppend(s.friendships, [row], Friendships.Between(userId, p));
        assert !Friendships.Between(userId, p)(row);
        assert Filter([row], Friendships.Between(userId, p)) == [];
        assert s.friendships + [row] == r.state.friendships;
      }
    }
  }

  /** The add button of an entry, with whether it is disabled: there is a
      button only when no status label is shown, and it is disabled only
      while a request to that very profile is being sent. */
  function AddButton(entry: SearchEntry, sending: Option<Uuid>): (disabled: Option<bool>)
    ensures disabled.Some? <==> entry.status.None?
    ensures disabled == Some(true) ==> sending == Some(entry.profile.id)
    ensures disabled == Some(false) ==> sending != Some(entry.profile.id)
  {
    if StatusLabel(entry.status).Some? then None else Some(sending == Some(entry.profile.id))
  }

  /** What the search box holds: the entries shown, the "Searching..."
      flag, and the query of the debounced search still waiting to run. */
  datatype SearchBar = SearchBar(results: seq<SearchEntry>, searching: bool, scheduled: Option<string>)

  const IdleBar := SearchBar([], false, None)

  /** The query effect as the component writes it: a blank query drops the
      results and the waiting search, but leaves `searching` as it was;
      any other query schedules a search and shows "Searching...". */
  function OnQueryChangeAsWritten(bar: SearchBar, query: string): (r: SearchBar)
    ensures IsBlank(query) ==> r.results == [] && r.scheduled.None? && r.searching == bar.searching
    ensures !IsBlank(query) ==> r == bar.(searching := true, scheduled := Some(query))
  {
    TrimEmptyIffBlank(query);
    if Trim(query) == "" then bar.(results := [], scheduled := None)
    else bar.(searching := true, scheduled := Some(query))
  }

  /** The query effect as intended (and as the favourites search does it): a
      blank query also stops "Searching...". */
  function OnQueryChange(bar: SearchBar, query: string): (r: SearchBar)
    ensures IsBlank(query) ==> r == IdleBar
    ensures !IsBlank(query) ==> r == bar.(searching := true, scheduled := Some(query))
  {
    TrimEmptyIffBlank(query);
    if Trim(query) == "" then IdleBar
    else bar.(searching := true, scheduled := Some(query))
  }

  /** The debounce timer fires: the entries found replace the results (a
      failed search keeps the old ones) and searching stops. A cleared timer
      never fires. */
  function OnTimerFired(bar: SearchBar, found: Option<seq<SearchEntry>>): (r: SearchBar)
    ensures bar.scheduled.None? ==> r == bar
    ensures bar.scheduled.Some? ==> !r.searching && r.scheduled.None?
    ensures bar.scheduled.Some? ==> r.results == (if found.Some? then found.value else bar.results)
  {
    if bar.scheduled.None? then bar
    else SearchBar(if found.Some? then found.value else bar.results, false, None)
  }

  /** What happens to the search box: a new query, or the timer firing with
      the entries found (`None` when the profile query returned nothing). */
  datatype SearchEvent = QueryTyped(query: string) | TimerFired(found: Option<seq<SearchEntry>>)

  function StepAsWritten(bar: SearchBar, e: SearchEvent): SearchBar {
    match e
    case QueryTyped(q) => OnQueryChangeAsWritten(bar, q)
    case TimerFired(found) => OnTimerFired(bar, found)
  }

  function Step(bar: SearchBar, e: SearchEvent): SearchBar {
    match e
    case QueryTyped(q) => OnQueryChange(bar, q)
    case TimerFired(found) => OnTimerFired(bar, found)
  }

  function Run(bar: SearchBar, es: seq<SearchEvent>): SearchBar
    decreases |es|
  {
    if es == [] then bar else Step(Run(bar, es[..|es| - 1]), es[|es| - 1])
  }

  function RunAsWritten(bar: SearchBar, es: seq<SearchEvent>): SearchBar
    decreases |es|
  {
    if es == [] then bar else StepAsWritten(RunAsWritten(bar, es[..|es| - 1]), es[|es| - 1])
  }

  /** "Searching..." is shown exactly while a search is waiting to run. */
  predicate Honest(bar: SearchBar) {
    bar.searching <==> bar.scheduled.Some?
  }

  /** With the intended query effect the flag stays honest through any
      sequence of typing and timer events. */
  lemma {:induction false} RunKeepsHonest(bar: SearchBar, es: seq<SearchEvent>)
    requires Honest(bar)
    ensures Honest(Run(bar, es))
    decreases |es|
  {
    if es != [] {
      RunKeepsHonest(bar, es[..|es| - 1]);
    }
  }

  /** As written, typing a letter and erasing it before the timer fires
      leaves "Searching..." on screen with no search left to end it, and
      further blank queries or timer events never clear it. */
  lemma {:induction false} ErasedQueryKeepsSearching(more: seq<SearchEvent>)
    requires forall k :: 0 <= k < |more| ==> more[k].TimerFired? || IsBlank(more[k].query)
    ensures var bar := RunAsWritten(IdleBar, [QueryTyped("a"), QueryTyped("")] + more);
      bar.searching && bar.scheduled.None? && !Honest(bar)
    decreases |more|
  {
    var es := [QueryTyped("a"), QueryTyped("")] + more;
    assert !IsBlank("a") by {
      assert !IsWhitespace("a"[0]);
    }
    assert IsBlank("");
    if more == [] {
      assert es[..1] == [QueryTyped("a")];
      assert [QueryTyped("a")][..0] == [];
    } else {
      var n := |more| - 1;
      assert es[..|es| - 1] == [QueryTyped("a"), QueryTyped("")] + more[..n];
      ErasedQueryKeepsSearching(more[..n]);
    }
  }

  // ---------------------------------------------------------------------
  // Compatibility badge
  // ---------------------------------------------------------------------

  /** The colour classes of `getColor`. */
  datatype Colour = SuccessColour | StarColour | ForegroundColour | DangerColour

  /** `getColor`: the four bands split every score, at 80, 60 and 40. */
  function ColourOf(score: int): (c: Colour)
    ensures c == SuccessColour <==> score >= 80
    ensures c == StarColour <==> 60 <= score < 80
    ensures c == ForegroundColour <==> 40 <= score < 60
    ensures c == DangerColour <==> score < 40
  {
    if score >= 80 then SuccessColour
    else if score >= 60 then StarColour
    else if score >= 40 then ForegroundColour
    else DangerColour
  }

  /** The bands from worst to best. */
  function Rank(c: Colour): nat {
    match c
    case DangerColour => 0
    case ForegroundColour => 1
    case StarColour => 2
    case SuccessColour => 3
  }

  /** A higher score never gets a worse colour. */
  lemma ColourMonotone(s: int, t: int)
    requires s <= t
    ensures Rank(ColourOf(s)) <= Rank(ColourOf(t))
  {
  }

  /** The badge: nothing before the result has loaded or with no title in
      common; otherwise the score with its colour. */
  function Badge(loaded: Option<Compatibility.CompatibilityResult>): (shown: Option<(int, Colour)>)
    ensures shown.Some? <==> loaded.Some? && loaded.value.commonCount != 0
    ensures shown.Some? ==> shown.value == (loaded.value.score, ColourOf(loaded.value.score))
  {
    if loaded.None? || loaded.value.commonCount == 0 then None
    else Some((loaded.value.score, ColourOf(loaded.value.score)))
  }

  /** Two friends see the same badge on each other's profile. */
  lemma BadgeSymmetric(table: seq<Rating>, userA: Uuid, userB: Uuid)
    requires Ratings.OneRatingPerUserMovie(table)
    ensures Badge(Some(Compatibility.CompatibilityOf(table, userA, userB)))
         == Badge(Some(Compatibility.CompatibilityOf(table, userB, userA)))
  {
    Compatibility.CompatibilityOfSymmetric(table, userA, userB);
  }

  /** Identical taste shows 100 in the success colour. */
  lemma IdenticalTasteBadge(a: seq<Compatibility.ScoreRow>, b: seq<Compatibility.ScoreRow>)
    requires Compatibility.AgreeEverywhere(a, b)
    requires Compatibility.Compatibility(Some(a), Some(b)).commonCount > 0
    ensures Badge(Some(Compatibility.Compatibility(Some(a), Some(b)))) == Some((100, SuccessColour))
  {
    Compatibility.IdenticalTasteGives100(a, b);
  }

  /** Opposed taste on at least one common title shows 0 in the danger colour. */
  lemma OpposedTasteBadge(a: seq<Compatibility.ScoreRow>, b: seq<Compatibility.ScoreRow>)
    requires Compatibility.OpposedEverywhere(a, b)
    requires Compatibility.Compatibility(Some(a), Some(b)).commonCount > 0
    ensures Badge(Some(Compatibility.Compatibility(Some(a), Some(b)))) == Some((0, DangerColour))
  {
    Compatibility.OpposedTasteGives0(a, b);
  }
}

=== FILE: friendships.dfy ===
/** The friendship lifecycle (services/friendships.ts) as operations on the
    `friendships` table together with the `notifications` table it writes to.
    Each database statement's failure is an input: `dbError` for a statement
    whose error the service inspects, `notificationStored` for the
    notification insert whose result the service ignores. */
module Friendships {
  import opened Wrappers
  import opened Schema
  import opened Seqs
  import opened Sorting

  /** The two tables the friendship services touch. */
  datatype Social = Social(friendships: seq<Friendship>, notifications: seq<Notification>)

  /** What a friendship service returns: the selected row (for send and
      accept) and the error. */
  datatype Outcome = Outcome(state: Social, data: Option<Friendship>, error: Option<DbError>)

  /** `id` is the primary key of `friendships`. */
  predicate UniqueIds(fs: seq<Friendship>) {
    forall i, j :: 0 <= i < j < |fs| ==> fs[i].id != fs[j].id
  }

  function Involves(f: Friendship, user: Uuid): bool {
    f.requesterId == user || f.addresseeId == user
  }

  /** `.eq("id", friendshipId).eq("addressee_id", addresseeId)`. */
  function AddressedMatch(friendshipId: Uuid, addresseeId: Uuid): Friendship -> bool {
    (f: Friendship) => f.id == friendshipId && f.addresseeId == addresseeId
  }

  /** Applies `u` to every row selected by `p`. */
  function UpdateWhere(fs: seq<Friendship>, p: Friendship -> bool, u: FriendshipUpdate)
    : (r: seq<Friendship>)
    ensures |r| == |fs|
    ensures forall i :: 0 <= i < |fs| ==>
      r[i] == if p(fs[i]) then ApplyFriendshipUpdate(fs[i], u) else fs[i]
  {
    seq(|fs|, i requires 0 <= i < |fs| => if p(fs[i]) then ApplyFriendshipUpdate(fs[i], u) else fs[i])
  }

  const FriendRequestTitle := "New friend request"
  const FriendRequestBody := "Someone sent you a friend request"
  const FriendAcceptedTitle := "Friend request accepted"
  const FriendAcceptedBody := "Your friend request was accepted!"

  /** `sendFriendRequest`: a pending row from requester to addressee and, only
      when the insert succeeds, a "friend_request" notification for the
      addressee. */
  function SendFriendRequest(
    s: Social, requesterId: Uuid, addresseeId: Uuid,
    newId: Uuid, notificationId: Uuid, now: Timestamp,
    dbError: Option<DbError>, notificationStored: bool): (r: Outcome)
    ensures dbError.Some? ==> r.state == s && r.error == dbError
    ensures dbError.None? ==>
      && r.error.None?
      && r.data == Some(Friendship(newId, requesterId, addresseeId, Pending, now, now))
      && r.state.friendships == s.friendships + [r.data.value]
    ensures dbError.None? && notificationStored ==>
      exists n :: r.state.notifications == s.notifications + [n]
        && n.userId == addresseeId && n.ntype == FriendRequest && !n.read
        && n.data == RequestData(newId, requesterId)
    ensures dbError.None? && !notificationStored ==> r.state.notifications == s.notifications
  {
    if dbError.Some? then Outcome(s, None, dbError)
    else
      var row := Friendship(newId, requesterId, addresseeId, Pending, now, now);
      var note := Notification(notificationId, addresseeId, FriendRequest,
        FriendRequestTitle, Some(FriendRequestBody), RequestData(newId, requesterId), false, now);
      Outcome(
        Social(s.friendships + [row],
               s.notifications + (if notificationStored then [note] else [])),
        Some(row), None)
  }

  /** `acceptFriendRequest`: marks the row with this id accepted, but only if
      the caller is its addressee; `.single()` makes "no such row" an error. On
      success the requester gets a "friend_accepted" notification. The current
      status is not checked. */
  function AcceptFriendRequest(
    s: Social, friendshipId: Uuid, addresseeId: Uuid,
    notificationId: Uuid, now: Timestamp,
    dbError: Option<DbError>, notificationStored: bool): (r: Outcome)
    requires UniqueIds(s.friendships)
    ensures UniqueIds(r.state.friendships)
    ensures |r.state.friendships| == |s.friendships|
    ensures forall i :: 0 <= i < |s.friendships| ==>
      if r.error.None? && s.friendships[i].id == friendshipId
      then r.state.friendships[i] == s.friendships[i].(status := Accepted, updatedAt := now)
      else r.state.friendships[i] == s.friendships[i]
    ensures r.error.None? <==>
      && dbError.None?
      && exists i :: 0 <= i < |s.friendships| && AddressedMatch(friendshipId, addresseeId)(s.friendships[i])
    ensures r.error.Some? ==> r.state == s
    ensures r.error.None? ==>
      && r.data.Some?
      && r.data.value.id == friendshipId
      && r.data.value.addresseeId == addresseeId
      && r.data.value.status == Accepted
      && r.data.value in r.state.friendships
    ensures r.error.None? && notificationStored ==>
      exists n :: r.state.notifications == s.notifications + [n]
        && n.userId == r.data.value.requesterId && n.ntype == FriendAccepted
        && n.data == AcceptedData(friendshipId)
    ensures r.error.None? && !notificationStored ==> r.state.notifications == s.notifications
  {
    if dbError.Some? then Outcome(s, None, dbError)
    else
      var p := AddressedMatch(friendshipId, addresseeId);
      var matched := Filter(s.friendships, p);
      if |matched| != 1 then
        assert forall i :: 0 <= i < |s.friendships| ==> !p(s.friendships[i]) by {
          if exists i :: 0 <= i < |s.friendships| && p(s.friendships[i]) {
            SingleMatch(s.friendships, friendshipId, addresseeId);
          }
        }
        Outcome(s, None, Some(NotExactlyOneRow))
      else
        var fs := UpdateWhere(s.friendships, p, FriendshipUpdate(Some(Accepted), Some(now)));
        var row := ApplyFriendshipUpdate(matched[0], FriendshipUpdate(Some(Accepted), Some(now)));
        var note := Notification(notificationId, row.requesterId, FriendAccepted,
          FriendAcceptedTitle, Some(FriendAcceptedBody), AcceptedData(row.id), false, now);
        assert matched[0] in s.friendships;
        assert forall i :: 0 <= i < |s.friendships| && s.friendships[i].id == friendshipId ==>
          p(s.friendships[i]) by {
          forall i | 0 <= i < |s.friendships| && s.friendships[i].id == friendshipId
            ensures p(s.friendships[i])
          {
            var j :| 0 <= j < |s.friendships| && s.friendships[j] == matched[0];
            assert i == j;
          }
        }
        assert row in fs by {
          var j :| 0 <= j < |s.friendships| && s.friendships[j] == matched[0];
          assert fs[j] == row;
        }
        Outcome(
          Social(fs, s.notifications + (if notificationStored then [note] else [])),
          Some(row), None)
  }

  /** With unique ids, at most one row matches an id, so a matching row is the
      one row `.single()` finds. */
  lemma SingleMatch(fs: seq<Friendship>, friendshipId: Uuid, addresseeId: Uuid)
    requires UniqueIds(fs)
    requires exists i :: 0 <= i < |fs| && AddressedMatch(friendshipId, addresseeId)(fs[i])
    ensures |Filter(fs, AddressedMatch(friendshipId, addresseeId))| == 1
  {
    var p := AddressedMatch(friendshipId, addresseeId);
    var i :| 0 <= i < |fs| && p(fs[i]);
    FilterSingleton(fs, p, i);
  }

  /** `rejectFriendRequest`: marks the row rejected when the caller is its
      addressee. No `.single()`, so a non-matching call is silently a no-op,
      and no notification is ever written. */
  function RejectFriendRequest(
    s: Social, friendshipId: Uuid, addresseeId: Uuid, now: Timestamp,
    dbError: Option<DbError>): (r: Outcome)
    ensures r.state.notifications == s.notifications
    ensures r.error == dbError
    ensures |r.state.friendships| == |s.friendships|
    ensures forall i :: 0 <= i < |s.friendships| ==>
      if dbError.None? && s.friendships[i].id == friendshipId
         && s.friendships[i].addresseeId == addresseeId
      then r.state.friendships[i] == s.friendships[i].(status := Rejected, updatedAt := now)
      else r.state.friendships[i] == s.friendships[i]
  {
    if dbError.Some? then Outcome(s, None, dbError)
    else
      Outcome(
        s.(friendships := UpdateWhere(s.friendships, AddressedMatch(friendshipId, addresseeId),
                                      FriendshipUpdate(Some(Rejected), Some(now)))),
        None, None)
  }

  /** The rows `removeFriend` keeps: all but the one with this id, when the
      caller is one of its two parties
      (`.eq("id", friendshipId).or(requester_id.eq.user, addressee_id.eq.user)`). */
  function KeptAfterRemove(friendshipId: Uuid, userId: Uuid): Friendship -> bool {
    (f: Friendship) => !(f.id == friendshipId && Involves(f, userId))
  }

  /** `removeFriend`: deletes the row only when the caller is one of its two
      parties; every other row stays, in order. */
  function RemoveFriend(s: Social, friendshipId: Uuid, userId: Uuid, dbError: Option<DbError>)
    : (r: Outcome)
    ensures r.state.notifications == s.notifications
    ensures r.error == dbError
    ensures dbError.Some? ==> r.state == s
    ensures dbError.None? ==>
      forall i :: 0 <= i < |s.friendships| ==>
        (s.friendships[i] in r.state.friendships
         <== !(s.friendships[i].id == friendshipId && Involves(s.friendships[i], userId)))
    ensures dbError.None? ==>
      forall i :: 0 <= i < |r.state.friendships| ==>
        r.state.friendships[i] in s.friendships
        && !(r.state.friendships[i].id == friendshipId && Involves(r.state.friendships[i], userId))
    ensures IsSubsequence(r.state.friendships, s.friendships)
  {
    if dbError.Some? then
      SubsequenceRefl(s.friendships);
      Outcome(s, None, dbError)
    else
      FilterIsSubsequence(s.friendships, KeptAfterRemove(friendshipId, userId));
      Outcome(s.(friendships := Filter(s.friendships, KeptAfterRemove(friendshipId, userId))),
              None, None)
  }

  /** `.eq("status", "accepted").or(requester_id.eq.user, addressee_id.eq.user)`. */
  function AcceptedWith(userId: Uuid): Friendship -> bool {
    (f: Friendship) => f.status == Accepted && Involves(f, userId)
  }

  /** `getFriends`: the accepted rows in which the user is either party. */
  function GetFriends(fs: seq<Friendship>, userId: Uuid): (r: seq<Friendship>)
    ensures forall f :: f in r <==> f in fs && f.status == Accepted && Involves(f, userId)
    ensures IsSubsequence(r, fs)
    ensures |r| == CountWhere(fs, AcceptedWith(userId))
  {
    FilterIsSubsequence(fs, AcceptedWith(userId));
    Filter(fs, AcceptedWith(userId))
  }

  /** What a list query hands back, `{ data, error }`: `data` is null exactly
      when the query failed. */
  datatype ListRead = ListRead(data: Option<seq<Friendship>>, error: Option<DbError>)

  /** `getFriends` with its query outcome: a failed query gives no data and
      its error; otherwise the accepted rows involving the user. */
  function GetFriendsRead(fs: seq<Friendship>, userId: Uuid, queryError: Option<DbError>): (r: ListRead)
    ensures r.error == queryError
    ensures r.data.None? <==> queryError.Some?
    ensures r.data.Some? ==>
      && (forall f :: f in r.data.value <==> f in fs && f.status == Accepted && Involves(f, userId))
      && |r.data.value| == CountWhere(fs, AcceptedWith(userId))
  {
    if queryError.Some? then ListRead(None, queryError) else ListRead(Some(GetFriends(fs, userId)), None)
  }

  /** Newer rows first (`order("created_at", { ascending: false })`). */
  function NewerFirst(a: Friendship, b: Friendship): bool {
    a.createdAt >= b.createdAt
  }

  lemma NewerFirstIsTotalPreorder()
    ensures TotalPreorder(NewerFirst)
  {
  }

  function IncomingPending(userId: Uuid): Friendship -> bool {
    (f: Friendship) => f.addresseeId == userId && f.status == Pending
  }

  /** `getPendingRequests`: the pending rows addressed to the user, newest first. */
  function GetPendingRequests(fs: seq<Friendship>, userId: Uuid): (r: seq<Friendship>)
    ensures multiset(r) == multiset(Filter(fs, IncomingPending(userId)))
    ensures forall f :: f in r <==> f in fs && f.addresseeId == userId && f.status == Pending
    ensures SortedBy(r, NewerFirst)
  {
    var incoming := Filter(fs, IncomingPending(userId));
    var r := SortBy(incoming, NewerFirst);
    SortBySorted(incoming, NewerFirst);
    SameMembers(r, incoming);
    FilterMembers(fs, IncomingPending(userId));
    r
  }

  /** `getPendingRequests` with its query outcome: a failed query gives no
      data and its error; otherwise the incoming pending rows, newest first. */
  function GetPendingRequestsRead(fs: seq<Friendship>, userId: Uuid, queryError: Option<DbError>)
    : (r: ListRead)
    ensures r.error == queryError
    ensures r.data.None? <==> queryError.Some?
    ensures r.data.Some? ==>
      && multiset(r.data.value) == multiset(Filter(fs, IncomingPending(userId)))
      && SortedBy(r.data.value, NewerFirst)
  {
    if queryError.Some? then ListRead(None, queryError)
    else ListRead(Some(GetPendingRequests(fs, userId)), None)
  }

  /** `.or(and(requester=a, addressee=b), and(requester=b, addressee=a))`. */
  function Between(a: Uuid, b: Uuid): Friendship -> bool {
    (f: Friendship) => (f.requesterId == a && f.addresseeId == b) || (f.requesterId == b && f.addresseeId == a)
  }

  /** `getFriendshipStatus`: the row between the two users when `.single()`
      finds exactly one, otherwise `null` (its error is dropped). */
  function GetFriendshipStatus(fs: seq<Friendship>, a: Uuid, b: Uuid): (r: Option<Friendship>)
    ensures r.Some? ==> r.value in fs && Between(a, b)(r.value)
    ensures r.Some? <==> |Filter(fs, Between(a, b))| == 1
  {
    var matches := Filter(fs, Between(a, b));
    if |matches| == 1 then Some(matches[0]) else None
  }

  /** `getFriendshipStatus` with its query outcome: only `data` is returned,
      so a failed query reads as `null`, exactly like "no row". */
  function GetFriendshipStatusRead(fs: seq<Friendship>, a: Uuid, b: Uuid, queryError: Option<DbError>)
    : (r: Option<Friendship>)
    ensures queryError.Some? ==> r.None?
    ensures queryError.None? ==> (r.Some? <==> |Filter(fs, Between(a, b))| == 1)
    ensures r.Some? ==> r.value in fs && Between(a, b)(r.value)
  {
    if queryError.Some? then None else GetFriendshipStatus(fs, a, b)
  }

  /** Asking about (a, b) or about (b, a) gives the same answer. */
  lemma GetFriendshipStatusSymmetric(fs: seq<Friendship>, a: Uuid, b: Uuid)
    ensures GetFriendshipStatus(fs, a, b) == GetFriendshipStatus(fs, b, a)
  {
    FilterExt(fs, Between(a, b), Between(b, a));
  }

  /** The other party of a friendship, seen from `userId`. */
  function OtherParty(f: Friendship, userId: Uuid): Uuid {
    if f.requesterId == userId then f.addresseeId else f.requesterId
  }

  /** Accepting a pending request makes each party a friend of the other. */
  lemma AcceptMakesFriends(
    s: Social, friendshipId: Uuid, addresseeId: Uuid,
    notificationId: Uuid, now: Timestamp, notificationStored: bool)
    requires UniqueIds(s.friendships)
    requires AcceptFriendRequest(s, friendshipId, addresseeId, notificationId, now, None,
                                 notificationStored).error.None?
    ensures var r := AcceptFriendRequest(s, friendshipId, addresseeId, notificationId, now, None,
                                         notificationStored);
      && r.data.Some?
      && r.data.value in GetFriends(r.state.friendships, addresseeId)
      && r.data.value in GetFriends(r.state.friendships, r.data.value.requesterId)
      && OtherParty(r.data.value, addresseeId) == r.data.value.requesterId
  {
  }

  /** Sending a request between two users with no row between them yet makes
      the status lookup find the new pending row, from either side. */
  lemma SendThenStatusPending(
    s: Social, requesterId: Uuid, addresseeId: Uuid,
    newId: Uuid, notificationId: Uuid, now: Timestamp, notificationStored: bool)
    requires forall i :: 0 <= i < |s.friendships| ==>
      !Between(requesterId, addresseeId)(s.friendships[i])
    ensures var r := SendFriendRequest(s, requesterId, addresseeId, newId, notificationId, now,
                                       None, notificationStored);
      && GetFriendshipStatus(r.state.friendships, requesterId, addresseeId) == r.data
      && GetFriendshipStatus(r.state.friendships, addresseeId, requesterId) == r.data
      && r.data.value.status == Pending
  {
    var r := SendFriendRequest(s, requesterId, addresseeId, newId, notificationId, now,
                               None, notificationStored);
    var p := Between(requesterId, addresseeId);
    FilterAppend(s.friendships, [r.data.value], p);
    FilterNone(s.friendships, p);
    assert [r.data.value][..0] == [];
    GetFriendshipStatusSymmetric(r.state.friendships, requesterId, addresseeId);
  }
}

=== FILE: movie_route.dfy ===
/** The id segment of a title page, `/movie/{media_type}-{tmdb_id}`: built by
    the poster cards and calendar rows, taken apart by the page
    (app/(app)/movie/[id]/page.tsx), which splits it at `-`, reads the
    number, and answers "not found" for anything but a film or a series
    with a non-zero id. */
module MovieRoute {
  import opened Wrappers
  import opened Schema
  import opened Text

  datatype Route = Route(mediaType: MediaType, tmdbId: nat)

  /** `{media_type}-{id}`. */
  function RouteId(mediaType: MediaType, tmdbId: nat): (id: string)
    ensures id == MediaTypeName(mediaType) + "-" + NatToString(tmdbId)
  {
    MediaTypeName(mediaType) + "-" + NatToString(tmdbId)
  }

  /** The text before the first `-` (all of it when there is none). */
  function BeforeDash(s: string): (r: string)
    ensures |r| <= |s| && r == s[..|r|]
    ensures '-' !in r
    ensures |r| < |s| ==> s[|r|] == '-'
    decreases |s|
  {
    if s == [] || s[0] == '-' then [] else [s[0]] + BeforeDash(s[1..])
  }

  function ParseMediaType(s: string): (r: Option<MediaType>)
    ensures r.Some? ==> MediaTypeName(r.value) == s
    ensures forall m :: MediaTypeName(m) == s ==> r == Some(m)
  {
    if s == "movie" then Some(MovieMedia) else if s == "tv" then Some(TvMedia) else None
  }

  /** The page's reading of the id: the first two `-`-separated parts are the
      media type and the number; a missing, empty or zero number, or a media
      type other than "movie" and "tv", is not a title page. */
  function ParseRouteId(id: string): (r: Option<Route>)
    ensures r.Some? ==> r.value.tmdbId > 0
  {
    var kind := BeforeDash(id);
    if |kind| == |id| then None
    else
      var digits := BeforeDash(id[|kind| + 1..]);
      if digits == [] || !AllDigits(digits) || DigitsValue(digits) == 0 then None
      else
        match ParseMediaType(kind)
        case None => None
        case Some(m) => Some(Route(m, DigitsValue(digits)))
  }

  /** Every link the app builds for a title with a positive id opens that
      title's page. */
  lemma {:induction false} RouteIdRoundTrip(mediaType: MediaType, tmdbId: nat)
    requires tmdbId > 0
    ensures ParseRouteId(RouteId(mediaType, tmdbId)) == Some(Route(mediaType, tmdbId))
  {
    var name := MediaTypeName(mediaType);
    var digits := NatToString(tmdbId);
    var id := RouteId(mediaType, tmdbId);
    BeforeDashStops(name, digits);
    assert id[|name| + 1..] == digits;
    BeforeDashNone(digits);
    NatToStringRoundTrip(tmdbId);
  }

  /** The part before the first dash of `a + "-" + b` is `a` when `a` has no dash. */
  lemma {:induction false} BeforeDashStops(a: string, b: string)
    requires '-' !in a
    ensures BeforeDash(a + "-" + b) == a
    decreases |a|
  {
    if a != [] {
      assert (a + "-" + b)[1..] == a[1..] + "-" + b;
      BeforeDashStops(a[1..], b);
    }
  }

  /** A string without a dash is its own first part. */
  lemma {:induction false} BeforeDashNone(s: string)
    requires AllDigits(s)
    ensures BeforeDash(s) == s
    decreases |s|
  {
    if s != [] {
      BeforeDashNone(s[1..]);
    }
  }
}

=== FILE: movies.dfy ===
/** The `movies` table and `ensureMovieExists` (services/movies.ts): the
    metadata of a film or a series is flattened into a row and upserted. */
module Movies {
  import opened Wrappers
  import opened Schema
  import opened Seqs
  import opened Tmdb

  /** The columns `ensureMovieExists` derives from the metadata. */
  datatype MovieFields = MovieFields(
    title: string,
    overview: Option<string>,
    posterPath: Option<string>,
    backdropPath: Option<string>,
    releaseDate: Option<Date>,
    voteAverage: Option<real>,
    genres: Option<seq<string>>,
    runtime: Option<int>,
    numberOfSeasons: Option<int>)

  /** The genre names, in the metadata's order. */
  function GenreNames(gs: seq<Genre>): (names: seq<string>)
    ensures |names| == |gs|
    ensures forall k :: 0 <= k < |gs| ==> names[k] == gs[k].name
  {
    if |gs| == 0 then [] else GenreNames(gs[..|gs| - 1]) + [gs[|gs| - 1].name]
  }

  /** `episode_run_time?.[0] ?? null`. */
  function FirstRunTime(times: Option<seq<int>>): (r: Option<int>)
    ensures r.Some? <==> times.Some? && |times.value| > 0
    ensures r.Some? ==> r.value == times.value[0]
  {
    match times
    case None => None
    case Some(ts) => if |ts| == 0 then None else Some(ts[0])
  }

  /** The row columns for the given metadata: a film contributes its title,
      release date and runtime and no season count; a series its name, first
      air date, first episode run time and season count. */
  function FieldsOf(details: Details): (f: MovieFields)
    ensures details.MovieDetails? ==>
      && f.title == details.title
      && f.releaseDate == Some(details.releaseDate)
      && f.runtime == details.runtime
      && f.numberOfSeasons.None?
    ensures details.TvDetails? ==>
      && f.title == details.name
      && f.releaseDate == Some(details.firstAirDate)
      && f.runtime == FirstRunTime(details.episodeRunTime)
      && f.numberOfSeasons == Some(details.numberOfSeasons)
    ensures f.overview == Some(details.overview)
    ensures f.posterPath == details.posterPath && f.backdropPath == details.backdropPath
    ensures f.voteAverage == Some(details.voteAverage)
    ensures f.genres.Some?
    ensures details.genres.None? ==> f.genres == Some([])
    ensures details.genres.Some? ==>
      && |f.genres.value| == |details.genres.value|
      && forall k :: 0 <= k < |details.genres.value| ==>
           f.genres.value[k] == details.genres.value[k].name
  {
    var genres := match details.genres
      case None => []
      case Some(gs) => GenreNames(gs);
    match details
    case MovieDetails(_, title, overview, poster, backdrop, date, vote, _, runtime) =>
      MovieFields(title, Some(overview), poster, backdrop, Some(date), Some(vote), Some(genres),
                  runtime, None)
    case TvDetails(_, name, overview, poster, backdrop, date, vote, _, runTimes, seasons) =>
      MovieFields(name, Some(overview), poster, backdrop, Some(date), Some(vote), Some(genres),
                  FirstRunTime(runTimes), Some(seasons))
  }

  /** Whether a row carries exactly the given identity and columns. */
  predicate Carries(m: MovieRow, tmdbId: int, mediaType: MediaType, f: MovieFields) {
    && m.tmdbId == tmdbId && m.mediaType == mediaType
    && m.title == f.title && m.overview == f.overview
    && m.posterPath == f.posterPath && m.backdropPath == f.backdropPath
    && m.releaseDate == f.releaseDate && m.voteAverage == f.voteAverage
    && m.genres == f.genres && m.runtime == f.runtime
    && m.numberOfSeasons == f.numberOfSeasons
  }

  /** The upserted columns written over an existing row, which keeps its id
      and `created_at`. */
  function Overwrite(m: MovieRow, tmdbId: int, mediaType: MediaType, f: MovieFields, now: Timestamp)
    : (r: MovieRow)
    ensures Carries(r, tmdbId, mediaType, f)
    ensures r.id == m.id && r.createdAt == m.createdAt && r.updatedAt == now
  {
    MovieRow(m.id, tmdbId, mediaType, f.title, f.overview, f.posterPath, f.backdropPath,
             f.releaseDate, f.voteAverage, f.genres, f.runtime, f.numberOfSeasons,
             m.createdAt, now)
  }

  /** The result of a write on `movies` followed by `.select().single()`. */
  datatype MovieWrite = MovieWrite(table: seq<MovieRow>, data: Option<MovieRow>, error: Option<DbError>)

  /** An upsert whose conflict target is the key `sameKey`: every row with the
      key is overwritten, and without one a new row is appended. A failed
      statement changes nothing. */
  function UpsertOn(
    t: seq<MovieRow>, sameKey: MovieRow -> bool, tmdbId: int, mediaType: MediaType,
    f: MovieFields, now: Timestamp, newId: Uuid, dbError: Option<DbError>): (r: MovieWrite)
    ensures dbError.Some? ==> r == MovieWrite(t, None, dbError)
    ensures dbError.None? ==>
      && r.error.None?
      && r.data.Some?
      && Carries(r.data.value, tmdbId, mediaType, f)
      && r.data.value.updatedAt == now
      && r.data.value in r.table
    ensures |t| <= |r.table| <= |t| + 1
    ensures forall i :: 0 <= i < |t| && !sameKey(t[i]) ==> r.table[i] == t[i]
    ensures forall i :: 0 <= i < |t| && sameKey(t[i]) && dbError.None? ==>
      && Carries(r.table[i], tmdbId, mediaType, f)
      && r.table[i].id == t[i].id && r.table[i].createdAt == t[i].createdAt
    ensures |r.table| == |t| + 1 ==>
      && (forall i :: 0 <= i < |t| ==> !sameKey(t[i]))
      && r.data == Some(r.table[|t|])
      && r.table[|t|].id == newId && r.table[|t|].createdAt == now
  {
    if dbError.Some? then MovieWrite(t, None, dbError)
    else
      match IndexWhere(t, sameKey)
      case Some(i) =>
        var t' := seq(|t|, j requires 0 <= j < |t| =>
          if sameKey(t[j]) then Overwrite(t[j], tmdbId, mediaType, f, now) else t[j]);
        assert t'[i] in t';
        MovieWrite(t', Some(t'[i]), None)
      case None =>
        var row := MovieRow(newId, tmdbId, mediaType, f.title, f.overview, f.posterPath,
                            f.backdropPath, f.releaseDate, f.voteAverage, f.genres, f.runtime,
                            f.numberOfSeasons, now, now);
        assert Carries(row, tmdbId, mediaType, f);
        MovieWrite(t + [row], Some(row), None)
  }

  // ---------------------------------------------------------------------
  // As written: the conflict target is `tmdb_id` alone.
  // ---------------------------------------------------------------------

  function SameTmdbId(tmdbId: int): MovieRow -> bool {
    (m: MovieRow) => m.tmdbId == tmdbId
  }

  /** The uniqueness the `tmdb_id` conflict target relies on. */
  predicate OneRowPerTmdbId(t: seq<MovieRow>) {
    forall i, j :: 0 <= i < j < |t| ==> t[i].tmdbId != t[j].tmdbId
  }

  /** `ensureMovieExists` as written: whatever the media type, the row with
      the same `tmdb_id` is overwritten. */
  function EnsureMovieExistsAsWritten(
    t: seq<MovieRow>, tmdbId: int, mediaType: MediaType, details: Details,
    now: Timestamp, newId: Uuid, dbError: Option<DbError>): (r: MovieWrite)
    ensures dbError.Some? ==> r == MovieWrite(t, None, dbError)
    ensures dbError.None? ==> r.data.Some? && Carries(r.data.value, tmdbId, mediaType, FieldsOf(details))
    ensures forall m :: m in t && m.tmdbId != tmdbId ==> m in r.table
    ensures dbError.None? ==> r.error.None? && |t| <= |r.table| <= |t| + 1
    ensures OneRowPerTmdbId(t) ==> OneRowPerTmdbId(r.table)
  {
    var w := UpsertOn(t, SameTmdbId(tmdbId), tmdbId, mediaType, FieldsOf(details), now, newId, dbError);
    assert forall m :: m in t && m.tmdbId != tmdbId ==> m in w.table by {
      forall m | m in t && m.tmdbId != tmdbId ensures m in w.table {
        var i :| 0 <= i < |t| && t[i] == m;
        assert w.table[i] == m;
      }
    }
    w
  }

  /** The row stored for a film/series identity, when there is one. */
  function FindTitle(t: seq<MovieRow>, tmdbId: int, mediaType: MediaType): (r: Option<MovieRow>)
    ensures r.Some? ==> r.value in t && r.value.tmdbId == tmdbId && r.value.mediaType == mediaType
    ensures r.None? ==> forall m :: m in t ==> !(m.tmdbId == tmdbId && m.mediaType == mediaType)
  {
    match IndexWhere(t, SameTitle(tmdbId, mediaType))
    case Some(i) => Some(t[i])
    case None =>
      assert forall m :: m in t ==> !SameTitle(tmdbId, mediaType)(m);
      None
  }

  /** What `getMovieByTmdbId` returns: the row, or the error. */
  datatype MovieRead = MovieRead(data: Option<MovieRow>, error: Option<DbError>)

  /** `getMovieByTmdbId`: the rows with that `tmdb_id`, whatever their media
      type; `.single()` yields the row only when exactly one row has it and is
      an error otherwise. A failed query returns its own error. */
  function GetMovieByTmdbId(t: seq<MovieRow>, tmdbId: int, queryError: Option<DbError>): (r: MovieRead)
    ensures queryError.Some? ==> r == MovieRead(None, queryError)
    ensures queryError.None? ==>
      (r.data.Some? <==> |Filter(t, SameTmdbId(tmdbId))| == 1)
      && (r.error.None? <==> r.data.Some?)
      && (r.error.Some? ==> r.error == Some(NotExactlyOneRow))
    ensures r.data.Some? ==> r.data.value in t && r.data.value.tmdbId == tmdbId
  {
    if queryError.Some? then MovieRead(None, queryError)
    else
      var matches := Filter(t, SameTmdbId(tmdbId));
      if |matches| == 1 then MovieRead(Some(matches[0]), None) else MovieRead(None, Some(NotExactlyOneRow))
  }

  /** With one row per `tmdb_id`, every stored row is what the lookup of its
      id returns. */
  lemma GetMovieByTmdbIdFinds(t: seq<MovieRow>, i: nat)
    requires OneRowPerTmdbId(t)
    requires i < |t|
    ensures GetMovieByTmdbId(t, t[i].tmdbId, None) == MovieRead(Some(t[i]), None)
  {
    FilterSingleton(t, SameTmdbId(t[i].tmdbId), i);
  }

  /** As written, a successful save is what the lookup by `tmdb_id` returns
      afterwards, whichever media type was saved. */
  lemma SaveThenGetAsWritten(
    t: seq<MovieRow>, tmdbId: int, mediaType: MediaType, details: Details,
    now: Timestamp, newId: Uuid)
    requires OneRowPerTmdbId(t)
    ensures var w := EnsureMovieExistsAsWritten(t, tmdbId, mediaType, details, now, newId, None);
      GetMovieByTmdbId(w.table, tmdbId, None) == MovieRead(w.data, None)
  {
    var w := EnsureMovieExistsAsWritten(t, tmdbId, mediaType, details, now, newId, None);
    var i :| 0 <= i < |w.table| && w.table[i] == w.data.value;
    GetMovieByTmdbIdFinds(w.table, i);
  }

  /** A series and a film that share an external id: saving the film
      replaces the series row, so the series is no longer stored, and the row
      id that ratings and follows of the series point at now holds the film. */
  lemma FilmOverwritesSeriesWithSameId(
    t: seq<MovieRow>, i: nat, tmdbId: int, film: Details, now: Timestamp, newId: Uuid)
    requires OneRowPerTmdbId(t)
    requires i < |t| && t[i].tmdbId == tmdbId && t[i].mediaType == TvMedia
    requires film.MovieDetails?
    ensures var w := EnsureMovieExistsAsWritten(t, tmdbId, MovieMedia, film, now, newId, None);
      && FindTitle(w.table, tmdbId, TvMedia).None?
      && w.data.Some? && w.data.value.id == t[i].id && w.data.value.mediaType == MovieMedia
  {
    var w := UpsertOn(t, SameTmdbId(tmdbId), tmdbId, MovieMedia, FieldsOf(film), now, newId, None);
    assert w == EnsureMovieExistsAsWritten(t, tmdbId, MovieMedia, film, now, newId, None);
    assert |w.table| == |t|;
    forall k | 0 <= k < |w.table| ensures !SameTitle(tmdbId, TvMedia)(w.table[k]) {
      if t[k].tmdbId != tmdbId {
        assert w.table[k] == t[k];
      }
    }
    var j :| 0 <= j < |w.table| && w.table[j] == w.data.value;
    assert j == i;
  }

  // ---------------------------------------------------------------------
  // Corrected: the conflict target is the pair (tmdb_id, media_type).
  // ---------------------------------------------------------------------

  function SameTitle(tmdbId: int, mediaType: MediaType): MovieRow -> bool {
    (m: MovieRow) => m.tmdbId == tmdbId && m.mediaType == mediaType
  }

  /** At most one row per film/series identity. */
  predicate OneRowPerTitle(t: seq<MovieRow>) {
    forall i, j :: 0 <= i < j < |t| ==>
      !(t[i].tmdbId == t[j].tmdbId && t[i].mediaType == t[j].mediaType)
  }

  /** `ensureMovieExists` keyed on the pair (tmdb_id, media_type): the row of
      that identity is created or refreshed and is what a lookup returns
      afterwards; rows of every other identity, in particular those of the
      other media type with the same external id, are left as they were. */
  function EnsureMovieExists(
    t: seq<MovieRow>, tmdbId: int, mediaType: MediaType, details: Details,
    now: Timestamp, newId: Uuid, dbError: Option<DbError>): (r: MovieWrite)
    ensures dbError.Some? ==> r == MovieWrite(t, None, dbError)
    ensures dbError.None? ==> r.data.Some? && Carries(r.data.value, tmdbId, mediaType, FieldsOf(details))
    ensures dbError.None? ==> r.error.None? && |t| <= |r.table| <= |t| + 1
    ensures forall m :: m in t && !(m.tmdbId == tmdbId && m.mediaType == mediaType) ==> m in r.table
    ensures OneRowPerTitle(t) ==> OneRowPerTitle(r.table)
    ensures OneRowPerTitle(t) && dbError.None? ==> FindTitle(r.table, tmdbId, mediaType) == r.data
  {
    var key := SameTitle(tmdbId, mediaType);
    var w := UpsertOn(t, key, tmdbId, mediaType, FieldsOf(details), now, newId, dbError);
    assert forall m :: m in t && !key(m) ==> m in w.table by {
      forall m | m in t && !key(m) ensures m in w.table {
        var i :| 0 <= i < |t| && t[i] == m;
        assert w.table[i] == m;
      }
    }
    assert OneRowPerTitle(t) ==> OneRowPerTitle(w.table) by {
      if OneRowPerTitle(t) {
        forall i, j | 0 <= i < j < |w.table|
          ensures !(w.table[i].tmdbId == w.table[j].tmdbId && w.table[i].mediaType == w.table[j].mediaType)
        {
          if j == |t| {
            assert !key(t[i]);
          }
        }
      }
    }
    assert OneRowPerTitle(t) && dbError.None? ==> FindTitle(w.table, tmdbId, mediaType) == w.data by {
      if OneRowPerTitle(t) && dbError.None? {
        FindTitleUnique(w.table, tmdbId, mediaType, w.data.value);
      }
    }
    w
  }

  /** Under the uniqueness invariant, the lookup finds the one row there is. */
  lemma {:induction false} FindTitleUnique(t: seq<MovieRow>, tmdbId: int, mediaType: MediaType, m: MovieRow)
    requires OneRowPerTitle(t)
    requires m in t && m.tmdbId == tmdbId && m.mediaType == mediaType
    ensures FindTitle(t, tmdbId, mediaType) == Some(m)
  {
    var r := FindTitle(t, tmdbId, mediaType);
    var k :| 0 <= k < |t| && t[k] == m;
    var i :| 0 <= i < |t| && t[i] == r.value;
    assert i == k;
  }

  /** Saving any title keeps every stored identity stored under the same row
      id: ratings and follows that point at a row stay attached to it. */
  lemma {:induction false} EnsureMovieExistsKeepsIds(
    t: seq<MovieRow>, tmdbId: int, mediaType: MediaType, details: Details,
    now: Timestamp, newId: Uuid, dbError: Option<DbError>, key: int, keyType: MediaType)
    requires OneRowPerTitle(t)
    requires FindTitle(t, key, keyType).Some?
    ensures var after := EnsureMovieExists(t, tmdbId, mediaType, details, now, newId, dbError).table;
      && FindTitle(after, key, keyType).Some?
      && FindTitle(after, key, keyType).value.id == FindTitle(t, key, keyType).value.id
  {
    var w := UpsertOn(t, SameTitle(tmdbId, mediaType), tmdbId, mediaType, FieldsOf(details), now,
                      newId, dbError);
    assert w == EnsureMovieExists(t, tmdbId, mediaType, details, now, newId, dbError);
    var m := FindTitle(t, key, keyType).value;
    var i :| 0 <= i < |t| && t[i] == m;
    assert w.table[i].tmdbId == key && w.table[i].mediaType == keyType && w.table[i].id == m.id;
    FindTitleUnique(w.table, key, keyType, w.table[i]);
  }

  /** With the corrected key a stored series survives the save of a film
      with the same external id, and both identities are stored side by side.
      The lookup by `tmdb_id` alone then matches two rows, so `.single()`
      fails: the correction needs a lookup by both columns, as `FindTitle`. */
  lemma FilmAndSeriesCoexist(
    t: seq<MovieRow>, i: nat, tmdbId: int, film: Details, now: Timestamp, newId: Uuid)
    requires OneRowPerTitle(t)
    requires i < |t| && t[i].tmdbId == tmdbId && t[i].mediaType == TvMedia
    requires film.MovieDetails?
    ensures var w := EnsureMovieExists(t, tmdbId, MovieMedia, film, now, newId, None);
      && FindTitle(w.table, tmdbId, TvMedia) == Some(t[i])
      && FindTitle(w.table, tmdbId, MovieMedia) == w.data
      && GetMovieByTmdbId(w.table, tmdbId, None).error == Some(NotExactlyOneRow)
  {
    var w := EnsureMovieExists(t, tmdbId, MovieMedia, film, now, newId, None);
    var series := t[i];
    assert series in w.table;
    FindTitleUnique(w.table, tmdbId, TvMedia, series);
    var a :| 0 <= a < |w.table| && w.table[a] == series;
    var b :| 0 <= b < |w.table| && w.table[b] == w.data.value;
    if a < b {
      FilterTwo(w.table, SameTmdbId(tmdbId), a, b);
    } else {
      assert a != b;
      FilterTwo(w.table, SameTmdbId(tmdbId), b, a);
    }
  }
}

=== FILE: notifications.dfy ===
/** The notification list the client holds (hooks/useNotifications.ts):
    marking one notification or all of them as read, and the unread count
    shown on the badge. The database writes issued alongside are outside the
    model; only the local list is. */
module Notifications {
  import opened Wrappers
  import opened Schema
  import opened Seqs

  /** The two notifications agree on every field except, possibly, `read`. */
  predicate SameButRead(a: Notification, b: Notification) {
    a.(read := b.read) == b
  }

  /** `markRead`: the entry with that id becomes read; every entry keeps its
      place and every field other than `read`, and entries with another id
      are untouched. */
  function MarkRead(ns: seq<Notification>, notificationId: Uuid): (r: seq<Notification>)
    ensures |r| == |ns|
    ensures forall i :: 0 <= i < |ns| ==> SameButRead(r[i], ns[i])
    ensures forall i :: 0 <= i < |ns| ==> (r[i].read <==> ns[i].read || ns[i].id == notificationId)
    ensures forall i :: 0 <= i < |ns| && ns[i].id != notificationId ==> r[i] == ns[i]
  {
    seq(|ns|, i requires 0 <= i < |ns| =>
      if ns[i].id == notificationId then ns[i].(read := true) else ns[i])
  }

  /** `markAllRead`: every entry becomes read, nothing else changes. */
  function MarkAllRead(ns: seq<Notification>): (r: seq<Notification>)
    ensures |r| == |ns|
    ensures forall i :: 0 <= i < |ns| ==> SameButRead(r[i], ns[i]) && r[i].read
    ensures UnreadCount(r) == 0
  {
    seq(|ns|, i requires 0 <= i < |ns| => ns[i].(read := true))
  }

  /** `unreadCount`: how many entries are unread. It is zero exactly when all
      are read and the full length exactly when none is. */
  function UnreadCount(ns: seq<Notification>): (count: nat)
    ensures count <= |ns|
    ensures count == 0 <==> forall i :: 0 <= i < |ns| ==> ns[i].read
    ensures count == |ns| <==> forall i :: 0 <= i < |ns| ==> !ns[i].read
    decreases |ns|
  {
    if ns == [] then 0
    else
      var n := |ns| - 1;
      assert forall i :: 0 <= i < n ==> ns[..n][i] == ns[i];
      UnreadCount(ns[..n]) + (if ns[n].read then 0 else 1)
  }

  /** The count is additive over concatenation. */
  lemma {:induction false} UnreadCountAppend(a: seq<Notification>, b: seq<Notification>)
    ensures UnreadCount(a + b) == UnreadCount(a) + UnreadCount(b)
    decreases |b|
  {
    if b == [] {
      assert a + b == a;
    } else {
      var n := |b| - 1;
      assert (a + b)[..|a + b| - 1] == a + b[..n];
      assert (a + b)[|a + b| - 1] == b[n];
      UnreadCountAppend(a, b[..n]);
    }
  }

  function HasId(notificationId: Uuid): Notification -> bool {
    (n: Notification) => n.id == notificationId
  }

  /** Marking one id read lowers the badge by exactly the number of unread
      entries carrying that id. */
  lemma {:induction false} MarkReadLowersCount(ns: seq<Notification>, notificationId: Uuid)
    ensures UnreadCount(MarkRead(ns, notificationId))
      == UnreadCount(ns) - UnreadCount(Filter(ns, HasId(notificationId)))
    decreases |ns|
  {
    if ns != [] {
      var n := |ns| - 1;
      var r := MarkRead(ns, notificationId);
      assert ns == ns[..n] + [ns[n]];
      assert r == MarkRead(ns[..n], notificationId) + [r[n]];
      MarkReadLowersCount(ns[..n], notificationId);
      FilterAppend(ns[..n], [ns[n]], HasId(notificationId));
      UnreadCountAppend(MarkRead(ns[..n], notificationId), [r[n]]);
      UnreadCountAppend(ns[..n], [ns[n]]);
      UnreadCountAppend(Filter(ns[..n], HasId(notificationId)), Filter([ns[n]], HasId(notificationId)));
    }
  }

  /** `id` is the primary key of `notifications`. */
  predicate UniqueIds(ns: seq<Notification>) {
    forall i, j :: 0 <= i < j < |ns| ==> ns[i].id != ns[j].id
  }

  /** With unique ids, marking an unread entry read lowers the badge by one. */
  lemma MarkUnreadDecrementsBadge(ns: seq<Notification>, i: nat)
    requires UniqueIds(ns)
    requires i < |ns| && !ns[i].read
    ensures UnreadCount(MarkRead(ns, ns[i].id)) == UnreadCount(ns) - 1
  {
    MarkReadLowersCount(ns, ns[i].id);
    FilterSingleton(ns, HasId(ns[i].id), i);
    assert UnreadCount([ns[i]]) == UnreadCount([]) + 1;
  }

  /** Marking an entry that is already read, or an id not in the list, leaves
      the badge as it is. */
  lemma MarkReadKeepsBadge(ns: seq<Notification>, notificationId: Uuid)
    requires forall i :: 0 <= i < |ns| && ns[i].id == notificationId ==> ns[i].read
    ensures UnreadCount(MarkRead(ns, notificationId)) == UnreadCount(ns)
  {
    MarkReadLowersCount(ns, notificationId);
    var mine := Filter(ns, HasId(notificationId));
    forall k | 0 <= k < |mine| ensures mine[k].read {
      assert mine[k] in ns;
    }
  }

  /** Marking the same notification twice is the same as marking it once. */
  lemma MarkReadIdempotent(ns: seq<Notification>, notificationId: Uuid)
    ensures MarkRead(MarkRead(ns, notificationId), notificationId) == MarkRead(ns, notificationId)
  {
  }

  /** Once everything is read, marking one more changes nothing. */
  lemma MarkReadAfterMarkAll(ns: seq<Notification>, notificationId: Uuid)
    ensures MarkRead(MarkAllRead(ns), notificationId) == MarkAllRead(ns)
  {
  }
}

=== FILE: onboarding_import.dfy ===
/** The end of onboarding: saving the chosen streaming services, importing
    each chosen series as a 5-star rating, and marking the profile as
    onboarded. Two implementations exist with different partial-failure
    rules: the server action (app/onboarding/actions.ts) fails when every
    series failed; the client service (services/onboarding.ts), which the
    wizard calls, skips failures and always completes. Both are folds over
    the chosen series, each paired with what the outside world answers for
    it. Series are saved with `Movies.EnsureMovieExists`, the movie upsert
    keyed on external id and media type, not the `tmdb_id`-only key as
    written. */
module OnboardingImport {
  import opened Wrappers
  import opened Schema
  import opened Seqs
  import opened Tmdb
  import Movies
  import Ratings
  import Subscriptions
  import Wizard

  /** The tables the import writes, and the users whose profile has
      `onboarding_completed` set. */
  datatype Store = Store(
    subscriptions: seq<Subscription>,
    movies: seq<MovieRow>,
    ratings: seq<Rating>,
    completed: set<Uuid>)

  /** The uniqueness the two upserts rely on. */
  predicate Keyed(st: Store) {
    Movies.OneRowPerTitle(st.movies) && Ratings.OneRatingPerUserMovie(st.ratings)
  }

  /** What the outside world answers while one series is imported: the
      series details (`None`: the request failed, with `fetchMessage` as the
      error's message), the outcome of the movie and rating writes, the clock
      and the ids the database would generate. */
  datatype SeriesEnv = SeriesEnv(
    details: Option<Details>,
    fetchMessage: string,
    movieError: Option<DbError>,
    ratingError: Option<DbError>,
    now: Timestamp,
    newMovieId: Uuid,
    newRatingId: Uuid)

  datatype Attempt = Attempt(series: Wizard.SeriesChoice, env: SeriesEnv)

  /** The user rated title `movieId` 5 with no comment. */
  ghost predicate HasFive(ratings: seq<Rating>, userId: Uuid, movieId: Uuid) {
    exists r :: r in ratings && r.userId == userId && r.movieId == movieId
      && r.score == 5 && r.comment.None?
  }

  /** Whether the user rated the stored series `tmdbId` 5 with no comment. */
  ghost predicate RatedFive(st: Store, userId: Uuid, tmdbId: int) {
    && Movies.FindTitle(st.movies, tmdbId, TvMedia).Some?
    && HasFive(st.ratings, userId, Movies.FindTitle(st.movies, tmdbId, TvMedia).value.id)
  }

  // ---------------------------------------------------------------------
  // The server action
  // ---------------------------------------------------------------------

  const NotAuthenticatedMessage := "Not authenticated. Please refresh and try again."
  const SubscriptionsFailedMessage := "Failed to save streaming services."
  const AllSeriesFailedMessage := "Failed to save series."
  const ProfileFailedMessage := "Failed to complete setup."

  /** How one series' promise settled. */
  datatype Settled = Fulfilled | RejectedWith(message: string)

  datatype SeriesStep = SeriesStep(store: Store, settled: Settled)

  /** The series' fetch, movie save or rating failed. */
  predicate Failed(a: Attempt) {
    a.env.details.None? || a.env.movieError.Some? || a.env.ratingError.Some?
  }

  /** One series in the action: fetch its details, save its row as a series,
      rate it 5 with no comment. A failed fetch or movie save writes nothing;
      a failed rating leaves the saved row. Any failure rejects with the
      message of its step. */
  function ActionSeries(st: Store, userId: Uuid, a: Attempt): (r: SeriesStep)
    ensures r.settled.RejectedWith? <==> Failed(a)
    ensures a.env.details.None? ==> r == SeriesStep(st, RejectedWith(a.env.fetchMessage))
    ensures a.env.details.Some? && a.env.movieError.Some? ==>
      r == SeriesStep(st, RejectedWith("Failed to save " + a.series.name))
    ensures a.env.details.Some? && a.env.movieError.None? && a.env.ratingError.Some? ==>
      && r.settled == RejectedWith("Failed to rate " + a.series.name)
      && r.store.ratings == st.ratings
    ensures r.store.subscriptions == st.subscriptions && r.store.completed == st.completed
    ensures Keyed(st) ==> Keyed(r.store)
    ensures Keyed(st) && r.settled.Fulfilled? ==> RatedFive(r.store, userId, a.series.id)
  {
    match a.env.details
    case None => SeriesStep(st, RejectedWith(a.env.fetchMessage))
    case Some(details) =>
      var m := Movies.EnsureMovieExists(st.movies, a.series.id, TvMedia, details, a.env.now,
                                        a.env.newMovieId, a.env.movieError);
      if m.error.Some? || m.data.None? then SeriesStep(st, RejectedWith("Failed to save " + a.series.name))
      else
        var w := Ratings.UpsertRating(st.ratings, userId, m.data.value.id, 5, None, a.env.now,
                                      a.env.newRatingId, a.env.ratingError);
        var st' := st.(movies := m.table, ratings := w.table);
        assert Keyed(st) && w.error.None? ==> RatedFive(st', userId, a.series.id) by {
          if Keyed(st) && w.error.None? {
            assert w.data.value in w.table;
          }
        }
        if w.error.Some? then SeriesStep(st', RejectedWith("Failed to rate " + a.series.name))
        else SeriesStep(st', Fulfilled)
  }

  /** A series already rated 5 stays rated 5 whatever the next series does:
      the movie upsert keeps every row id, and the rating upsert either leaves
      that rating alone or writes 5 again. */
  lemma ActionSeriesKeepsRatedFive(st: Store, userId: Uuid, a: Attempt, tmdbId: int)
    requires Keyed(st) && RatedFive(st, userId, tmdbId)
    ensures RatedFive(ActionSeries(st, userId, a).store, userId, tmdbId)
  {
    var row := Movies.FindTitle(st.movies, tmdbId, TvMedia).value;
    if a.env.details.Some? && a.env.movieError.None? {
      var details := a.env.details.value;
      var m := Movies.EnsureMovieExists(st.movies, a.series.id, TvMedia, details, a.env.now,
                                        a.env.newMovieId, a.env.movieError);
      Movies.EnsureMovieExistsKeepsIds(st.movies, a.series.id, TvMedia, details, a.env.now,
                                       a.env.newMovieId, a.env.movieError, tmdbId, TvMedia);
      UpsertFiveKeepsFive(st.ratings, userId, m.data.value.id, row.id, a.env.now,
                          a.env.newRatingId, a.env.ratingError);
    }
  }

  /** Rating any title 5 with no comment keeps every 5 without comment: the
      upsert either leaves that row alone or writes the same score again. */
  lemma UpsertFiveKeepsFive(ratings: seq<Rating>, userId: Uuid, movieId: Uuid, rated: Uuid,
                            now: Timestamp, newId: Uuid, dbError: Option<DbError>)
    requires HasFive(ratings, userId, rated)
    ensures HasFive(Ratings.UpsertRating(ratings, userId, movieId, 5, None, now, newId, dbError).table,
                    userId, rated)
  {
    var w := Ratings.UpsertRating(ratings, userId, movieId, 5, None, now, newId, dbError);
    var old_r :| old_r in ratings && old_r.userId == userId && old_r.movieId == rated
                 && old_r.score == 5 && old_r.comment.None?;
    var j :| 0 <= j < |ratings| && ratings[j] == old_r;
    if Ratings.OtherKey(userId, movieId)(old_r) {
      assert w.table[j] == old_r;
    } else if dbError.None? {
      assert w.data.value in w.table;
    } else {
      assert w.table == ratings;
    }
  }

  /** The per-series outcomes of the action, in the order of the list. */
  datatype Import = Import(store: Store, settled: seq<Settled>)

  /** `Promise.allSettled` over the series, taken one after the other. */
  function ActionImport(st: Store, userId: Uuid, attempts: seq<Attempt>): (r: Import)
    ensures |r.settled| == |attempts|
    ensures r.store.subscriptions == st.subscriptions && r.store.completed == st.completed
    ensures Keyed(st) ==> Keyed(r.store)
    decreases |attempts|
  {
    if attempts == [] then Import(st, [])
    else
      var n := |attempts| - 1;
      var prev := ActionImport(st, userId, attempts[..n]);
      var step := ActionSeries(prev.store, userId, attempts[n]);
      Import(step.store, prev.settled + [step.settled])
  }

  /** Outcome k is a rejection exactly when series k failed. */
  lemma {:induction false} ActionImportSettled(st: Store, userId: Uuid, attempts: seq<Attempt>)
    ensures var r := ActionImport(st, userId, attempts);
      forall k :: 0 <= k < |attempts| ==> (r.settled[k].RejectedWith? <==> Failed(attempts[k]))
    decreases |attempts|
  {
    if attempts != [] {
      var n := |attempts| - 1;
      var prev := ActionImport(st, userId, attempts[..n]);
      var step := ActionSeries(prev.store, userId, attempts[n]);
      ActionImportSettled(st, userId, attempts[..n]);
      OutcomesStep(attempts[..n], prev.settled, attempts[n], step.settled);
      LastSplit(attempts);
    }
  }

  /** Outcomes that match their series stay matched when one more series and
      its matching outcome are appended. */
  lemma OutcomesStep(attempts: seq<Attempt>, settled: seq<Settled>, a: Attempt, s: Settled)
    requires |settled| == |attempts|
    requires forall k :: 0 <= k < |attempts| ==> (settled[k].RejectedWith? <==> Failed(attempts[k]))
    requires s.RejectedWith? <==> Failed(a)
    ensures forall k :: 0 <= k < |attempts| + 1 ==>
      ((settled + [s])[k].RejectedWith? <==> Failed((attempts + [a])[k]))
  {
    forall k | 0 <= k < |attempts| + 1
      ensures (settled + [s])[k].RejectedWith? <==> Failed((attempts + [a])[k])
    {
      if k < |attempts| {
        assert (settled + [s])[k] == settled[k] && (attempts + [a])[k] == attempts[k];
      }
    }
  }

  /** Each fulfilled outcome's series is rated 5 in the store. */
  ghost predicate FulfilledRated(st: Store, userId: Uuid, attempts: seq<Attempt>, settled: seq<Settled>) {
    forall k :: 0 <= k < |attempts| && k < |settled| && settled[k].Fulfilled? ==>
      RatedFive(st, userId, attempts[k].series.id)
  }

  /** One more series keeps the earlier fulfilled series rated and rates its
      own when it is fulfilled. */
  lemma FulfilledRatedStep(st: Store, userId: Uuid, attempts: seq<Attempt>, settled: seq<Settled>, a: Attempt)
    requires Keyed(st) && |settled| == |attempts|
    requires FulfilledRated(st, userId, attempts, settled)
    ensures var step := ActionSeries(st, userId, a);
      FulfilledRated(step.store, userId, attempts + [a], settled + [step.settled])
  {
    var step := ActionSeries(st, userId, a);
    var all := attempts + [a];
    var outcomes := settled + [step.settled];
    forall k | 0 <= k < |all| && k < |outcomes| && outcomes[k].Fulfilled?
      ensures RatedFive(step.store, userId, all[k].series.id)
    {
      if k < |attempts| {
        assert all[k] == attempts[k] && outcomes[k] == settled[k];
        ActionSeriesKeepsRatedFive(st, userId, a, attempts[k].series.id);
      } else {
        assert all[k] == a && outcomes[k] == step.settled;
      }
    }
  }

  /** Every fulfilled series ends up rated 5 with no comment. */
  lemma {:induction false} ActionImportRatesFulfilled(st: Store, userId: Uuid, attempts: seq<Attempt>)
    requires Keyed(st)
    ensures var r := ActionImport(st, userId, attempts);
      FulfilledRated(r.store, userId, attempts, r.settled)
    decreases |attempts|
  {
    if attempts != [] {
      var n := |attempts| - 1;
      var prefix := attempts[..n];
      var prev := ActionImport(st, userId, prefix);
      ActionImportRatesFulfilled(st, userId, prefix);
      FulfilledRatedStep(prev.store, userId, prefix, prev.settled, attempts[n]);
      LastSplit(attempts);
    }
  }

  predicate IsRejected(s: Settled) {
    s.RejectedWith?
  }

  function RejectedOnes(): Settled -> bool {
    (s: Settled) => IsRejected(s)
  }

  /** `rejected[0]?.reason?.message || "Failed to save series."`. */
  function FirstReason(rejected: seq<Settled>): (reason: string)
    ensures reason != ""
    ensures |rejected| > 0 && rejected[0].RejectedWith? && rejected[0].message != "" ==>
      reason == rejected[0].message
    ensures !(|rejected| > 0 && rejected[0].RejectedWith? && rejected[0].message != "") ==>
      reason == AllSeriesFailedMessage
  {
    if |rejected| > 0 && rejected[0].RejectedWith? && rejected[0].message != "" then rejected[0].message
    else AllSeriesFailedMessage
  }

  datatype ActionResult = ActionResult(store: Store, error: Option<string>)

  /** The store once the subscriptions are written. */
  function WithSubscriptions(st: Store, userId: Uuid, providerIds: seq<Uuid>,
                             deleteError: Option<DbError>, insertError: Option<DbError>): Store {
    st.(subscriptions := Subscriptions.SetUserSubscriptions(
      st.subscriptions, userId, providerIds, deleteError, insertError).table)
  }

  function SubscriptionsError(st: Store, userId: Uuid, providerIds: seq<Uuid>,
                              deleteError: Option<DbError>, insertError: Option<DbError>)
    : Option<DbError>
  {
    Subscriptions.SetUserSubscriptions(st.subscriptions, userId, providerIds, deleteError,
                                       insertError).error
  }

  /** Some series was imported. */
  predicate SomeFulfilled(settled: seq<Settled>) {
    exists k :: 0 <= k < |settled| && settled[k].Fulfilled?
  }

  /** The action after the subscriptions were saved: the series are
      imported; when every one failed (also when none was chosen) the first
      failure's message is returned and the profile is left alone; otherwise
      the profile is marked onboarded unless its update fails. */
  function ActionAfterSubscriptions(st: Store, userId: Uuid, attempts: seq<Attempt>,
                                    profileError: Option<DbError>): (r: ActionResult)
    ensures var imp := ActionImport(st, userId, attempts);
      && r.store.movies == imp.store.movies
      && r.store.ratings == imp.store.ratings
      && r.store.subscriptions == st.subscriptions
      && (r.error.None? <==> SomeFulfilled(imp.settled) && profileError.None?)
      && (!SomeFulfilled(imp.settled) ==> r.error == Some(FirstReason(imp.settled)))
      && (SomeFulfilled(imp.settled) && profileError.Some? ==> r.error == Some(ProfileFailedMessage))
    ensures r.error.None? ==> r.store.completed == st.completed + {userId}
    ensures r.error.Some? ==> r.store.completed == st.completed
    ensures attempts == [] ==> r.error == Some(AllSeriesFailedMessage)
  {
    var imp := ActionImport(st, userId, attempts);
    var rejected := Filter(imp.settled, RejectedOnes());
    AllRejectedIff(imp.settled);
    if |rejected| == |imp.settled| then ActionResult(imp.store, Some(FirstReason(rejected)))
    else if profileError.Some? then ActionResult(imp.store, Some(ProfileFailedMessage))
    else ActionResult(imp.store.(completed := imp.store.completed + {userId}), None)
  }

  /** `completeOnboardingAction`. Without a user nothing is written and a
      subscription failure stops before any series; otherwise the series
      are imported as above. */
  function CompleteOnboardingAction(
    st: Store, signedIn: bool, userId: Uuid, providerIds: seq<Uuid>, attempts: seq<Attempt>,
    deleteError: Option<DbError>, insertError: Option<DbError>, profileError: Option<DbError>)
    : (r: ActionResult)
    ensures !signedIn ==> r == ActionResult(st, Some(NotAuthenticatedMessage))
    ensures signedIn && SubscriptionsError(st, userId, providerIds, deleteError, insertError).Some? ==>
      r == ActionResult(WithSubscriptions(st, userId, providerIds, deleteError, insertError),
                        Some(SubscriptionsFailedMessage))
    ensures signedIn && SubscriptionsError(st, userId, providerIds, deleteError, insertError).None? ==>
      r == ActionAfterSubscriptions(WithSubscriptions(st, userId, providerIds, deleteError, insertError),
                                    userId, attempts, profileError)
  {
    if !signedIn then ActionResult(st, Some(NotAuthenticatedMessage))
    else
      var st1 := WithSubscriptions(st, userId, providerIds, deleteError, insertError);
      if SubscriptionsError(st, userId, providerIds, deleteError, insertError).Some? then
        ActionResult(st1, Some(SubscriptionsFailedMessage))
      else ActionAfterSubscriptions(st1, userId, attempts, profileError)
  }

  /** The filter of rejected outcomes has full length exactly when every
      outcome is a rejection, and is then the whole list. */
  lemma {:induction false} AllRejectedIff(settled: seq<Settled>)
    ensures |Filter(settled, RejectedOnes())| == |settled| <==> !SomeFulfilled(settled)
    ensures !SomeFulfilled(settled) ==> Filter(settled, RejectedOnes()) == settled
    decreases |settled|
  {
    if settled != [] {
      var n := |settled| - 1;
      var s' := settled[..n];
      AllRejectedIff(s');
      assert Filter(settled, RejectedOnes())
          == Filter(s', RejectedOnes()) + (if IsRejected(settled[n]) then [settled[n]] else []);
      if settled[n].Fulfilled? {
        assert SomeFulfilled(settled);
      } else {
        assert SomeFulfilled(settled) <==> SomeFulfilled(s') by {
          if SomeFulfilled(settled) {
            var k :| 0 <= k < |settled| && settled[k].Fulfilled?;
            assert k < n && s'[k] == settled[k];
          }
          if SomeFulfilled(s') {
            var k :| 0 <= k < |s'| && s'[k].Fulfilled?;
            assert settled[k] == s'[k];
          }
        }
        if !SomeFulfilled(settled) {
          assert forall k :: 0 <= k < |settled| ==> RejectedOnes()(settled[k]);
          FilterAll(settled, RejectedOnes());
        }
      }
    }
  }

  // ---------------------------------------------------------------------
  // The client service
  // ---------------------------------------------------------------------

  /** One iteration of the service's loop: a failed fetch or movie save
      skips the series; otherwise the series is rated 5 with no comment and
      the rating's own outcome is ignored. */
  function ServiceSeries(st: Store, userId: Uuid, a: Attempt): (r: Store)
    ensures a.env.details.None? || a.env.movieError.Some? ==> r == st
    ensures r.subscriptions == st.subscriptions && r.completed == st.completed
    ensures Keyed(st) && a.env.details.Some? && a.env.movieError.None? && a.env.ratingError.None? ==>
      RatedFive(r, userId, a.series.id)
  {
    if a.env.details.None? then st
    else
      var m := Movies.EnsureMovieExists(st.movies, a.series.id, TvMedia, a.env.details.value,
                                        a.env.now, a.env.newMovieId, a.env.movieError);
      if m.error.Some? || m.data.None? then st
      else
        var w := Ratings.UpsertRating(st.ratings, userId, m.data.value.id, 5, None, a.env.now,
                                      a.env.newRatingId, a.env.ratingError);
        var r := st.(movies := m.table, ratings := w.table);
        assert Keyed(st) && w.error.None? ==> RatedFive(r, userId, a.series.id) by {
          if Keyed(st) && w.error.None? {
            assert w.data.value in w.table;
          }
        }
        r
  }

  /** The `for ... of` loop over the series. */
  function ServiceImport(st: Store, userId: Uuid, attempts: seq<Attempt>): (r: Store)
    ensures r.subscriptions == st.subscriptions && r.completed == st.completed
    decreases |attempts|
  {
    if attempts == [] then st
    else ServiceSeries(ServiceImport(st, userId, attempts[..|attempts| - 1]), userId,
                       attempts[|attempts| - 1])
  }

  datatype ServiceResult = ServiceResult(store: Store, error: Option<DbError>)

  /** `completeOnboarding`: a subscription failure is returned at once;
      otherwise every series is tried, the profile update is always made,
      and its error is the result. */
  function CompleteOnboarding(
    st: Store, userId: Uuid, providerIds: seq<Uuid>, attempts: seq<Attempt>,
    deleteError: Option<DbError>, insertError: Option<DbError>, profileError: Option<DbError>)
    : (r: ServiceResult)
    ensures SubscriptionsError(st, userId, providerIds, deleteError, insertError).Some? ==>
      r == ServiceResult(WithSubscriptions(st, userId, providerIds, deleteError, insertError),
                         SubscriptionsError(st, userId, providerIds, deleteError, insertError))
    ensures SubscriptionsError(st, userId, providerIds, deleteError, insertError).None? ==>
      && r.error == profileError
      && r.store.completed == (if profileError.None? then st.completed + {userId} else st.completed)
  {
    var st1 := WithSubscriptions(st, userId, providerIds, deleteError, insertError);
    var subError := SubscriptionsError(st, userId, providerIds, deleteError, insertError);
    if subError.Some? then ServiceResult(st1, subError)
    else
      var imported := ServiceImport(st1, userId, attempts);
      if profileError.None? then ServiceResult(imported.(completed := imported.completed + {userId}), None)
      else ServiceResult(imported, profileError)
  }

  // ---------------------------------------------------------------------
  // The two implementations compared
  // ---------------------------------------------------------------------

  /** Both implementations make the same writes for each series; they differ
      only in how failures are reported. */
  lemma {:induction false} ServiceWritesLikeAction(st: Store, userId: Uuid, attempts: seq<Attempt>)
    ensures ServiceImport(st, userId, attempts) == ActionImport(st, userId, attempts).store
    decreases |attempts|
  {
    if attempts != [] {
      ServiceWritesLikeAction(st, userId, attempts[..|attempts| - 1]);
    }
  }

  /** Every series whose fetch, movie save and rating all succeeded ends up
      rated 5 with no comment in the service as well. */
  lemma ServiceImportRatesSurvivors(st: Store, userId: Uuid, attempts: seq<Attempt>)
    requires Keyed(st)
    ensures forall k :: (0 <= k < |attempts| && attempts[k].env.details.Some?
                         && attempts[k].env.movieError.None? && attempts[k].env.ratingError.None?) ==>
      RatedFive(ServiceImport(st, userId, attempts), userId, attempts[k].series.id)
  {
    ServiceWritesLikeAction(st, userId, attempts);
    ActionImportRatesFulfilled(st, userId, attempts);
    ActionImportSettled(st, userId, attempts);
  }

  /** When no series can be imported (or none was chosen), the action
      reports the failure and leaves the profile unfinished, while the
      service marks the user onboarded and reports success. */
  lemma AllFailedContrast(
    st: Store, userId: Uuid, providerIds: seq<Uuid>, attempts: seq<Attempt>,
    deleteError: Option<DbError>, insertError: Option<DbError>)
    requires SubscriptionsError(st, userId, providerIds, deleteError, insertError).None?
    requires forall k :: 0 <= k < |attempts| ==>
      attempts[k].env.details.None? || attempts[k].env.movieError.Some?
    ensures var a := CompleteOnboardingAction(st, true, userId, providerIds, attempts,
                                              deleteError, insertError, None);
      a.error.Some? && a.store.completed == st.completed
    ensures var s := CompleteOnboarding(st, userId, providerIds, attempts, deleteError, insertError, None);
      s.error.None? && userId in s.store.completed
  {
    var st1 := WithSubscriptions(st, userId, providerIds, deleteError, insertError);
    var imp := ActionImport(st1, userId, attempts);
    ActionImportSettled(st1, userId, attempts);
    assert forall k :: 0 <= k < |attempts| ==> imp.settled[k].RejectedWith?;
  }
}

=== FILE: onboarding_steps.dfy ===
/** The onboarding screens' own rules: the progress bar
    (components/onboarding/ProgressBar.tsx) and the favourite-series search
    (components/onboarding/FavoritesStep.tsx). */
module OnboardingSteps {
  import opened Wrappers
  import opened Seqs
  import opened Text
  import opened Tmdb
  import Wizard
  import Providers
  import SearchRoute

  // ---------------------------------------------------------------------
  // Progress bar
  // ---------------------------------------------------------------------

  datatype Segment = Segment(caption: string, step: int)

  /** `STEPS`. */
  const Steps: seq<Segment> := [Segment("Services", 1), Segment("Favorites", 2), Segment("Done", 3)]

  /** The highlighted flags of the three segments: a segment is highlighted
      when its step is not after the current one. Highlighted segments form a
      prefix as long as the step number. */
  function ActiveSegments(current: Wizard.Step): (active: seq<bool>)
    ensures |active| == |Steps|
    ensures forall k :: 0 <= k < |Steps| ==> (active[k] <==> Steps[k].step <= current)
    ensures forall i, j :: 0 <= i < j < |active| && active[j] ==> active[i]
    ensures CountWhere(active, IsTrue()) == current
  {
    var active := seq(|Steps|, k requires 0 <= k < |Steps| => Steps[k].step <= current);
    assert active == [true, current >= 2, current >= 3];
    active
  }

  function IsTrue(): bool -> bool {
    (b: bool) => b
  }

  /** On the first screen only the first segment is lit, on the last all. */
  lemma ActiveSegmentsAtEnds()
    ensures ActiveSegments(1) == [true, false, false]
    ensures ActiveSegments(3) == [true, true, true]
  {
    var a1 := ActiveSegments(1);
    var a3 := ActiveSegments(3);
    assert a1[1] <==> Steps[1].step <= 1;
    assert a3[2] <==> Steps[2].step <= 3;
  }

  // ---------------------------------------------------------------------
  // Favourite-series search
  // ---------------------------------------------------------------------

  /** The result grid and the "Searching..." flag. */
  datatype SearchView = SearchView(results: seq<SearchResult>, searching: bool)

  /** What a change of the query does: the new view, and the query fetched
      once the debounce elapses, if any. */
  datatype QueryEffect = QueryEffect(view: SearchView, fetch: Option<string>)

  /** A blank query (only white space) clears the grid, stops searching and
      fetches nothing; any other query marks the view as searching and
      fetches the query as typed. */
  function OnQueryChange(query: string, view: SearchView): (e: QueryEffect)
    ensures IsBlank(query) ==> e == QueryEffect(SearchView([], false), None)
    ensures !IsBlank(query) ==>
      e == QueryEffect(view.(searching := true), Some(query))
  {
    TrimEmptyIffBlank(query);
    if Trim(query) == "" then QueryEffect(SearchView([], false), None)
    else QueryEffect(view.(searching := true), Some(query))
  }

  predicate IsTv(r: SearchResult) {
    r.mediaType == SearchTv
  }

  function TvOnly(): SearchResult -> bool {
    (r: SearchResult) => IsTv(r)
  }

  /** `data.results ?? []` for the body the search route answered with; an
      error body has no `results`. `None`: the fetch or the JSON parse threw. */
  function ResultsOf(body: Option<SearchRoute.Body>): seq<SearchResult> {
    if body.Some? && body.value.ResultsBody? then body.value.results else []
  }

  /** The view once the fetch settled: only series are shown, in the order
      received; a failure shows nothing; searching stops either way. */
  function OnSearchSettled(body: Option<SearchRoute.Body>): (view: SearchView)
    ensures !view.searching
    ensures body.None? || body.value.ErrorBody? ==> view.results == []
    ensures forall x :: x in view.results <==> x in ResultsOf(body) && x.mediaType == SearchTv
    ensures IsSubsequence(view.results, ResultsOf(body))
  {
    var rs := ResultsOf(body);
    FilterMembers(rs, TvOnly());
    FilterIsSubsequence(rs, TvOnly());
    SearchView(Filter(rs, TvOnly()), false)
  }

  /** A non-blank query typed by a signed-in user ends with exactly the
      series among the upstream results, in upstream order; the route's
      removal of people does not matter since only series are kept. A
      failed upstream search shows nothing. */
  lemma {:induction false} TypedQueryShowsUpstreamSeries(
    query: string, view: SearchView, upstream: Option<seq<SearchResult>>)
    requires !IsBlank(query)
    ensures var e := OnQueryChange(query, view);
      && e.fetch == Some(query)
      && var response := SearchRoute.Search(true, e.fetch, upstream);
         && OnSearchSettled(Some(response.body)).results
            == (if upstream.Some? then Filter(upstream.value, TvOnly()) else [])
  {
    assert query != "";
    var response := SearchRoute.Search(true, Some(query), upstream);
    if upstream.Some? {
      FilterWeakerFirst(upstream.value, SearchRoute.MovieOrTv(), TvOnly());
    }
  }

  /** Signed out, the grid stays empty whatever the search would find. */
  lemma SignedOutShowsNothing(query: Option<string>, upstream: Option<seq<SearchResult>>)
    ensures OnSearchSettled(Some(SearchRoute.Search(false, query, upstream).body)).results == []
  {
  }

  /** `Continue (n/3 minimum)`. */
  function ContinueLabel(selectedCount: nat): (text: string)
    ensures |text| > 21
    ensures text[..10] == "Continue (" && text[|text| - 11..] == "/3 minimum)"
    ensures AllDigits(text[10..|text| - 11])
    ensures DigitsValue(text[10..|text| - 11]) == selectedCount
  {
    var digits := NatToString(selectedCount);
    var text := "Continue (" + digits + "/3 minimum)";
    assert text[10..|text| - 11] == digits;
    NatToStringRoundTrip(selectedCount);
    text
  }

  /** The Continue button of the series screen is enabled exactly when `next`
      would move on to the completion screen. */
  lemma ContinueEnabledIffNextAdvances(w: Wizard.Wizard)
    requires w.step == 2
    ensures !Providers.ContinueDisabled(Wizard.CanAdvanceFromStep2(w)) <==> Wizard.Next(w).step == 3
  {
  }
}

=== FILE: poster_card.dfy ===
/** A search result shown as a poster card (components/movie/PosterCard.tsx):
    the caption, the year line and the link to the title page. */
module PosterCard {
  import opened Wrappers
  import opened Schema
  import opened Text
  import opened Tmdb
  import opened MovieRoute

  /** The caption, `title || name || "Unknown"`: the film title when there is
      one, else the series name, else a placeholder; never empty. */
  function CardTitle(item: SearchResult): (title: string)
    ensures title != ""
    ensures item.title.Some? && item.title.value != "" ==> title == item.title.value
    ensures (item.title.None? || item.title.value == "") && item.name.Some? && item.name.value != ""
      ==> title == item.name.value
    ensures (item.title.None? || item.title.value == "") && (item.name.None? || item.name.value == "")
      ==> title == "Unknown"
  {
    OrElse(item.title, OrElse(item.name, "Unknown"))
  }

  /** The date the year is read from, `release_date || first_air_date || ""`. */
  function CardDate(item: SearchResult): (date: string)
    ensures item.releaseDate.Some? && item.releaseDate.value != "" ==> date == item.releaseDate.value
    ensures (item.releaseDate.None? || item.releaseDate.value == "") ==> date == OrElse(item.firstAirDate, "")
  {
    OrElse(item.releaseDate, OrElse(item.firstAirDate, ""))
  }

  /** The year line, the first four characters of that date; the line is
      hidden exactly when there is no date. */
  function CardYear(item: SearchResult): (year: string)
    ensures |year| <= 4
    ensures StartsWith(CardDate(item), year)
    ensures |CardDate(item)| >= 4 ==> |year| == 4
    ensures year == "" <==> CardDate(item) == ""
  {
    Take(CardDate(item), 4)
  }

  /** For a date in the API's `YYYY-MM-DD` form the year line is `YYYY`. */
  lemma {:induction false} CardYearOfIsoDate(item: SearchResult, yyyy: string, rest: string)
    requires |yyyy| == 4
    requires CardDate(item) == yyyy + "-" + rest
    ensures CardYear(item) == yyyy
  {
    assert (yyyy + "-" + rest)[..4] == yyyy;
  }

  /** `${media_type}` of a search result. */
  function SearchMediaTypeName(m: SearchMediaType): string {
    match m
    case SearchMovie => "movie"
    case SearchTv => "tv"
    case SearchPerson => "person"
  }

  /** The title-page media type a search result stands for, if any. */
  function AsMediaType(m: SearchMediaType): (r: Option<MediaType>)
    ensures r.Some? <==> m != SearchPerson
    ensures r.Some? ==> MediaTypeName(r.value) == SearchMediaTypeName(m)
  {
    match m
    case SearchMovie => Some(MovieMedia)
    case SearchTv => Some(TvMedia)
    case SearchPerson => None
  }

  /** The id segment of the card's link, `{media_type}-{id}`. */
  function CardRouteId(item: SearchResult): string {
    SearchMediaTypeName(item.mediaType) + "-" + IntToString(item.id)
  }

  /** The card's link, `/movie/{media_type}-{id}`. */
  function CardHref(item: SearchResult): (href: string)
    ensures StartsWith(href, "/movie/")
    ensures href[|"/movie/"|..] == CardRouteId(item)
  {
    "/movie/" + CardRouteId(item)
  }

  /** The card of a film or series with a positive id links to the page of
      exactly that title: its link is the one the rest of the app builds and
      the page reads it back as that title. */
  lemma CardOpensItsTitle(item: SearchResult)
    requires item.mediaType != SearchPerson && item.id > 0
    ensures CardRouteId(item) == RouteId(AsMediaType(item.mediaType).value, item.id)
    ensures ParseRouteId(CardRouteId(item)) == Some(Route(AsMediaType(item.mediaType).value, item.id))
  {
    RouteIdRoundTrip(AsMediaType(item.mediaType).value, item.id);
  }

  /** A card for a person, or for a title whose id is not positive, leads to
      the page's "not found". */
  lemma {:induction false} CardWithoutTitleNotFound(item: SearchResult)
    requires item.mediaType == SearchPerson || item.id <= 0
    ensures ParseRouteId(CardRouteId(item)) == None
  {
    var kind := SearchMediaTypeName(item.mediaType);
    var number := IntToString(item.id);
    var id := CardRouteId(item);
    BeforeDashStops(kind, number);
    assert id[|kind| + 1..] == number;
    if item.id < 0 {
      assert BeforeDash(number) == [];
    } else if item.id == 0 {
      assert number == "0";
      BeforeDashNone(number);
      assert DigitsValue(number) == DigitsValue([]) * 10 + DigitValue('0');
    } else {
      assert ParseMediaType(kind) == None;
    }
  }
}

=== FILE: providers.dfy ===
/** Streaming-provider selection: the grid order shared by the onboarding
    step (components/onboarding/StreamingStep.tsx) and the profile settings
    (components/profile/StreamingSubscriptions.tsx), the toggle rule with the
    exclusive "All" pseudo-provider (hooks/useOnboarding.ts and the settings
    component), and the summary on the completion step
    (components/onboarding/CompletionStep.tsx). */
module Providers {
  import opened Wrappers
  import opened Schema
  import opened Seqs
  import opened Sorting
  import opened Text

  /** `tmdb_provider_id` of the "All" pseudo-provider. */
  const AllTmdbId := 0

  predicate IsAll(p: StreamingProvider) {
    p.tmdbProviderId == AllTmdbId
  }

  /** The grid comparator: "All" first, then names in order. The name order
      is scalar-value order (`Text.LexLe`), standing in for `localeCompare`. */
  predicate ProviderLe(a: StreamingProvider, b: StreamingProvider) {
    IsAll(a) || (!IsAll(b) && LexLe(a.name, b.name))
  }

  lemma ProviderLeIsTotalPreorder()
    ensures TotalPreorder(ProviderLe)
  {
    forall a: StreamingProvider, b: StreamingProvider
      ensures ProviderLe(a, b) || ProviderLe(b, a)
    {
      LexLeTotal(a.name, b.name);
    }
    forall a: StreamingProvider, b: StreamingProvider, c: StreamingProvider
      | ProviderLe(a, b) && ProviderLe(b, c)
      ensures ProviderLe(a, c)
    {
      if !IsAll(a) {
        LexLeTransitive(a.name, b.name, c.name);
      }
    }
  }

  /** `[...allProviders].sort(comparator)`. */
  function SortProviders(ps: seq<StreamingProvider>): (r: seq<StreamingProvider>)
    ensures |r| == |ps|
    ensures multiset(r) == multiset(ps)
    ensures SortedBy(r, ProviderLe)
  {
    ProviderLeIsTotalPreorder();
    SortBySorted(ps, ProviderLe);
    SortBy(ps, ProviderLe)
  }

  /** In the sorted grid every "All" provider comes before every other one,
      and the others are in name order. */
  lemma SortedGridOrder(ps: seq<StreamingProvider>)
    ensures var r := SortProviders(ps);
      forall i, j :: 0 <= i < j < |r| ==>
        (IsAll(r[j]) ==> IsAll(r[i]))
        && (!IsAll(r[i]) && !IsAll(r[j]) ==> LexLe(r[i].name, r[j].name))
  {
  }

  /** `providers.find((p) => p.tmdb_provider_id === 0)`. */
  function FindAll(ps: seq<StreamingProvider>): (r: Option<StreamingProvider>)
    ensures r.Some? ==> r.value in ps && IsAll(r.value)
    ensures r.Some? ==> exists i :: 0 <= i < |ps| && ps[i] == r.value
                          && forall j :: 0 <= j < i ==> !IsAll(ps[j])
    ensures r.None? <==> forall i :: 0 <= i < |ps| ==> !IsAll(ps[i])
  {
    match IndexWhere(ps, IsAll)
    case Some(i) => Some(ps[i])
    case None => None
  }

  /** The `id` of an optional provider: `allProvider?.id`. */
  function IdOf(p: Option<StreamingProvider>): Option<Uuid> {
    match p
    case Some(q) => Some(q.id)
    case None => None
  }

  function IsNot(id: Uuid): Uuid -> bool {
    (x: Uuid) => x != id
  }

  /** `ids.filter((id) => id !== allProvider?.id)`: with no "All" provider,
      nothing is equal to `undefined`. */
  function DropOptional(ids: seq<Uuid>, allId: Option<Uuid>): (r: seq<Uuid>)
    ensures allId.None? ==> r == ids
    ensures allId.Some? ==> r == Filter(ids, IsNot(allId.value))
  {
    match allId
    case Some(a) => Filter(ids, IsNot(a))
    case None => FilterAll(ids, (x: Uuid) => true); ids
  }

  /** The next selection after a click on `provider`, given the id of the
      "All" provider the caller found: selecting "All" clears everything else,
      and selecting any other provider drops "All". */
  function NextSelection(selected: seq<Uuid>, provider: StreamingProvider, allId: Option<Uuid>)
    : (next: seq<Uuid>)
    ensures IsAll(provider) && provider.id in selected ==> next == []
    ensures IsAll(provider) && provider.id !in selected ==> next == [provider.id]
    ensures !IsAll(provider) && provider.id in selected ==>
      next == Filter(selected, IsNot(provider.id))
    ensures !IsAll(provider) && provider.id !in selected ==>
      next == DropOptional(selected, allId) + [provider.id]
  {
    if IsAll(provider) then
      if provider.id in selected then [] else [provider.id]
    else if provider.id in selected then
      Filter(selected, IsNot(provider.id))
    else
      DropOptional(selected, allId) + [provider.id]
  }

  /** `toggleProvider` (onboarding hook): the "All" provider is looked up in
      `allProviders` as loaded. Clicking "All" selects it alone or clears the
      selection; clicking a selected provider removes just that id; clicking
      an unselected one drops the "All" id found and appends the provider. */
  function ToggleProvider(allProviders: seq<StreamingProvider>, selected: seq<Uuid>,
                          provider: StreamingProvider): (next: seq<Uuid>)
    ensures IsAll(provider) ==> next == (if provider.id in selected then [] else [provider.id])
    ensures !IsAll(provider) && provider.id in selected ==>
      && (forall x :: x in next <==> x in selected && x != provider.id)
      && IsSubsequence(next, selected)
      && |next| == CountWhere(selected, IsNot(provider.id))
    ensures !IsAll(provider) && provider.id !in selected ==>
      && next != [] && next[|next| - 1] == provider.id
      && (forall x :: x in next[..|next| - 1] <==>
            x in selected && IdOf(FindAll(allProviders)) != Some(x))
      && IsSubsequence(next[..|next| - 1], selected)
  {
    ToggleCases(selected, provider, IdOf(FindAll(allProviders)));
    NextSelection(selected, provider, IdOf(FindAll(allProviders)))
  }

  /** The cases of `NextSelection` in terms of membership and order. */
  lemma ToggleCases(selected: seq<Uuid>, provider: StreamingProvider, allId: Option<Uuid>)
    ensures var next := NextSelection(selected, provider, allId);
      && (!IsAll(provider) && provider.id in selected ==>
            && (forall x :: x in next <==> x in selected && x != provider.id)
            && IsSubsequence(next, selected)
            && |next| == CountWhere(selected, IsNot(provider.id)))
      && (!IsAll(provider) && provider.id !in selected ==>
            && next != [] && next[|next| - 1] == provider.id
            && (forall x :: x in next[..|next| - 1] <==> x in selected && allId != Some(x))
            && IsSubsequence(next[..|next| - 1], selected))
  {
    var next := NextSelection(selected, provider, allId);
    FilterMembers(selected, IsNot(provider.id));
    FilterIsSubsequence(selected, IsNot(provider.id));
    if !IsAll(provider) && provider.id !in selected {
      var kept := DropOptional(selected, allId);
      assert next[..|next| - 1] == kept;
      match allId
      case Some(a) =>
        FilterMembers(selected, IsNot(a));
        FilterIsSubsequence(selected, IsNot(a));
      case None =>
        SubsequenceRefl(selected);
    }
  }

  /** `handleToggle` (profile settings): the same rule, with the "All"
      provider looked up in the sorted grid. */
  function HandleToggle(allProviders: seq<StreamingProvider>, selectedIds: seq<Uuid>,
                        provider: StreamingProvider): (next: seq<Uuid>)
    ensures IsAll(provider) ==> next == (if provider.id in selectedIds then [] else [provider.id])
    ensures !IsAll(provider) && provider.id in selectedIds ==>
      && (forall x :: x in next <==> x in selectedIds && x != provider.id)
      && IsSubsequence(next, selectedIds)
      && |next| == CountWhere(selectedIds, IsNot(provider.id))
    ensures !IsAll(provider) && provider.id !in selectedIds ==>
      && next != [] && next[|next| - 1] == provider.id
      && (forall x :: x in next[..|next| - 1] <==>
            x in selectedIds && IdOf(FindAll(SortProviders(allProviders))) != Some(x))
      && IsSubsequence(next[..|next| - 1], selectedIds)
  {
    ToggleCases(selectedIds, provider, IdOf(FindAll(SortProviders(allProviders))));
    NextSelection(selectedIds, provider, IdOf(FindAll(SortProviders(allProviders))))
  }

  /** Every "All" row is the same provider: `streaming_providers` is upserted
      on `tmdb_provider_id`, so one row carries id 0. */
  predicate OneAllProvider(ps: seq<StreamingProvider>) {
    forall i, j :: 0 <= i < |ps| && 0 <= j < |ps| && IsAll(ps[i]) && IsAll(ps[j]) ==> ps[i] == ps[j]
  }

  /** Sorting does not change which "All" provider `find` returns. */
  lemma FindAllOfSorted(ps: seq<StreamingProvider>)
    requires OneAllProvider(ps)
    ensures FindAll(SortProviders(ps)) == FindAll(ps)
  {
    var r := SortProviders(ps);
    SameElements(r, ps);
    if FindAll(ps).None? {
      assert forall i :: 0 <= i < |r| ==> !IsAll(r[i]) by {
        forall i | 0 <= i < |r| ensures !IsAll(r[i]) {
          assert r[i] in ps;
        }
      }
    } else {
      var x := FindAll(ps).value;
      assert x in r;
      var y := FindAll(r).value;
      assert y in ps;
      var i :| 0 <= i < |ps| && ps[i] == x;
      var j :| 0 <= j < |ps| && ps[j] == y;
    }
  }

  /** The settings grid and the onboarding hook compute the same next
      selection. */
  lemma HandleToggleMatchesToggleProvider(allProviders: seq<StreamingProvider>,
                                          selected: seq<Uuid>, provider: StreamingProvider)
    requires OneAllProvider(allProviders)
    ensures HandleToggle(allProviders, selected, provider)
         == ToggleProvider(allProviders, selected, provider)
  {
    FindAllOfSorted(allProviders);
  }

  /** A provider id names one provider (`id` is the primary key). */
  predicate UniqueProviderIds(ps: seq<StreamingProvider>) {
    forall i, j :: 0 <= i < |ps| && 0 <= j < |ps| && ps[i].id == ps[j].id ==> ps[i] == ps[j]
  }

  /** The selection never holds the "All" id together with another id. */
  predicate ExclusiveAll(selected: seq<Uuid>, allProviders: seq<StreamingProvider>) {
    forall i, j :: 0 <= i < |selected| && 0 <= j < |selected| ==>
      (IdIsAll(allProviders, selected[i]) ==> selected[j] == selected[i])
  }

  predicate IdIsAll(ps: seq<StreamingProvider>, id: Uuid) {
    exists k :: 0 <= k < |ps| && ps[k].id == id && IsAll(ps[k])
  }

  /** Clicking a tile of the grid keeps the selection free of duplicates and
      keeps "All" exclusive. */
  lemma ToggleKeepsSelectionWellFormed(allProviders: seq<StreamingProvider>,
                                       selected: seq<Uuid>, provider: StreamingProvider)
    requires OneAllProvider(allProviders) && UniqueProviderIds(allProviders)
    requires provider in allProviders
    requires NoDup(selected) && ExclusiveAll(selected, allProviders)
    ensures NoDup(ToggleProvider(allProviders, selected, provider))
    ensures ExclusiveAll(ToggleProvider(allProviders, selected, provider), allProviders)
  {
    var next := ToggleProvider(allProviders, selected, provider);
    if IsAll(provider) {
    } else if provider.id in selected {
      FilterNoDup(selected, IsNot(provider.id));
      ExclusiveAllOfFilter(selected, allProviders, IsNot(provider.id));
    } else {
      ToggleOnWellFormed(allProviders, selected, provider);
    }
  }

  /** Removing ids keeps "All" exclusive. */
  lemma ExclusiveAllOfFilter(selected: seq<Uuid>, allProviders: seq<StreamingProvider>, p: Uuid -> bool)
    requires ExclusiveAll(selected, allProviders)
    ensures ExclusiveAll(Filter(selected, p), allProviders)
  {
    var r := Filter(selected, p);
    forall i, j | 0 <= i < |r| && 0 <= j < |r| && IdIsAll(allProviders, r[i])
      ensures r[j] == r[i]
    {
      assert r[i] in selected && r[j] in selected;
      var i' :| 0 <= i' < |selected| && selected[i'] == r[i];
      var j' :| 0 <= j' < |selected| && selected[j'] == r[j];
    }
  }

  /** An id other than the one `find` returns belongs to no "All" row. */
  lemma NotFoundIdNotAll(allProviders: seq<StreamingProvider>, id: Uuid)
    requires OneAllProvider(allProviders)
    requires IdOf(FindAll(allProviders)) != Some(id)
    ensures !IdIsAll(allProviders, id)
  {
    forall k | 0 <= k < |allProviders| && allProviders[k].id == id
      ensures !IsAll(allProviders[k])
    {
      match FindAll(allProviders)
      case None =>
      case Some(f) =>
        var m :| 0 <= m < |allProviders| && allProviders[m] == f;
    }
  }

  /** Selecting a provider other than "All": the ids kept lose "All", so the
      new selection holds no "All" id at all. */
  lemma ToggleOnWellFormed(allProviders: seq<StreamingProvider>,
                           selected: seq<Uuid>, provider: StreamingProvider)
    requires OneAllProvider(allProviders) && UniqueProviderIds(allProviders)
    requires provider in allProviders && !IsAll(provider) && provider.id !in selected
    requires NoDup(selected)
    ensures NoDup(ToggleProvider(allProviders, selected, provider))
    ensures ExclusiveAll(ToggleProvider(allProviders, selected, provider), allProviders)
  {
    var next := ToggleProvider(allProviders, selected, provider);
    var allId := IdOf(FindAll(allProviders));
    var kept := DropOptional(selected, allId);
    assert NoDup(kept) by {
      if allId.Some? { FilterNoDup(selected, IsNot(allId.value)); }
    }
    assert next == kept + [provider.id];
    assert !IdIsAll(allProviders, provider.id) by {
      var m :| 0 <= m < |allProviders| && allProviders[m] == provider;
    }
    forall i | 0 <= i < |kept| ensures !IdIsAll(allProviders, kept[i]) {
      NotFoundIdNotAll(allProviders, kept[i]);
    }
    forall i | 0 <= i < |next| ensures !IdIsAll(allProviders, next[i]) {
      if i < |kept| {
        assert next[i] == kept[i];
      }
    }
    assert forall i :: 0 <= i < |kept| ==> kept[i] in kept;
  }

  /** The label under a provider tile or chip. */
  function ProviderLabel(p: StreamingProvider): (text: string)
    ensures IsAll(p) ==> text == "All"
    ensures !IsAll(p) ==> text == p.name
  {
    if IsAll(p) then "All" else p.name
  }

  /** One tile of the provider grid. */
  datatype ProviderTile = ProviderTile(providerId: Uuid, caption: string, selected: bool)

  /** The grid of `StreamingStep` / `StreamingSubscriptions`: one tile per
      provider in grid order, marked when its id is selected. */
  function ProviderGrid(allProviders: seq<StreamingProvider>, selectedIds: seq<Uuid>)
    : (tiles: seq<ProviderTile>)
    ensures |tiles| == |allProviders|
    ensures forall k :: 0 <= k < |tiles| ==> (tiles[k].selected <==> tiles[k].providerId in selectedIds)
    ensures forall k :: 0 <= k < |tiles| ==>
      tiles[k].providerId == SortProviders(allProviders)[k].id
      && tiles[k].caption == ProviderLabel(SortProviders(allProviders)[k])
    ensures forall p :: p in allProviders ==>
      exists k :: 0 <= k < |tiles| && tiles[k] == ProviderTile(p.id, ProviderLabel(p), p.id in selectedIds)
  {
    var sorted := SortProviders(allProviders);
    var tiles := seq(|sorted|, k requires 0 <= k < |sorted| =>
      ProviderTile(sorted[k].id, ProviderLabel(sorted[k]), sorted[k].id in selectedIds));
    TilesCover(allProviders, sorted, selectedIds, tiles);
    tiles
  }

  /** Tiles made from a permutation of the providers cover every provider. */
  lemma TilesCover(allProviders: seq<StreamingProvider>, sorted: seq<StreamingProvider>,
                   selectedIds: seq<Uuid>, tiles: seq<ProviderTile>)
    requires multiset(sorted) == multiset(allProviders)
    requires |tiles| == |sorted|
    requires forall k :: 0 <= k < |sorted| ==>
      tiles[k] == ProviderTile(sorted[k].id, ProviderLabel(sorted[k]), sorted[k].id in selectedIds)
    ensures forall p :: p in allProviders ==>
      exists k :: 0 <= k < |tiles| && tiles[k] == ProviderTile(p.id, ProviderLabel(p), p.id in selectedIds)
  {
    SameElements(allProviders, sorted);
    forall p | p in allProviders
      ensures exists k :: 0 <= k < |tiles|
                          && tiles[k] == ProviderTile(p.id, ProviderLabel(p), p.id in selectedIds)
    {
      var i :| 0 <= i < |allProviders| && allProviders[i] == p;
      var k :| 0 <= k < |sorted| && sorted[k] == p;
      assert tiles[k] == ProviderTile(p.id, ProviderLabel(p), p.id in selectedIds);
    }
  }

  /** Whenever an "All" provider exists, the grid opens with the "All" tile. */
  lemma AllTileFirst(allProviders: seq<StreamingProvider>, selectedIds: seq<Uuid>)
    requires exists i :: 0 <= i < |allProviders| && IsAll(allProviders[i])
    ensures var tiles := ProviderGrid(allProviders, selectedIds);
      |tiles| > 0 && tiles[0].caption == "All"
  {
    var sorted := SortProviders(allProviders);
    var i :| 0 <= i < |allProviders| && IsAll(allProviders[i]);
    SameElements(allProviders, sorted);
    var j :| 0 <= j < |sorted| && sorted[j] == allProviders[i];
    SortedGridOrder(allProviders);
    assert IsAll(sorted[0]);
  }

  /** Continue on the provider step is disabled until something is selected. */
  function ContinueDisabled(canAdvance: bool): (disabled: bool)
    ensures disabled <==> !canAdvance
  {
    !canAdvance
  }

  function IdIn(ids: seq<Uuid>): StreamingProvider -> bool {
    (p: StreamingProvider) => p.id in ids
  }

  /** `allProviders.filter((p) => selectedProviderIds.includes(p.id))`. */
  function SelectedProviders(allProviders: seq<StreamingProvider>, selectedIds: seq<Uuid>)
    : (shown: seq<StreamingProvider>)
    ensures forall p :: p in shown <==> p in allProviders && p.id in selectedIds
    ensures IsSubsequence(shown, allProviders)
  {
    FilterIsSubsequence(allProviders, IdIn(selectedIds));
    Filter(allProviders, IdIn(selectedIds))
  }

  /** The summary depends only on which ids are selected, not on the order
      they were clicked in. */
  lemma SelectionOrderIgnored(allProviders: seq<StreamingProvider>, s1: seq<Uuid>, s2: seq<Uuid>)
    requires forall x :: x in s1 <==> x in s2
    ensures SelectedProviders(allProviders, s1) == SelectedProviders(allProviders, s2)
  {
    FilterExt(allProviders, IdIn(s1), IdIn(s2));
  }

  /** A selected id that names no provider shows nothing. */
  lemma UnknownIdIgnored(allProviders: seq<StreamingProvider>, selectedIds: seq<Uuid>, id: Uuid)
    requires forall k :: 0 <= k < |allProviders| ==> allProviders[k].id != id
    ensures SelectedProviders(allProviders, selectedIds + [id])
         == SelectedProviders(allProviders, selectedIds)
  {
    FilterExt(allProviders, IdIn(selectedIds + [id]), IdIn(selectedIds));
  }

  /** The controls of the completion step while it saves. */
  datatype CompletionControls = CompletionControls(backDisabled: bool, finishDisabled: bool,
                                                   finishLabel: string)

  function CompletionControlsFor(saving: bool): (c: CompletionControls)
    ensures c.backDisabled == saving && c.finishDisabled == saving
    ensures c.finishLabel == (if saving then "Setting up your profile..." else "Get Started")
  {
    CompletionControls(saving, saving, if saving then "Setting up your profile..." else "Get Started")
  }
}

=== FILE: rating_state.dfy ===
/** The rating controls and the title page's state: the star widget
    (components/movie/StarRating.tsx), the rating hook (hooks/useRating.ts)
    and the handlers of the title page (components/movie/MovieDetail.tsx).
    Each handler returns the new local state together with the database
    write it issues; the writes' failures are inputs and, as in the source,
    never change the local state. */
module RatingState {
  import opened Wrappers
  import opened Schema
  import opened Seqs
  import opened Tmdb
  import Ratings
  import Movies

  // ---------------------------------------------------------------------
  // Star widget
  // ---------------------------------------------------------------------

  /** The stars drawn, left to right. */
  const Stars: seq<int> := [1, 2, 3, 4, 5]

  /** `hoverValue || value`: the hovered star while hovering, else the value. */
  function DisplayValue(hover: int, value: int): (shown: int)
    ensures hover != 0 ==> shown == hover
    ensures hover == 0 ==> shown == value
  {
    if hover != 0 then hover else value
  }

  /** Star `star` is drawn filled when the displayed value reaches it. */
  predicate Filled(shown: int, star: int) {
    shown >= star
  }

  function FilledBy(shown: int): int -> bool {
    (star: int) => Filled(shown, star)
  }

  /** The numbers 1 to k in order. */
  function OneTo(k: nat): (s: seq<int>)
    ensures |s| == k
    ensures forall i :: 0 <= i < k ==> s[i] == i + 1
  {
    seq(k, i requires 0 <= i < k => i + 1)
  }

  function Clamp(v: int, k: nat): int {
    if v < 0 then 0 else if v > k then k else v
  }

  /** Among the stars 1 to k, as many are filled as the displayed value,
      clamped to 0..k. */
  lemma {:induction false} FilledAmongFirst(shown: int, k: nat)
    ensures CountWhere(OneTo(k), FilledBy(shown)) == Clamp(shown, k)
    decreases k
  {
    if k > 0 {
      var stars := OneTo(k);
      assert stars[..k - 1] == OneTo(k - 1);
      assert stars[k - 1] == k;
      FilledAmongFirst(shown, k - 1);
      assert CountWhere(stars, FilledBy(shown))
        == CountWhere(OneTo(k - 1), FilledBy(shown)) + (if shown >= k then 1 else 0);
    }
  }

  /** The number of filled stars is the displayed value, clamped to 0..5. */
  lemma FilledStarsCount(shown: int)
    ensures CountWhere(Stars, FilledBy(shown)) == Clamp(shown, 5)
  {
    assert Stars == OneTo(5);
    FilledAmongFirst(shown, 5);
  }

  /** Filled stars are a prefix: a filled star has every star to its left
      filled too. */
  lemma FilledStarsArePrefix(shown: int, i: nat, j: nat)
    requires i <= j < |Stars|
    requires Filled(shown, Stars[j])
    ensures Filled(shown, Stars[i])
  {
  }

  /** The value a click reports: none from a read-only widget; otherwise 0
      (clear) for the star equal to the current value, else that star. */
  function ClickValue(star: int, value: int, interactive: bool): (reported: Option<int>)
    ensures !interactive ==> reported.None?
    ensures interactive ==> reported.Some?
    ensures interactive && star == value ==> reported == Some(0)
    ensures interactive && star != value ==> reported == Some(star)
  {
    if !interactive then None else if star == value then Some(0) else Some(star)
  }

  /** Hovering: entering a star shows it, leaving shows the value again; a
      read-only widget ignores both. */
  function OnHover(hover: int, star: Option<int>, interactive: bool): (next: int)
    ensures !interactive ==> next == hover
    ensures interactive && star.Some? ==> next == star.value
    ensures interactive && star.None? ==> next == 0
  {
    if !interactive then hover else star.GetOr(0)
  }

  /** On a widget that reports back its value, a first click on a star other
      than the current value sets the rating to it, so the widget shows that
      star, and a second click on the same star clears the rating. */
  lemma ClickTwice(star: int, value: int)
    requires star != 0 && star != value
    ensures ClickValue(star, value, true) == Some(star)
    ensures ClickValue(star, ClickValue(star, value, true).value, true) == Some(0)
    ensures DisplayValue(0, ClickValue(star, value, true).value) == star
  {
  }

  // ---------------------------------------------------------------------
  // The rating hook
  // ---------------------------------------------------------------------

  /** The score and comment the rating controls show. */
  datatype RatingForm = RatingForm(score: int, comment: string)

  const EmptyForm := RatingForm(0, "")

  /** `loadRating`: the stored score and comment (a missing or empty comment
      reads as ""), when the user has rated the title; otherwise the form
      stays as it is. */
  function LoadRating(form: RatingForm, t: seq<Rating>, userId: Uuid, movieId: Uuid): (r: RatingForm)
    ensures Ratings.GetUserRating(t, userId, movieId).None? ==> r == form
    ensures Ratings.GetUserRating(t, userId, movieId).Some? ==>
      var row := Ratings.GetUserRating(t, userId, movieId).value;
      && r.score == row.score
      && (row.comment.Some? ==> r.comment == row.comment.value)
      && (row.comment.None? ==> r.comment == "")
  {
    match Ratings.GetUserRating(t, userId, movieId)
    case None => form
    case Some(row) => RatingForm(row.score, OrElse(row.comment, ""))
  }

  /** The form after a submit and the write it issued. */
  datatype Submitted = Submitted(form: RatingForm, write: Ratings.RatingWrite)

  /** `submitRating`: score 0 deletes the rating and empties the form; any
      other score upserts it with the given comment, or the form's when none
      is given, and shows the new score while keeping the form's comment. */
  function SubmitRating(
    form: RatingForm, t: seq<Rating>, userId: Uuid, movieId: Uuid,
    newScore: int, newComment: Option<string>,
    now: Timestamp, newId: Uuid, dbError: Option<DbError>): (r: Submitted)
    ensures newScore == 0 ==>
      && r.form == EmptyForm
      && r.write == Ratings.DeleteRating(t, userId, movieId, dbError)
    ensures newScore != 0 ==>
      && r.form.score == newScore && r.form.comment == form.comment
      && r.write == Ratings.UpsertRating(t, userId, movieId, newScore,
                                         Some(newComment.GetOr(form.comment)), now, newId, dbError)
  {
    if newScore == 0 then
      Submitted(EmptyForm, Ratings.DeleteRating(t, userId, movieId, dbError))
    else
      Submitted(form.(score := newScore),
                Ratings.UpsertRating(t, userId, movieId, newScore, Some(newComment.GetOr(form.comment)),
                                     now, newId, dbError))
  }

  /** `removeRating`: deletes the rating and empties the form. */
  function RemoveRating(form: RatingForm, t: seq<Rating>, userId: Uuid, movieId: Uuid, dbError: Option<DbError>)
    : (r: Submitted)
    ensures r.form == EmptyForm
    ensures r.write.table == Ratings.DeleteRating(t, userId, movieId, dbError).table
  {
    Submitted(EmptyForm, Ratings.DeleteRating(t, userId, movieId, dbError))
  }

  /** Removing is submitting score 0. */
  lemma RemoveIsSubmitZero(
    form: RatingForm, t: seq<Rating>, userId: Uuid, movieId: Uuid,
    newComment: Option<string>, now: Timestamp, newId: Uuid, dbError: Option<DbError>)
    ensures RemoveRating(form, t, userId, movieId, dbError)
         == SubmitRating(form, t, userId, movieId, 0, newComment, now, newId, dbError)
  {
  }

  /** A successful submit without a new comment (or with the form's own) is
      what a reload shows: loading the rating back gives the form the submit
      left, for a set score and for a cleared one alike. */
  lemma SubmitThenLoad(
    form: RatingForm, t: seq<Rating>, userId: Uuid, movieId: Uuid,
    newScore: int, newComment: Option<string>, now: Timestamp, newId: Uuid, other: RatingForm)
    requires Ratings.OneRatingPerUserMovie(t)
    requires newComment.None? || newComment == Some(form.comment)
    ensures var r := SubmitRating(form, t, userId, movieId, newScore, newComment, now, newId, None);
      LoadRating(if newScore == 0 then EmptyForm else other, r.write.table, userId, movieId) == r.form
  {
  }

  /** With a new comment that differs from the form's, the stored comment and
      the shown one part ways: the reload shows the new comment while the
      form keeps the old one. */
  lemma SubmitNewCommentDiverges(
    form: RatingForm, t: seq<Rating>, userId: Uuid, movieId: Uuid,
    newScore: int, c: string, now: Timestamp, newId: Uuid, other: RatingForm)
    requires Ratings.OneRatingPerUserMovie(t)
    requires newScore != 0 && c != "" && c != form.comment
    ensures var r := SubmitRating(form, t, userId, movieId, newScore, Some(c), now, newId, None);
      && LoadRating(other, r.write.table, userId, movieId) == RatingForm(newScore, c)
      && r.form == RatingForm(newScore, form.comment)
  {
  }

  // ---------------------------------------------------------------------
  // The title page
  // ---------------------------------------------------------------------

  /** The header line: title, release date and runtime, read from the film
      or the series shape of the details. */
  datatype Header = Header(title: string, releaseDate: string, runtime: Option<int>)

  function HeaderOf(details: Details): (h: Header)
    ensures details.MovieDetails? ==> h == Header(details.title, details.releaseDate, details.runtime)
    ensures details.TvDetails? ==>
      && h.title == details.name && h.releaseDate == details.firstAirDate
      && (h.runtime.Some? <==> details.episodeRunTime.Some? && |details.episodeRunTime.value| > 0)
      && (h.runtime.Some? ==> h.runtime.value == details.episodeRunTime.value[0])
  {
    match details
    case MovieDetails(_, title, _, _, _, date, _, _, runtime) => Header(title, date, runtime)
    case TvDetails(_, name, _, _, _, date, _, _, runTimes, _) =>
      Header(name, date, Movies.FirstRunTime(runTimes))
  }

  /** The header shows what the stored row holds: the page and the row
      derive title, date and runtime from the details by the same rule. */
  lemma HeaderMatchesStoredRow(details: Details)
    ensures var f := Movies.FieldsOf(details);
      && f.title == HeaderOf(details).title
      && f.releaseDate == Some(HeaderOf(details).releaseDate)
      && f.runtime == HeaderOf(details).runtime
  {
  }

  /** The page's state: the stored row once known, the rating form, and the
      follow and watchlist flags. */
  datatype Page = Page(movie: Option<MovieRow>, form: RatingForm, following: bool, inWatchlist: bool)

  const FreshPage := Page(None, EmptyForm, false, false)

  /** `initMovie`: when the row could be stored, the page takes it, loads the
      user's rating, the follow flag (series only) and the watchlist flag;
      otherwise nothing changes. */
  function InitMovie(
    p: Page, stored: Option<MovieRow>, mediaType: MediaType, t: seq<Rating>, userId: Uuid,
    isFollowing: bool, watchlisted: bool): (r: Page)
    ensures stored.None? ==> r == p
    ensures stored.Some? ==>
      && r.movie == stored
      && r.form == LoadRating(p.form, t, userId, stored.value.id)
      && r.following == (if mediaType == TvMedia then isFollowing else p.following)
      && r.inWatchlist == watchlisted
  {
    match stored
    case None => p
    case Some(m) =>
      Page(stored, LoadRating(p.form, t, userId, m.id),
           if mediaType == TvMedia then isFollowing else p.following, watchlisted)
  }

  /** What a handler did to the ratings table: nothing, or a write. */
  function NoWrite(t: seq<Rating>): Ratings.RatingWrite {
    Ratings.RatingWrite(t, None, None)
  }

  datatype Rated = Rated(page: Page, write: Ratings.RatingWrite)

  /** `handleRate`: before the row is known, nothing; otherwise the score is
      shown at once, score 0 deletes the rating and any other score upserts
      it with the shown comment, an empty one stored as null. */
  function HandleRate(
    p: Page, t: seq<Rating>, userId: Uuid, newScore: int,
    now: Timestamp, newId: Uuid, dbError: Option<DbError>): (r: Rated)
    ensures p.movie.None? ==> r == Rated(p, NoWrite(t))
    ensures p.movie.Some? ==> r.page == p.(form := p.form.(score := newScore))
    ensures p.movie.Some? && newScore == 0 ==>
      r.write == Ratings.DeleteRating(t, userId, p.movie.value.id, dbError)
    ensures p.movie.Some? && newScore != 0 ==>
      r.write == Ratings.UpsertRating(t, userId, p.movie.value.id, newScore,
                                      EmptyToNull(p.form.comment), now, newId, dbError)
  {
    match p.movie
    case None => Rated(p, NoWrite(t))
    case Some(m) =>
      var page := p.(form := p.form.(score := newScore));
      if newScore == 0 then Rated(page, Ratings.DeleteRating(t, userId, m.id, dbError))
      else Rated(page, Ratings.UpsertRating(t, userId, m.id, newScore, EmptyToNull(p.form.comment),
                                            now, newId, dbError))
  }

  /** `handleComment`: saves the shown score and comment (empty as null),
      but only once the row is known and a score is set. */
  function HandleComment(
    p: Page, t: seq<Rating>, userId: Uuid,
    now: Timestamp, newId: Uuid, dbError: Option<DbError>): (r: Rated)
    ensures p.movie.None? || p.form.score == 0 ==> r == Rated(p, NoWrite(t))
    ensures p.movie.Some? && p.form.score != 0 ==>
      && r.page == p
      && r.write == Ratings.UpsertRating(t, userId, p.movie.value.id, p.form.score,
                                         EmptyToNull(p.form.comment), now, newId, dbError)
  {
    if p.movie.None? || p.form.score == 0 then Rated(p, NoWrite(t))
    else Rated(p, Ratings.UpsertRating(t, userId, p.movie.value.id, p.form.score,
                                       EmptyToNull(p.form.comment), now, newId, dbError))
  }

  /** A successful rating survives a reload of the page: opening it again
      with the written table shows the same score and comment. */
  lemma RateThenReopen(
    p: Page, t: seq<Rating>, userId: Uuid, newScore: int, now: Timestamp, newId: Uuid,
    mediaType: MediaType, isFollowing: bool, watchlisted: bool)
    requires Ratings.OneRatingPerUserMovie(t)
    requires p.movie.Some? && newScore != 0
    ensures var r := HandleRate(p, t, userId, newScore, now, newId, None);
      InitMovie(FreshPage, p.movie, mediaType, r.write.table, userId, isFollowing, watchlisted).form
        == r.page.form
  {
  }

  /** Clicking the star of the current score on the page's widget deletes
      the rating: a reload then shows no score. */
  lemma ClickCurrentStarClears(
    p: Page, t: seq<Rating>, userId: Uuid, now: Timestamp, newId: Uuid,
    mediaType: MediaType, isFollowing: bool, watchlisted: bool)
    requires p.movie.Some?
    ensures var clicked := ClickValue(p.form.score, p.form.score, true).value;
      var r := HandleRate(p, t, userId, clicked, now, newId, None);
      && r.page.form.score == 0
      && Ratings.GetUserRating(r.write.table, userId, p.movie.value.id).None?
      && InitMovie(FreshPage, p.movie, mediaType, r.write.table, userId, isFollowing, watchlisted).form
           == EmptyForm
  {
  }

  /** A call to the watchlist service. */
  datatype WatchlistCall = NoWatchlistCall | AddToWatchlist(movieId: Uuid) | RemoveFromWatchlist(movieId: Uuid)

  /** `handleWatchlist`: removes a listed title, adds an unlisted one, and
      flips the flag; nothing before the row is known. */
  function HandleWatchlist(p: Page): (r: (Page, WatchlistCall))
    ensures p.movie.None? ==> r == (p, NoWatchlistCall)
    ensures p.movie.Some? ==>
      && r.0 == p.(inWatchlist := !p.inWatchlist)
      && (p.inWatchlist ==> r.1 == RemoveFromWatchlist(p.movie.value.id))
      && (!p.inWatchlist ==> r.1 == AddToWatchlist(p.movie.value.id))
  {
    match p.movie
    case None => (p, NoWatchlistCall)
    case Some(m) =>
      if p.inWatchlist then (p.(inWatchlist := false), RemoveFromWatchlist(m.id))
      else (p.(inWatchlist := true), AddToWatchlist(m.id))
  }

  /** Two presses undo each other: the flag is back and the two calls are
      an add and a remove of the same title. */
  lemma WatchlistTwice(p: Page)
    requires p.movie.Some?
    ensures var (p1, c1) := HandleWatchlist(p);
      var (p2, c2) := HandleWatchlist(p1);
      && p2 == p
      && {c1, c2} == {AddToWatchlist(p.movie.value.id), RemoveFromWatchlist(p.movie.value.id)}
  {
  }

  /** A call to the follow service; following a series also asks for its
      episodes when the details carry a season count. */
  datatype FollowCall =
    | NoFollowCall
    | FollowShow(movieId: Uuid, syncSeasons: Option<int>)
    | UnfollowShow(movieId: Uuid)

  /** `handleFollow`: unfollows a followed title, follows another one
      (syncing its episodes only when the details are a series'), and flips
      the flag; nothing before the row is known. */
  function HandleFollow(p: Page, details: Details): (r: (Page, FollowCall))
    ensures p.movie.None? ==> r == (p, NoFollowCall)
    ensures p.movie.Some? ==> r.0 == p.(following := !p.following)
    ensures p.movie.Some? && p.following ==> r.1 == UnfollowShow(p.movie.value.id)
    ensures p.movie.Some? && !p.following ==>
      && r.1.FollowShow? && r.1.movieId == p.movie.value.id
      && (r.1.syncSeasons.Some? <==> details.TvDetails?)
      && (details.TvDetails? ==> r.1.syncSeasons == Some(details.numberOfSeasons))
  {
    match p.movie
    case None => (p, NoFollowCall)
    case Some(m) =>
      if p.following then (p.(following := false), UnfollowShow(m.id))
      else (p.(following := true),
            FollowShow(m.id, if details.TvDetails? then Some(details.numberOfSeasons) else None))
  }
}

=== FILE: ratings.dfy ===
/** The rating services (services/ratings.ts): the keyed upsert and delete on
    the `ratings` table, the single-row lookup, and the friends' feed. */
module Ratings {
  import opened Wrappers
  import opened Schema
  import opened Seqs
  import opened Sorting
  import Friendships

  /** The `(user_id, movie_id)` unique key the upsert conflicts on. */
  predicate OneRatingPerUserMovie(t: seq<Rating>) {
    forall i, j :: 0 <= i < j < |t| ==>
      !(t[i].userId == t[j].userId && t[i].movieId == t[j].movieId)
  }

  function SameKey(userId: Uuid, movieId: Uuid): Rating -> bool {
    (x: Rating) => x.userId == userId && x.movieId == movieId
  }

  function OtherKey(userId: Uuid, movieId: Uuid): Rating -> bool {
    (x: Rating) => !(x.userId == userId && x.movieId == movieId)
  }

  /** What a rating write returns: the table after it, the selected row and
      the error. */
  datatype RatingWrite = RatingWrite(table: seq<Rating>, data: Option<Rating>, error: Option<DbError>)

  /** `getUserRating`: `.single()` yields the row only when exactly one row has
      the key. */
  function GetUserRating(t: seq<Rating>, userId: Uuid, movieId: Uuid): (r: Option<Rating>)
    ensures r.Some? <==> |Filter(t, SameKey(userId, movieId))| == 1
    ensures r.Some? ==> r.value in t && r.value.userId == userId && r.value.movieId == movieId
  {
    var matches := Filter(t, SameKey(userId, movieId));
    if |matches| == 1 then Some(matches[0]) else None
  }

  /** With the key unique, a rating that exists is the one `.single()` finds. */
  lemma GetUserRatingFinds(t: seq<Rating>, i: nat)
    requires OneRatingPerUserMovie(t)
    requires i < |t|
    ensures GetUserRating(t, t[i].userId, t[i].movieId) == Some(t[i])
  {
    FilterSingleton(t, SameKey(t[i].userId, t[i].movieId), i);
  }

  /** `upsertRating`: the row with key (user, movie) gets the new score,
      comment and `updated_at`, keeping its id and `created_at`; without one a
      new row is inserted. A failed statement changes nothing. */
  function UpsertRating(
    t: seq<Rating>, userId: Uuid, movieId: Uuid, score: int, comment: Option<string>,
    now: Timestamp, newId: Uuid, dbError: Option<DbError>): (r: RatingWrite)
    ensures dbError.Some? ==> r == RatingWrite(t, None, dbError)
    ensures dbError.None? ==>
      && r.error.None?
      && r.data.Some?
      && r.data.value.userId == userId && r.data.value.movieId == movieId
      && r.data.value.score == score && r.data.value.comment == comment
      && r.data.value.updatedAt == now
      && r.data.value in r.table
    ensures |t| <= |r.table| <= |t| + 1
    ensures forall i :: 0 <= i < |t| && OtherKey(userId, movieId)(t[i]) ==> r.table[i] == t[i]
    ensures forall i :: 0 <= i < |t| ==>
      r.table[i].id == t[i].id && r.table[i].userId == t[i].userId && r.table[i].movieId == t[i].movieId
    ensures |r.table| == |t| + 1 ==> r.data == Some(r.table[|t|])
    ensures OneRatingPerUserMovie(t) ==> OneRatingPerUserMovie(r.table)
    ensures OneRatingPerUserMovie(t) && dbError.None? ==>
      GetUserRating(r.table, userId, movieId) == r.data
  {
    if dbError.Some? then RatingWrite(t, None, dbError)
    else
      var key := SameKey(userId, movieId);
      var u := RatingUpdate(Some(score), Some(comment), Some(now));
      match IndexWhere(t, key)
      case Some(i) =>
        var t' := seq(|t|, j requires 0 <= j < |t| => if key(t[j]) then ApplyRatingUpdate(t[j], u) else t[j]);
        assert t'[i] in t';
        assert OneRatingPerUserMovie(t) ==> OneRatingPerUserMovie(t') by {
          if OneRatingPerUserMovie(t) {
            forall a, b | 0 <= a < b < |t'|
              ensures !(t'[a].userId == t'[b].userId && t'[a].movieId == t'[b].movieId)
            {
              assert t'[a].userId == t[a].userId && t'[a].movieId == t[a].movieId;
              assert t'[b].userId == t[b].userId && t'[b].movieId == t[b].movieId;
            }
          }
        }
        assert OneRatingPerUserMovie(t) ==> GetUserRating(t', userId, movieId) == Some(t'[i]) by {
          if OneRatingPerUserMovie(t) {
            GetUserRatingFinds(t', i);
          }
        }
        RatingWrite(t', Some(t'[i]), None)
      case None =>
        var row := Rating(newId, userId, movieId, score, comment, now, now);
        var t' := t + [row];
        assert OneRatingPerUserMovie(t) ==> GetUserRating(t', userId, movieId) == Some(row) by {
          if OneRatingPerUserMovie(t) {
            GetUserRatingFinds(t', |t|);
          }
        }
        RatingWrite(t', Some(row), None)
  }

  /** `deleteRating`: removes the rows with key (user, movie) and keeps every
      other row in order. */
  function DeleteRating(t: seq<Rating>, userId: Uuid, movieId: Uuid, dbError: Option<DbError>)
    : (r: RatingWrite)
    ensures r.error == dbError && r.data.None?
    ensures dbError.Some? ==> r.table == t
    ensures dbError.None? ==> GetUserRating(r.table, userId, movieId).None?
    ensures dbError.None? ==>
      forall i :: 0 <= i < |t| && OtherKey(userId, movieId)(t[i]) ==> t[i] in r.table
    ensures forall i :: 0 <= i < |r.table| ==> r.table[i] in t
    ensures IsSubsequence(r.table, t)
  {
    if dbError.Some? then
      SubsequenceRefl(t);
      RatingWrite(t, None, dbError)
    else
      var t' := Filter(t, OtherKey(userId, movieId));
      FilterIsSubsequence(t, OtherKey(userId, movieId));
      assert forall i :: 0 <= i < |t'| ==> !SameKey(userId, movieId)(t'[i]);
      FilterNone(t', SameKey(userId, movieId));
      RatingWrite(t', None, None)
  }

  /** A successful delete is the table filtered to the other keys. */
  lemma DeleteKeepsOthers(t: seq<Rating>, userId: Uuid, movieId: Uuid)
    ensures DeleteRating(t, userId, movieId, None).table == Filter(t, OtherKey(userId, movieId))
  {
  }

  /** A successful delete leaves the lookup of every other key as it was. */
  lemma DeleteKeepsOtherLookups(t: seq<Rating>, userId: Uuid, movieId: Uuid, otherUser: Uuid, otherMovie: Uuid)
    requires !(otherUser == userId && otherMovie == movieId)
    ensures GetUserRating(DeleteRating(t, userId, movieId, None).table, otherUser, otherMovie)
         == GetUserRating(t, otherUser, otherMovie)
  {
    DeleteKeepsOthers(t, userId, movieId);
    FilterWeakerFirst(t, OtherKey(userId, movieId), SameKey(otherUser, otherMovie));
  }

  /** Upserting and then deleting the same key leaves the table as deleting
      alone would: the upsert touches nothing outside its key. */
  lemma DeleteAfterUpsert(
    t: seq<Rating>, userId: Uuid, movieId: Uuid, score: int, comment: Option<string>,
    now: Timestamp, newId: Uuid)
    ensures DeleteRating(UpsertRating(t, userId, movieId, score, comment, now, newId, None).table,
                         userId, movieId, None).table
         == DeleteRating(t, userId, movieId, None).table
  {
    var w := UpsertRating(t, userId, movieId, score, comment, now, newId, None);
    DeleteKeepsOthers(t, userId, movieId);
    DeleteKeepsOthers(w.table, userId, movieId);
    assert |w.table| == |t| + 1 ==> !OtherKey(userId, movieId)(w.table[|t|]);
    SameOtherRows(t, w.table, userId, movieId);
  }

  /** A table that agrees with `t` on the rows of other keys, and at most
      appends one row of the key, has the same rows of other keys. */
  lemma SameOtherRows(t: seq<Rating>, t': seq<Rating>, userId: Uuid, movieId: Uuid)
    requires |t| <= |t'| <= |t| + 1
    requires forall i :: 0 <= i < |t| && OtherKey(userId, movieId)(t[i]) ==> t'[i] == t[i]
    requires forall i :: 0 <= i < |t| ==> t'[i].userId == t[i].userId && t'[i].movieId == t[i].movieId
    requires |t'| == |t| + 1 ==> !OtherKey(userId, movieId)(t'[|t|])
    ensures Filter(t', OtherKey(userId, movieId)) == Filter(t, OtherKey(userId, movieId))
  {
    FilterGrowRejected(t, t', OtherKey(userId, movieId));
  }

  /** Newest first: `order("created_at", { ascending: false })`. */
  function NewestFirst(a: Rating, b: Rating): bool {
    a.createdAt >= b.createdAt
  }

  lemma NewestFirstIsTotalPreorder()
    ensures TotalPreorder(NewestFirst)
  {
  }

  /** The ids of the user's friends: the other party of every accepted
      friendship the user is part of. */
  function FriendIds(fs: seq<Friendship>, userId: Uuid): (ids: seq<Uuid>)
    ensures forall f :: f in fs && f.status == Accepted && Friendships.Involves(f, userId) ==>
      Friendships.OtherParty(f, userId) in ids
  {
    var friends := Friendships.GetFriends(fs, userId);
    var ids := seq(|friends|, k requires 0 <= k < |friends| => Friendships.OtherParty(friends[k], userId));
    assert forall f :: f in friends ==> Friendships.OtherParty(f, userId) in ids by {
      forall f | f in friends ensures Friendships.OtherParty(f, userId) in ids {
        var k :| 0 <= k < |friends| && friends[k] == f;
        assert ids[k] == Friendships.OtherParty(f, userId);
      }
    }
    ids
  }

  /** Every friend id is the other party of an accepted friendship of the user. */
  lemma FriendIdsAreOtherParties(fs: seq<Friendship>, userId: Uuid)
    ensures forall k :: 0 <= k < |FriendIds(fs, userId)| ==>
      exists f :: f in fs && f.status == Accepted && Friendships.Involves(f, userId)
        && FriendIds(fs, userId)[k] == Friendships.OtherParty(f, userId)
  {
    var friends := Friendships.GetFriends(fs, userId);
    var ids := FriendIds(fs, userId);
    forall k | 0 <= k < |ids|
      ensures exists f :: f in fs && f.status == Accepted && Friendships.Involves(f, userId)
                          && ids[k] == Friendships.OtherParty(f, userId)
    {
      assert friends[k] in friends;
      assert ids[k] == Friendships.OtherParty(friends[k], userId);
    }
  }

  function AuthoredBy(ids: seq<Uuid>): Rating -> bool {
    (x: Rating) => x.userId in ids
  }

  /** `.range(offset, offset + limit - 1)`: the rows at positions `offset` up
      to `offset + limit - 1` that exist. */
  function Page<T>(s: seq<T>, offset: nat, limit: nat): (r: seq<T>)
    ensures |r| <= limit
    ensures forall k :: 0 <= k < |r| ==> offset + k < |s| && r[k] == s[offset + k]
    ensures offset < |s| ==> r == s[offset..if offset + limit <= |s| then offset + limit else |s|]
    ensures offset >= |s| ==> r == []
  {
    if offset >= |s| then []
    else if offset + limit <= |s| then s[offset..offset + limit]
    else s[offset..]
  }

  /** A page holds elements of the list and keeps its order. */
  lemma PageOfSorted<T>(s: seq<T>, offset: nat, limit: nat, le: (T, T) -> bool)
    requires SortedBy(s, le)
    ensures forall k :: 0 <= k < |Page(s, offset, limit)| ==> Page(s, offset, limit)[k] in s
    ensures SortedBy(Page(s, offset, limit), le)
  {
    var page := Page(s, offset, limit);
    forall i, j | 0 <= i < j < |page| ensures le(page[i], page[j]) {
      assert page[i] == s[offset + i] && page[j] == s[offset + j];
    }
  }

  /** Consecutive pages tile the list: the page at `offset` of size `k`
      followed by the page right after it of size `l` is the page of size
      `k + l`. */
  lemma PagesTile<T>(s: seq<T>, offset: nat, k: nat, l: nat)
    ensures Page(s, offset, k) + Page(s, offset + k, l) == Page(s, offset, k + l)
  {
  }

  /** The feed's answer: `data` is `null` exactly when the ratings query fails. */
  datatype FeedResult = FeedResult(data: Option<seq<Rating>>, error: Option<DbError>)

  /** `getFriendsFeed`: the friends' ratings, newest first, one page of them.
      `friendships` is `None` when the friendship query returns no data, which
      the service treats as having no friends; `ratingsError` is the failure
      of the ratings query. */
  function GetFriendsFeed(
    friendships: Option<seq<Friendship>>, ratings: seq<Rating>, userId: Uuid,
    limit: nat, offset: nat, ratingsError: Option<DbError>): (r: FeedResult)
    requires limit >= 1
    ensures FriendIds(friendships.GetOr([]), userId) == [] ==> r == FeedResult(Some([]), None)
    ensures FriendIds(friendships.GetOr([]), userId) != [] ==>
      r.error == ratingsError && (r.data.None? <==> ratingsError.Some?)
    ensures r.data.Some? ==> |r.data.value| <= limit
    ensures r.data.Some? ==> forall k :: 0 <= k < |r.data.value| ==>
      r.data.value[k] in ratings && r.data.value[k].userId in FriendIds(friendships.GetOr([]), userId)
    ensures r.data.Some? ==> SortedBy(r.data.value, NewestFirst)
    ensures FriendIds(friendships.GetOr([]), userId) != [] && r.data.Some? ==>
      r.data.value == Page(FriendsRatings(ratings, FriendIds(friendships.GetOr([]), userId)), offset, limit)
  {
    var ids := FriendIds(friendships.GetOr([]), userId);
    if |ids| == 0 then FeedResult(Some([]), None)
    else if ratingsError.Some? then FeedResult(None, ratingsError)
    else
      var all := FriendsRatings(ratings, ids);
      PageOfSorted(all, offset, limit, NewestFirst);
      FeedResult(Some(Page(all, offset, limit)), None)
  }

  /** Two consecutive calls of the feed, the second starting where the first
      ended, return together what one call with the summed limit returns. */
  lemma FeedCallsTile(
    friendships: Option<seq<Friendship>>, ratings: seq<Rating>, userId: Uuid,
    offset: nat, k: nat, l: nat)
    requires k >= 1 && l >= 1
    requires FriendIds(friendships.GetOr([]), userId) != []
    ensures GetFriendsFeed(friendships, ratings, userId, k, offset, None).data.value
          + GetFriendsFeed(friendships, ratings, userId, l, offset + k, None).data.value
         == GetFriendsFeed(friendships, ratings, userId, k + l, offset, None).data.value
  {
    var all := FriendsRatings(ratings, FriendIds(friendships.GetOr([]), userId));
    PagesTile(all, offset, k, l);
  }

  /** The friends' ratings newest first, before paging. */
  function FriendsRatings(ratings: seq<Rating>, ids: seq<Uuid>): (r: seq<Rating>)
    ensures multiset(r) == multiset(Filter(ratings, AuthoredBy(ids)))
    ensures forall k :: 0 <= k < |r| ==> r[k] in ratings && r[k].userId in ids
    ensures forall k :: 0 <= k < |ratings| && ratings[k].userId in ids ==> ratings[k] in r
    ensures SortedBy(r, NewestFirst)
  {
    var f := Filter(ratings, AuthoredBy(ids));
    var r := SortBy(f, NewestFirst);
    SortBySorted(f, NewestFirst);
    SameElements(r, f);
    r
  }

  /** Every friend rating shows up on exactly one page: reading the feed page
      by page from offset 0 gives all of them. */
  lemma FeedPagesCoverFriendsRatings(ratings: seq<Rating>, ids: seq<Uuid>, pageSize: nat, pages: nat)
    requires pageSize >= 1
    requires pages * pageSize >= |FriendsRatings(ratings, ids)|
    ensures PagesFrom(FriendsRatings(ratings, ids), 0, pageSize, pages) == FriendsRatings(ratings, ids)
  {
    var all := FriendsRatings(ratings, ids);
    PagesFromIsPage(all, 0, pageSize, pages);
  }

  /** The concatenation of `count` consecutive pages of `size` from `offset`. */
  function PagesFrom<T>(s: seq<T>, offset: nat, size: nat, count: nat): seq<T>
    decreases count
  {
    if count == 0 then [] else Page(s, offset, size) + PagesFrom(s, offset + size, size, count - 1)
  }

  lemma {:induction false} PagesFromIsPage<T>(s: seq<T>, offset: nat, size: nat, count: nat)
    ensures PagesFrom(s, offset, size, count) == Page(s, offset, count * size)
    decreases count
  {
    if count > 0 {
      PagesFromIsPage(s, offset + size, size, count - 1);
      PagesTile(s, offset, size, (count - 1) * size);
      assert size + (count - 1) * size == count * size;
    }
  }
}

=== FILE: schema.dfy ===
/** The rows of the application's database tables (types/database.ts), the
    string enumerations stored in them, and the restricted "Update" shapes the
    typed client accepts. The streaming tables (`streaming_providers`,
    `user_streaming_providers`, `movie_providers`) are not declared in the type
    file; their rows are modelled from the columns the services read and write. */
module Schema {
  import opened Wrappers

  /** Row ids, user ids and foreign keys are UUID strings. */
  type Uuid = string

  /** `created_at` / `updated_at`: instants, ordered as instants. */
  type Timestamp = int

  /** An error the database client reports: a failed statement, or a
      `.single()` call on a result that does not hold exactly one row. */
  datatype DbError = QueryFailed(message: string) | NotExactlyOneRow

  /** Calendar dates such as `release_date` and `air_date`, as "YYYY-MM-DD" text. */
  type Date = string

  datatype MediaType = MovieMedia | TvMedia

  /** The `media_type` column value. */
  function MediaTypeName(m: MediaType): string {
    match m
    case MovieMedia => "movie"
    case TvMedia => "tv"
  }

  /** `friendships.status`: "pending" | "accepted" | "rejected". */
  datatype FriendshipStatus = Pending | Accepted | Rejected

  function StatusName(s: FriendshipStatus): string {
    match s
    case Pending => "pending"
    case Accepted => "accepted"
    case Rejected => "rejected"
  }

  /** Reads a stored status; any other text is not a status. */
  function ParseStatus(text: string): (r: Option<FriendshipStatus>)
    ensures r.Some? ==> StatusName(r.value) == text
  {
    if text == "pending" then Some(Pending)
    else if text == "accepted" then Some(Accepted)
    else if text == "rejected" then Some(Rejected)
    else None
  }

  /** Every status is stored as text that reads back as that status, and the
      three texts are distinct. */
  lemma StatusRoundTrip(s: FriendshipStatus)
    ensures ParseStatus(StatusName(s)) == Some(s)
  {
  }

  /** `notifications.type`. */
  datatype NotificationType = FriendRequest | FriendAccepted | NewEpisode | NewRating

  function NotificationTypeName(t: NotificationType): string {
    match t
    case FriendRequest => "friend_request"
    case FriendAccepted => "friend_accepted"
    case NewEpisode => "new_episode"
    case NewRating => "new_rating"
  }

  function ParseNotificationType(text: string): (r: Option<NotificationType>)
    ensures r.Some? ==> NotificationTypeName(r.value) == text
  {
    if text == "friend_request" then Some(FriendRequest)
    else if text == "friend_accepted" then Some(FriendAccepted)
    else if text == "new_episode" then Some(NewEpisode)
    else if text == "new_rating" then Some(NewRating)
    else None
  }

  lemma NotificationTypeRoundTrip(t: NotificationType)
    ensures ParseNotificationType(NotificationTypeName(t)) == Some(t)
  {
  }

  datatype Profile = Profile(
    id: Uuid,
    username: string,
    displayName: Option<string>,
    avatarUrl: Option<string>,
    bio: Option<string>,
    createdAt: Timestamp,
    updatedAt: Timestamp)

  /** A `movies` row: a film or a series, keyed by the external metadata id. */
  datatype MovieRow = MovieRow(
    id: Uuid,
    tmdbId: int,
    mediaType: MediaType,
    title: string,
    overview: Option<string>,
    posterPath: Option<string>,
    backdropPath: Option<string>,
    releaseDate: Option<Date>,
    voteAverage: Option<real>,
    genres: Option<seq<string>>,
    runtime: Option<int>,
    numberOfSeasons: Option<int>,
    createdAt: Timestamp,
    updatedAt: Timestamp)

  datatype Rating = Rating(
    id: Uuid,
    userId: Uuid,
    movieId: Uuid,
    score: int,
    comment: Option<string>,
    createdAt: Timestamp,
    updatedAt: Timestamp)

  datatype Friendship = Friendship(
    id: Uuid,
    requesterId: Uuid,
    addresseeId: Uuid,
    status: FriendshipStatus,
    createdAt: Timestamp,
    updatedAt: Timestamp)

  datatype Follow = Follow(id: Uuid, userId: Uuid, movieId: Uuid, createdAt: Timestamp)

  datatype Episode = Episode(
    id: Uuid,
    movieId: Uuid,
    seasonNumber: nat,
    episodeNumber: nat,
    name: Option<string>,
    overview: Option<string>,
    airDate: Option<Date>,
    stillPath: Option<string>,
    runtime: Option<int>,
    createdAt: Timestamp)

  /** The JSON `data` payload the friendship services attach to notifications. */
  datatype NotificationData =
    | NoData
    | RequestData(friendshipId: Uuid, requesterId: Uuid)
    | AcceptedData(acceptedFriendshipId: Uuid)

  datatype Notification = Notification(
    id: Uuid,
    userId: Uuid,
    ntype: NotificationType,
    title: string,
    body: Option<string>,
    data: NotificationData,
    read: bool,
    createdAt: Timestamp)

  /** A `streaming_providers` row; `tmdbProviderId` 0 is the "All" pseudo-provider. */
  datatype StreamingProvider = StreamingProvider(
    id: Uuid,
    tmdbProviderId: int,
    name: string,
    logoPath: Option<string>)

  /** A `user_streaming_providers` row: the user subscribes to the provider. */
  datatype Subscription = Subscription(userId: Uuid, providerId: Uuid)

  /** A `movie_providers` row: the title streams on the provider. */
  datatype MovieProvider = MovieProvider(movieId: Uuid, providerId: Uuid)

  /** `notifications` Update: only the read flag. */
  datatype NotificationUpdate = NotificationUpdate(read: Option<bool>)

  /** Applying a notification update changes at most the read flag. */
  function ApplyNotificationUpdate(n: Notification, u: NotificationUpdate): (r: Notification)
    ensures r.id == n.id && r.userId == n.userId && r.ntype == n.ntype
    ensures r.title == n.title && r.body == n.body && r.data == n.data
    ensures r.createdAt == n.createdAt
    ensures u.read.Some? ==> r.read == u.read.value
    ensures u.read.None? ==> r == n
  {
    match u.read
    case Some(b) => n.(read := b)
    case None => n
  }

  /** `friendships` Update: only the status and `updated_at`. */
  datatype FriendshipUpdate = FriendshipUpdate(
    status: Option<FriendshipStatus>,
    updatedAt: Option<Timestamp>)

  /** Applying a friendship update never changes who asked whom; it sets
      the status and `updated_at` it carries and keeps the others. */
  function ApplyFriendshipUpdate(f: Friendship, u: FriendshipUpdate): (r: Friendship)
    ensures r.id == f.id && r.requesterId == f.requesterId && r.addresseeId == f.addresseeId
    ensures r.createdAt == f.createdAt
    ensures u.status.Some? ==> r.status == u.status.value
    ensures u.status.None? ==> r.status == f.status
    ensures u.updatedAt.Some? ==> r.updatedAt == u.updatedAt.value
    ensures u.updatedAt.None? ==> r.updatedAt == f.updatedAt
  {
    f.(status := u.status.GetOr(f.status), updatedAt := u.updatedAt.GetOr(f.updatedAt))
  }

  /** `ratings` Update: score, comment and `updated_at` (the comment may be set
      to null, hence the nested option). */
  datatype RatingUpdate = RatingUpdate(
    score: Option<int>,
    comment: Option<Option<string>>,
    updatedAt: Option<Timestamp>)

  /** Applying a rating update never moves it to another user or title. */
  function ApplyRatingUpdate(x: Rating, u: RatingUpdate): (r: Rating)
    ensures r.id == x.id && r.userId == x.userId && r.movieId == x.movieId
    ensures r.createdAt == x.createdAt
    ensures u.score.Some? ==> r.score == u.score.value
    ensures u.comment.Some? ==> r.comment == u.comment.value
  {
    x.(score := u.score.GetOr(x.score),
       comment := u.comment.GetOr(x.comment),
       updatedAt := u.updatedAt.GetOr(x.updatedAt))
  }
}

=== FILE: search_route.dfy ===
/** `GET /api/tmdb/search` (app/api/tmdb/search/route.ts): a signed-in user's
    query is forwarded to the metadata search, and only films and series come
    back. The handler is split at the upstream call: `Route` decides whether
    to call it at all, `AfterSearch` turns its outcome into the response. */
module SearchRoute {
  import opened Wrappers
  import opened Seqs
  import opened Tmdb

  /** The JSON body: an error object or the filtered result page. */
  datatype Body = ErrorBody(error: string) | ResultsBody(results: seq<SearchResult>, totalResults: int)

  datatype Response = Response(status: int, body: Body)

  /** What the handler does before any upstream call: answer directly, or
      search for the query. */
  datatype Decision = Respond(response: Response) | SearchUpstream(query: string)

  const Unauthorized := Response(401, ErrorBody("Unauthorized"))
  const NoResults := Response(200, ResultsBody([], 0))
  const SearchFailed := Response(500, ErrorBody("Failed to search"))

  /** `!query`: the parameter is absent or empty. */
  predicate MissingQuery(query: Option<string>) {
    query.None? || query.value == ""
  }

  /** The early returns: a request without a user gets 401, one without a
      query an empty page; only a signed-in request with a query searches,
      and it searches for that exact query. */
  function Route(signedIn: bool, query: Option<string>): (d: Decision)
    ensures d.SearchUpstream? <==> signedIn && !MissingQuery(query)
    ensures d.SearchUpstream? ==> query == Some(d.query)
    ensures !signedIn ==> d == Respond(Unauthorized)
    ensures signedIn && MissingQuery(query) ==> d == Respond(NoResults)
  {
    if !signedIn then Respond(Unauthorized)
    else if MissingQuery(query) then Respond(NoResults)
    else SearchUpstream(query.value)
  }

  predicate IsMovieOrTv(r: SearchResult) {
    r.mediaType == SearchMovie || r.mediaType == SearchTv
  }

  function MovieOrTv(): SearchResult -> bool {
    (r: SearchResult) => IsMovieOrTv(r)
  }

  /** The response once the upstream search settled (`None`: it threw). People
      are dropped, films and series keep their order, and the total is the
      number of results returned. */
  function AfterSearch(upstream: Option<seq<SearchResult>>): (r: Response)
    ensures upstream.None? ==> r == SearchFailed
    ensures upstream.Some? ==>
      && r.status == 200 && r.body.ResultsBody?
      && (forall x :: x in r.body.results <==> x in upstream.value && x.mediaType != SearchPerson)
      && IsSubsequence(r.body.results, upstream.value)
      && r.body.totalResults == |r.body.results|
    ensures upstream.Some? ==> multiset(r.body.results) == multiset(Filter(upstream.value, MovieOrTv()))
  {
    match upstream
    case None => SearchFailed
    case Some(rs) =>
      var filtered := Filter(rs, MovieOrTv());
      FilterMembers(rs, MovieOrTv());
      FilterIsSubsequence(rs, MovieOrTv());
      Response(200, ResultsBody(filtered, |filtered|))
  }

  /** The whole handler, given the outcome the upstream search would have. */
  function Search(signedIn: bool, query: Option<string>, upstream: Option<seq<SearchResult>>)
    : (r: Response)
    ensures !signedIn ==> r == Unauthorized
    ensures signedIn && MissingQuery(query) ==> r == NoResults
    ensures signedIn && !MissingQuery(query) ==> r == AfterSearch(upstream)
  {
    match Route(signedIn, query)
    case Respond(response) => response
    case SearchUpstream(_) => AfterSearch(upstream)
  }
}

=== FILE: seqs.dfy ===
/** Sequence helpers shared by the table and list models: `Array.prototype.filter`,
    `Array.prototype.map` for the element-wise views, de-duplication through a
    JavaScript `Set`, and the "is a subsequence of" relation used to state that
    a filter keeps the input order. */
module Seqs {
  import opened Wrappers

  /** `s.filter(p)`: the elements of `s` satisfying `p`, in their original order. */
  function Filter<T>(s: seq<T>, p: T -> bool): (r: seq<T>)
    ensures |r| <= |s|
    ensures forall i :: 0 <= i < |r| ==> r[i] in s && p(r[i])
    ensures forall i :: 0 <= i < |s| && p(s[i]) ==> s[i] in r
    decreases |s|
  {
    if s == [] then []
    else Filter(s[..|s| - 1], p) + (if p(s[|s| - 1]) then [s[|s| - 1]] else [])
  }

  lemma {:induction false} FilterAppend<T>(a: seq<T>, b: seq<T>, p: T -> bool)
    ensures Filter(a + b, p) == Filter(a, p) + Filter(b, p)
    decreases |b|
  {
    if b == [] {
      assert a + b == a;
    } else {
      var b' := b[..|b| - 1];
      assert (a + b)[..|a + b| - 1] == a + b';
      assert (a + b)[|a + b| - 1] == b[|b| - 1];
      FilterAppend(a, b', p);
    }
  }

  /** The elements of a filtered sequence are those of `s` that satisfy `p`. */
  lemma FilterMembers<T>(s: seq<T>, p: T -> bool)
    ensures forall x :: x in Filter(s, p) <==> x in s && p(x)
  {
    forall x | x in s && p(x) ensures x in Filter(s, p) {
      var i :| 0 <= i < |s| && s[i] == x;
    }
  }

  /** Filtering by a weaker predicate first does not change a filter by a
      stronger one. */
  lemma {:induction false} FilterWeakerFirst<T>(s: seq<T>, p: T -> bool, q: T -> bool)
    requires forall x :: q(x) ==> p(x)
    ensures Filter(Filter(s, p), q) == Filter(s, q)
    decreases |s|
  {
    if s != [] {
      var s' := s[..|s| - 1];
      var x := s[|s| - 1];
      FilterWeakerFirst(s', p, q);
      FilterAppend(Filter(s', p), if p(x) then [x] else [], q);
    }
  }

  /** Filtering with a predicate every element satisfies changes nothing. */
  lemma {:induction false} FilterAll<T>(s: seq<T>, p: T -> bool)
    requires forall i :: 0 <= i < |s| ==> p(s[i])
    ensures Filter(s, p) == s
    decreases |s|
  {
    if s != [] {
      FilterAll(s[..|s| - 1], p);
      assert s[..|s| - 1] + [s[|s| - 1]] == s;
    }
  }

  /** Filtering with a predicate no element satisfies leaves nothing. */
  lemma FilterNone<T>(s: seq<T>, p: T -> bool)
    requires forall i :: 0 <= i < |s| ==> !p(s[i])
    ensures Filter(s, p) == []
  {
  }

  /** When exactly one position satisfies `p`, filtering yields that element alone. */
  lemma {:induction false} FilterSingleton<T>(s: seq<T>, p: T -> bool, i: nat)
    requires i < |s| && p(s[i])
    requires forall j :: 0 <= j < |s| && p(s[j]) ==> j == i
    ensures Filter(s, p) == [s[i]]
    decreases |s|
  {
    var s' := s[..|s| - 1];
    if i == |s| - 1 {
      FilterNone(s', p);
    } else {
      FilterSingleton(s', p, i);
    }
  }

  /** Two positions satisfying `p` leave at least two elements after filtering. */
  lemma {:induction false} FilterTwo<T>(s: seq<T>, p: T -> bool, i: nat, j: nat)
    requires i < j < |s| && p(s[i]) && p(s[j])
    ensures |Filter(s, p)| >= 2
    decreases |s|
  {
    var s' := s[..|s| - 1];
    assert s'[i] == s[i];
    if j < |s| - 1 {
      assert s'[j] == s[j];
      FilterTwo(s', p, i, j);
    }
  }

  /** A non-empty sequence is its prefix followed by its last element. */
  lemma LastSplit<T>(s: seq<T>)
    requires s != []
    ensures s[..|s| - 1] + [s[|s| - 1]] == s
  {
  }

  /** `b` agrees with `a` where the filter keeps, and at most appends one
      rejected element: both filter alike. */
  lemma FilterGrowRejected<T>(a: seq<T>, b: seq<T>, p: T -> bool)
    requires |a| <= |b| <= |a| + 1
    requires forall i :: 0 <= i < |a| ==> p(a[i]) == p(b[i])
    requires forall i :: 0 <= i < |a| && p(a[i]) ==> a[i] == b[i]
    requires |b| == |a| + 1 ==> !p(b[|a|])
    ensures Filter(b, p) == Filter(a, p)
  {
    if |b| == |a| {
      FilterSameOutside(a, b, p);
    } else {
      var prefix := b[..|a|];
      forall i | 0 <= i < |a| ensures p(a[i]) == p(prefix[i]) && (p(a[i]) ==> a[i] == prefix[i]) {
        assert prefix[i] == b[i];
      }
      FilterSameOutside(a, prefix, p);
      assert Filter(b, p) == Filter(prefix, p);
    }
  }

  /** Two sequences of one length that differ only at positions `p` rejects
      filter identically. */
  lemma {:induction false} FilterSameOutside<T>(a: seq<T>, b: seq<T>, p: T -> bool)
    requires |a| == |b|
    requires forall i :: 0 <= i < |a| ==> p(a[i]) == p(b[i])
    requires forall i :: 0 <= i < |a| && p(a[i]) ==> a[i] == b[i]
    ensures Filter(a, p) == Filter(b, p)
    decreases |a|
  {
    if a != [] {
      FilterSameOutside(a[..|a| - 1], b[..|b| - 1], p);
    }
  }

  /** Two predicates that agree on the elements of `s` filter it identically. */
  lemma {:induction false} FilterExt<T>(s: seq<T>, p: T -> bool, q: T -> bool)
    requires forall i :: 0 <= i < |s| ==> p(s[i]) == q(s[i])
    ensures Filter(s, p) == Filter(s, q)
    decreases |s|
  {
    if s != [] {
      FilterExt(s[..|s| - 1], p, q);
    }
  }

  /** The first position whose element satisfies `p`, if any. */
  function IndexWhere<T>(s: seq<T>, p: T -> bool): (r: Option<nat>)
    ensures r.Some? ==> r.value < |s| && p(s[r.value])
    ensures r.Some? ==> forall j :: 0 <= j < r.value ==> !p(s[j])
    ensures r.None? <==> forall j :: 0 <= j < |s| ==> !p(s[j])
    decreases |s|
  {
    if s == [] then None
    else if p(s[0]) then Some(0)
    else
      match IndexWhere(s[1..], p)
      case Some(k) => Some(k + 1)
      case None => None
  }

  /** Sequences with the same multiset have the same members. */
  lemma SameMembers<T>(a: seq<T>, b: seq<T>)
    requires multiset(a) == multiset(b)
    ensures forall x :: x in a <==> x in b
  {
    forall x ensures x in a <==> x in b {
      assert x in a <==> x in multiset(a);
      assert x in b <==> x in multiset(b);
    }
  }

  /** Sequences with the same multiset: each element of one occurs in the other. */
  lemma SameElements<T>(a: seq<T>, b: seq<T>)
    requires multiset(a) == multiset(b)
    ensures forall i :: 0 <= i < |a| ==> a[i] in b
    ensures forall i :: 0 <= i < |b| ==> b[i] in a
  {
    forall i | 0 <= i < |a| ensures a[i] in b {
      assert a[i] in multiset(a);
    }
    forall i | 0 <= i < |b| ensures b[i] in a {
      assert b[i] in multiset(b);
    }
  }

  /** No element occurs twice. */
  predicate NoDup<T(==)>(s: seq<T>) {
    forall i, j :: 0 <= i < j < |s| ==> s[i] != s[j]
  }

  lemma {:induction false} FilterNoDup<T>(s: seq<T>, p: T -> bool)
    requires NoDup(s)
    ensures NoDup(Filter(s, p))
    decreases |s|
  {
    if s != [] {
      var s' := s[..|s| - 1];
      assert NoDup(s');
      FilterNoDup(s', p);
      assert s[|s| - 1] !in s';
    }
  }

  /** `[...new Set(s)]`: the distinct elements of `s`, each at the position of
      its first occurrence (a JavaScript `Set` iterates in insertion order). */
  function Dedupe<T(==)>(s: seq<T>): (r: seq<T>)
    ensures NoDup(r)
    ensures forall i :: 0 <= i < |r| ==> r[i] in s
    ensures forall i :: 0 <= i < |s| ==> s[i] in r
    ensures |r| <= |s|
    decreases |s|
  {
    if s == [] then []
    else
      var d := Dedupe(s[..|s| - 1]);
      if s[|s| - 1] in d then d else d + [s[|s| - 1]]
  }

  /** `sub` is obtained from `s` by deleting elements: the order of `s` is kept. */
  ghost predicate IsSubsequence<T>(sub: seq<T>, s: seq<T>)
    decreases |s|
  {
    if sub == [] then true
    else if s == [] then false
    else if sub[|sub| - 1] == s[|s| - 1] then IsSubsequence(sub[..|sub| - 1], s[..|s| - 1])
    else IsSubsequence(sub, s[..|s| - 1])
  }

  lemma {:induction false} FilterIsSubsequence<T>(s: seq<T>, p: T -> bool)
    ensures IsSubsequence(Filter(s, p), s)
    decreases |s|
  {
    if s != [] {
      var s' := s[..|s| - 1];
      FilterIsSubsequence(s', p);
      var f := Filter(s', p);
      if p(s[|s| - 1]) {
        assert (f + [s[|s| - 1]])[..|f|] == f;
      } else {
        assert Filter(s, p) == f;
        SubsequenceOfPrefix(f, s);
      }
    }
  }

  /** Every sequence is a subsequence of itself. */
  lemma {:induction false} SubsequenceRefl<T>(s: seq<T>)
    ensures IsSubsequence(s, s)
    decreases |s|
  {
    if s != [] {
      SubsequenceRefl(s[..|s| - 1]);
    }
  }

  /** A subsequence of a prefix is a subsequence of the whole. */
  lemma {:induction false} SubsequenceOfPrefix<T>(sub: seq<T>, s: seq<T>)
    requires s != []
    requires IsSubsequence(sub, s[..|s| - 1])
    ensures IsSubsequence(sub, s)
    decreases |s|, |sub|
  {
    if sub != [] && sub[|sub| - 1] == s[|s| - 1] {
      var s' := s[..|s| - 1];
      SubsequenceDropLast(sub, s');
    }
  }

  /** Deleting the last element of a subsequence leaves a subsequence. */
  lemma {:induction false} SubsequenceDropLast<T>(sub: seq<T>, s: seq<T>)
    requires sub != []
    requires IsSubsequence(sub, s)
    ensures IsSubsequence(sub[..|sub| - 1], s)
    decreases |s|, |sub|
  {
    assert s != [];
    var sub' := sub[..|sub| - 1];
    if sub[|sub| - 1] == s[|s| - 1] {
      if sub' != [] {
        SubsequenceOfPrefix(sub', s);
      }
    } else {
      SubsequenceDropLast(sub, s[..|s| - 1]);
      if sub' != [] {
        SubsequenceOfPrefix(sub', s);
      }
    }
  }

  /** The number of elements of `s` satisfying `p`. */
  function CountWhere<T>(s: seq<T>, p: T -> bool): (n: nat)
    ensures n <= |s|
    ensures n == |Filter(s, p)|
    decreases |s|
  {
    if s == [] then 0
    else CountWhere(s[..|s| - 1], p) + (if p(s[|s| - 1]) then 1 else 0)
  }

  /** Sum of a function over a sequence. */
  function SumOf<T>(s: seq<T>, f: T -> int): int
    decreases |s|
  {
    if s == [] then 0 else SumOf(s[..|s| - 1], f) + f(s[|s| - 1])
  }
}

=== FILE: sorting.dfy ===
/** Ordering of result lists: the comparator sort the provider grids run in
    the browser and the `order(...)` clauses of database queries. Both are
    modelled by one stable insertion sort over a "sorts no later than"
    relation; the database leaves the order of equal keys unspecified, and the
    model fixes it to the input order. */
module Sorting {

  /** `le` is total and transitive, so it orders any list consistently. */
  ghost predicate TotalPreorder<T(!new)>(le: (T, T) -> bool) {
    && (forall a, b :: le(a, b) || le(b, a))
    && (forall a, b, c :: le(a, b) && le(b, c) ==> le(a, c))
  }

  ghost predicate SortedBy<T>(s: seq<T>, le: (T, T) -> bool) {
    forall i, j :: 0 <= i < j < |s| ==> le(s[i], s[j])
  }

  /** Inserts `x` before the first element it sorts no later than. */
  function InsertBy<T>(x: T, s: seq<T>, le: (T, T) -> bool): (r: seq<T>)
    ensures |r| == |s| + 1
    ensures multiset(r) == multiset(s) + multiset{x}
    decreases |s|
  {
    if s == [] then [x]
    else if le(x, s[0]) then [x] + s
    else
      assert s == [s[0]] + s[1..];
      [s[0]] + InsertBy(x, s[1..], le)
  }

  /** Insertion sort of `s` under `le`. */
  function SortBy<T>(s: seq<T>, le: (T, T) -> bool): (r: seq<T>)
    ensures |r| == |s|
    ensures multiset(r) == multiset(s)
    decreases |s|
  {
    if s == [] then []
    else
      assert s == [s[0]] + s[1..];
      InsertBy(s[0], SortBy(s[1..], le), le)
  }

  lemma {:induction false} InsertBySorted<T(!new)>(x: T, s: seq<T>, le: (T, T) -> bool)
    requires TotalPreorder(le)
    requires SortedBy(s, le)
    ensures SortedBy(InsertBy(x, s, le), le)
    decreases |s|
  {
    if s != [] && !le(x, s[0]) {
      assert le(s[0], x);
      var tail := InsertBy(x, s[1..], le);
      InsertBySorted(x, s[1..], le);
      var r := [s[0]] + tail;
      forall j | 0 < j < |r| ensures le(s[0], r[j]) {
        assert r[j] in multiset(tail);
        assert r[j] in multiset(s[1..]) + multiset{x};
        if r[j] != x {
          assert r[j] in s[1..];
          var k :| 0 <= k < |s[1..]| && s[1..][k] == r[j];
          assert s[k + 1] == r[j];
        }
      }
    }
  }

  /** The sorted list is ordered by `le`. */
  lemma {:induction false} SortBySorted<T(!new)>(s: seq<T>, le: (T, T) -> bool)
    requires TotalPreorder(le)
    ensures SortedBy(SortBy(s, le), le)
    decreases |s|
  {
    if s != [] {
      SortBySorted(s[1..], le);
      InsertBySorted(s[0], SortBy(s[1..], le), le);
    }
  }
}

=== FILE: subscriptions.dfy ===
/** The streaming-subscription services (services/subscriptions.ts): reading
    and replacing a user's rows of `user_streaming_providers`, and the
    provider filter the feed and search apply. */
module Subscriptions {
  import opened Wrappers
  import opened Schema
  import opened Seqs
  import Providers

  function OfUser(userId: Uuid): Subscription -> bool {
    (s: Subscription) => s.userId == userId
  }

  function NotOfUser(userId: Uuid): Subscription -> bool {
    (s: Subscription) => s.userId != userId
  }

  function ProviderIdsOf(rows: seq<Subscription>): (ids: seq<Uuid>)
    ensures |ids| == |rows|
    ensures forall k :: 0 <= k < |rows| ==> ids[k] == rows[k].providerId
  {
    seq(|rows|, k requires 0 <= k < |rows| => rows[k].providerId)
  }

  /** `getUserSubscribedProviderIds`: the provider ids of the user's rows, in
      table order; a failed query (or no data) reads as no subscriptions. */
  function SubscribedProviderIds(table: seq<Subscription>, userId: Uuid, queryOk: bool)
    : (ids: seq<Uuid>)
    ensures !queryOk ==> ids == []
    ensures queryOk ==> forall x :: x in ids <==> Subscription(userId, x) in table
  {
    if !queryOk then []
    else
      var rows := Filter(table, OfUser(userId));
      var ids := ProviderIdsOf(rows);
      FilterMembers(table, OfUser(userId));
      assert forall x :: x in ids ==> Subscription(userId, x) in rows by {
        forall x | x in ids ensures Subscription(userId, x) in rows {
          var k :| 0 <= k < |ids| && ids[k] == x;
          assert rows[k] == Subscription(userId, x);
        }
      }
      assert forall x :: Subscription(userId, x) in rows ==> x in ids by {
        forall x | Subscription(userId, x) in rows ensures x in ids {
          var k :| 0 <= k < |rows| && rows[k] == Subscription(userId, x);
          assert ids[k] == x;
        }
      }
      ids
  }

  function RowsFor(userId: Uuid, providerIds: seq<Uuid>): (rows: seq<Subscription>)
    ensures |rows| == |providerIds|
    ensures forall k :: 0 <= k < |rows| ==> rows[k] == Subscription(userId, providerIds[k])
  {
    seq(|providerIds|, k requires 0 <= k < |providerIds| => Subscription(userId, providerIds[k]))
  }

  /** The table after a subscription write, and the error it returns. */
  datatype SetResult = SetResult(table: seq<Subscription>, error: Option<DbError>)

  /** `setUserSubscriptions`: delete all of the user's rows, then insert one row
      per id. A failed delete returns at once; an empty list skips the insert;
      a failed insert (one statement, so nothing of it is stored) leaves the
      user with no rows at all. */
  function SetUserSubscriptions(
    table: seq<Subscription>, userId: Uuid, providerIds: seq<Uuid>,
    deleteError: Option<DbError>, insertError: Option<DbError>): (r: SetResult)
    ensures deleteError.Some? ==> r == SetResult(table, deleteError)
    ensures deleteError.None? && providerIds == [] ==> r.error.None?
    ensures deleteError.None? && providerIds != [] ==> r.error == insertError
    ensures deleteError.None? ==>
      r.table == Filter(table, NotOfUser(userId))
                 + (if providerIds != [] && insertError.None? then RowsFor(userId, providerIds) else [])
  {
    if deleteError.Some? then SetResult(table, deleteError)
    else
      var kept := Filter(table, NotOfUser(userId));
      if |providerIds| == 0 then SetResult(kept, None)
      else if insertError.Some? then SetResult(kept, insertError)
      else SetResult(kept + RowsFor(userId, providerIds), None)
  }

  /** After a successful write the user's subscriptions read back as exactly
      the ids written, in order. */
  lemma SetThenGet(table: seq<Subscription>, userId: Uuid, providerIds: seq<Uuid>)
    ensures var r := SetUserSubscriptions(table, userId, providerIds, None, None);
      r.error.None? && SubscribedProviderIds(r.table, userId, true) == providerIds
  {
    var r := SetUserSubscriptions(table, userId, providerIds, None, None);
    var kept := Filter(table, NotOfUser(userId));
    var rows := RowsFor(userId, providerIds);
    assert r.table == kept + rows by {
      if providerIds == [] {
        assert rows == [];
      }
    }
    ReadBack(table, userId, providerIds);
  }

  /** The rows of other users, then the user's new rows, read back as the
      ids written. */
  lemma ReadBack(table: seq<Subscription>, userId: Uuid, providerIds: seq<Uuid>)
    ensures SubscribedProviderIds(Filter(table, NotOfUser(userId)) + RowsFor(userId, providerIds),
                                  userId, true) == providerIds
  {
    var kept := Filter(table, NotOfUser(userId));
    var rows := RowsFor(userId, providerIds);
    KeptHasNone(table, userId);
    FilterAppend(kept, rows, OfUser(userId));
    FilterNone(kept, OfUser(userId));
    FilterAll(rows, OfUser(userId));
    assert Filter(kept + rows, OfUser(userId)) == rows;
    SubscribedIdsOfRows(kept + rows, userId);
    assert ProviderIdsOf(rows) == providerIds;
  }

  /** A successful read lists the provider ids of the user's rows. */
  lemma SubscribedIdsOfRows(table: seq<Subscription>, userId: Uuid)
    ensures SubscribedProviderIds(table, userId, true) == ProviderIdsOf(Filter(table, OfUser(userId)))
  {
  }

  /** After the delete no row of the user is left. */
  lemma KeptHasNone(table: seq<Subscription>, userId: Uuid)
    ensures forall i :: 0 <= i < |Filter(table, NotOfUser(userId))| ==>
      !OfUser(userId)(Filter(table, NotOfUser(userId))[i])
  {
    var kept := Filter(table, NotOfUser(userId));
    FilterMembers(table, NotOfUser(userId));
    forall i | 0 <= i < |kept| ensures !OfUser(userId)(kept[i]) {
      assert kept[i] in kept;
    }
  }

  /** A write for one user leaves every other user's rows as they were, even
      when it fails. */
  lemma SetLeavesOthers(
    table: seq<Subscription>, userId: Uuid, providerIds: seq<Uuid>,
    deleteError: Option<DbError>, insertError: Option<DbError>, other: Uuid)
    requires other != userId
    ensures Filter(SetUserSubscriptions(table, userId, providerIds, deleteError, insertError).table,
                   OfUser(other))
         == Filter(table, OfUser(other))
  {
    if deleteError.None? {
      var kept := Filter(table, NotOfUser(userId));
      var added := if providerIds != [] && insertError.None? then RowsFor(userId, providerIds) else [];
      FilterAppend(kept, added, OfUser(other));
      FilterNone(added, OfUser(other));
      FilterOfFilter(table, userId, other);
    }
  }

  lemma {:induction false} FilterOfFilter(table: seq<Subscription>, userId: Uuid, other: Uuid)
    requires other != userId
    ensures Filter(Filter(table, NotOfUser(userId)), OfUser(other)) == Filter(table, OfUser(other))
    decreases |table|
  {
    if table != [] {
      var t' := table[..|table| - 1];
      var x := table[|table| - 1];
      FilterOfFilter(t', userId, other);
      FilterAppend(Filter(t', NotOfUser(userId)), if x.userId != userId then [x] else [],
                   OfUser(other));
    }
  }

  /** The `tmdb_provider_id` of the provider a subscription row points to, as
      the embedded `streaming_providers(tmdb_provider_id)` selects it; `None`
      when no provider row has that id. */
  function EmbeddedTmdbId(providers: seq<StreamingProvider>, providerId: Uuid): (r: Option<int>)
    ensures r.Some? ==> exists k :: 0 <= k < |providers| && providers[k].id == providerId
                                    && providers[k].tmdbProviderId == r.value
    ensures r.None? ==> forall k :: 0 <= k < |providers| ==> providers[k].id != providerId
  {
    match IndexWhere(providers, (p: StreamingProvider) => p.id == providerId)
    case Some(k) => Some(providers[k].tmdbProviderId)
    case None => None
  }

  /** Some subscription of the list points to the "All" provider. */
  predicate HasAll(subs: seq<Subscription>, providers: seq<StreamingProvider>) {
    exists k :: 0 <= k < |subs|
      && EmbeddedTmdbId(providers, subs[k].providerId) == Some(Providers.AllTmdbId)
  }

  function OnProviders(ids: seq<Uuid>): MovieProvider -> bool {
    (mp: MovieProvider) => mp.providerId in ids
  }

  function MovieIdsOf(rows: seq<MovieProvider>): (ids: seq<Uuid>)
    ensures |ids| == |rows|
    ensures forall k :: 0 <= k < |rows| ==> ids[k] == rows[k].movieId
  {
    seq(|rows|, k requires 0 <= k < |rows| => rows[k].movieId)
  }

  /** `getFilteredMovieIds`: `None` (no filtering) when the user has no
      subscription rows (or the query gave no data) or subscribes to "All";
      otherwise the distinct movies available on a subscribed provider, `[]`
      when none is (or the second query gave no data). */
  function GetFilteredMovieIds(
    subs: seq<Subscription>, providers: seq<StreamingProvider>,
    movieProviders: seq<MovieProvider>, userId: Uuid,
    subsLoaded: bool, movieProvidersLoaded: bool): (r: Option<seq<Uuid>>)
    ensures r.None? <==>
      !subsLoaded || Filter(subs, OfUser(userId)) == [] || HasAll(Filter(subs, OfUser(userId)), providers)
    ensures r.Some? ==> NoDup(r.value)
    ensures r.Some? && !movieProvidersLoaded ==> r.value == []
    ensures r.Some? && movieProvidersLoaded ==>
      forall m :: m in r.value <==>
        exists k :: 0 <= k < |movieProviders| && movieProviders[k].movieId == m
          && Subscription(userId, movieProviders[k].providerId) in subs
  {
    var mine := Filter(subs, OfUser(userId));
    if !subsLoaded || |mine| == 0 then None
    else if HasAll(mine, providers) then None
    else
      var ids := ProviderIdsOf(mine);
      var available := Filter(movieProviders, OnProviders(ids));
      if !movieProvidersLoaded || |available| == 0 then
        assert movieProvidersLoaded ==>
          forall k :: 0 <= k < |movieProviders| ==>
            Subscription(userId, movieProviders[k].providerId) !in subs
        by {
          FilterMembers(subs, OfUser(userId));
          forall k | 0 <= k < |movieProviders|
            ensures movieProvidersLoaded ==> Subscription(userId, movieProviders[k].providerId) !in subs
          {
            SubscribedIdsOf(mine, movieProviders[k].providerId);
          }
        }
        Some([])
      else
        var movieIds := Dedupe(MovieIdsOf(available));
        FilteredMembers(subs, mine, userId, movieProviders, available, movieIds);
        Some(movieIds)
  }

  /** A provider id occurs among the ids of the user's rows exactly when the
      user has a row for it. */
  lemma SubscribedIdsOf(mine: seq<Subscription>, providerId: Uuid)
    ensures providerId in ProviderIdsOf(mine) <==>
      exists k :: 0 <= k < |mine| && mine[k].providerId == providerId
  {
    var ids := ProviderIdsOf(mine);
    if providerId in ids {
      var k :| 0 <= k < |ids| && ids[k] == providerId;
    }
  }

  lemma FilteredMembers(
    subs: seq<Subscription>, mine: seq<Subscription>, userId: Uuid,
    movieProviders: seq<MovieProvider>, available: seq<MovieProvider>, movieIds: seq<Uuid>)
    requires mine == Filter(subs, OfUser(userId))
    requires available == Filter(movieProviders, OnProviders(ProviderIdsOf(mine)))
    requires movieIds == Dedupe(MovieIdsOf(available))
    ensures forall m :: m in movieIds <==>
      exists k :: 0 <= k < |movieProviders| && movieProviders[k].movieId == m
        && Subscription(userId, movieProviders[k].providerId) in subs
  {
    forall m | m in movieIds
      ensures exists k :: 0 <= k < |movieProviders| && movieProviders[k].movieId == m
                && Subscription(userId, movieProviders[k].providerId) in subs
    {
      FilteredMovieIsAvailable(subs, mine, userId, movieProviders, available, movieIds, m);
    }
    forall k | 0 <= k < |movieProviders|
               && Subscription(userId, movieProviders[k].providerId) in subs
      ensures movieProviders[k].movieId in movieIds
    {
      AvailableMovieIsFiltered(subs, mine, userId, movieProviders, available, movieIds, k);
    }
  }

  lemma FilteredMovieIsAvailable(
    subs: seq<Subscription>, mine: seq<Subscription>, userId: Uuid,
    movieProviders: seq<MovieProvider>, available: seq<MovieProvider>, movieIds: seq<Uuid>, m: Uuid)
    requires mine == Filter(subs, OfUser(userId))
    requires available == Filter(movieProviders, OnProviders(ProviderIdsOf(mine)))
    requires movieIds == Dedupe(MovieIdsOf(available))
    requires m in movieIds
    ensures exists k :: 0 <= k < |movieProviders| && movieProviders[k].movieId == m
              && Subscription(userId, movieProviders[k].providerId) in subs
  {
    var all := MovieIdsOf(available);
    var j :| 0 <= j < |movieIds| && movieIds[j] == m;
    assert m in all;
    var i :| 0 <= i < |all| && all[i] == m;
    var mp := available[i];
    assert mp in movieProviders && mp.providerId in ProviderIdsOf(mine);
    var k :| 0 <= k < |movieProviders| && movieProviders[k] == mp;
    SubscribedIdsOf(mine, mp.providerId);
    var r :| 0 <= r < |mine| && mine[r].providerId == mp.providerId;
    assert mine[r] in subs && mine[r].userId == userId;
    assert mine[r] == Subscription(userId, mp.providerId);
  }

  lemma AvailableMovieIsFiltered(
    subs: seq<Subscription>, mine: seq<Subscription>, userId: Uuid,
    movieProviders: seq<MovieProvider>, available: seq<MovieProvider>, movieIds: seq<Uuid>, k: nat)
    requires mine == Filter(subs, OfUser(userId))
    requires available == Filter(movieProviders, OnProviders(ProviderIdsOf(mine)))
    requires movieIds == Dedupe(MovieIdsOf(available))
    requires k < |movieProviders| && Subscription(userId, movieProviders[k].providerId) in subs
    ensures movieProviders[k].movieId in movieIds
  {
    var mp := movieProviders[k];
    var x := Subscription(userId, mp.providerId);
    var s :| 0 <= s < |subs| && subs[s] == x;
    assert OfUser(userId)(subs[s]);
    assert x in mine;
    var r :| 0 <= r < |mine| && mine[r] == x;
    SubscribedIdsOf(mine, mp.providerId);
    assert OnProviders(ProviderIdsOf(mine))(movieProviders[k]);
    assert mp in available;
    var j :| 0 <= j < |available| && available[j] == mp;
    var all := MovieIdsOf(available);
    assert all[j] == mp.movieId;
  }
}

=== FILE: text.dfy ===
/** String operations the components use: `String(n)` on a non-negative integer,
    `padStart`, `startsWith`, `slice(0, k)`, `trim`, and the name order that
    stands in for `localeCompare`. Strings are sequences of Unicode scalar
    values (Dafny `char`); these agree with JavaScript's UTF-16 code units on
    text inside the Basic Multilingual Plane, which covers the digits and
    dates whose lengths matter here. */
module Text {

  predicate IsDigit(c: char) {
    '0' <= c <= '9'
  }

  predicate AllDigits(s: string) {
    forall i :: 0 <= i < |s| ==> IsDigit(s[i])
  }

  function DigitChar(d: nat): (c: char)
    requires d < 10
    ensures IsDigit(c)
  {
    (('0' as int) + d) as char
  }

  function DigitValue(c: char): (d: nat)
    requires IsDigit(c)
    ensures d < 10
  {
    (c as int) - ('0' as int)
  }

  /** `String(n)` for a non-negative integer: its decimal digits, no leading zero. */
  function NatToString(n: nat): (s: string)
    ensures 1 <= |s|
    ensures AllDigits(s)
    ensures |s| == 1 <==> n < 10
    ensures n >= 10 ==> s[0] != '0'
    decreases n
  {
    if n < 10 then [DigitChar(n)] else NatToString(n / 10) + [DigitChar(n % 10)]
  }

  /** `String(n)` for any integer: a leading `-` when negative. */
  function IntToString(n: int): (s: string)
    ensures n >= 0 ==> s == NatToString(n)
    ensures n < 0 ==> s == "-" + NatToString(-n)
  {
    if n < 0 then "-" + NatToString(-n) else NatToString(n)
  }

  /** The number a digit string denotes (leading zeros allowed). */
  function DigitsValue(s: string): nat
    requires AllDigits(s)
    decreases |s|
  {
    if s == [] then 0 else 10 * DigitsValue(s[..|s| - 1]) + DigitValue(s[|s| - 1])
  }

  /** Reading back the decimal rendering gives the number. */
  lemma {:induction false} NatToStringRoundTrip(n: nat)
    ensures DigitsValue(NatToString(n)) == n
    decreases n
  {
    var s := NatToString(n);
    if n >= 10 {
      NatToStringRoundTrip(n / 10);
      assert s[..|s| - 1] == NatToString(n / 10);
    }
  }

  /** Leading zeros do not change the value of a digit string. */
  lemma {:induction false} LeadingZeroValue(s: string)
    requires AllDigits(s)
    ensures AllDigits("0" + s)
    ensures DigitsValue("0" + s) == DigitsValue(s)
    decreases |s|
  {
    if s != [] {
      var s' := s[..|s| - 1];
      assert ("0" + s)[..|"0" + s| - 1] == "0" + s';
      LeadingZeroValue(s');
    }
  }

  /** `s.padStart(width, pad)`: `pad` repeated in front of `s` up to `width`
      characters; a string already that long is returned unchanged. */
  function PadStart(s: string, width: nat, pad: char): (r: string)
    ensures |r| == if |s| >= width then |s| else width
    ensures r[|r| - |s|..] == s
    ensures forall i :: 0 <= i < |r| - |s| ==> r[i] == pad
  {
    if |s| >= width then s
    else
      var r := seq(width - |s|, _ => pad) + s;
      assert r[width - |s|..] == s;
      r
  }

  /** `s.startsWith(prefix)`. */
  predicate StartsWith(s: string, prefix: string) {
    |prefix| <= |s| && s[..|prefix|] == prefix
  }

  /** `s.slice(0, k)`: at most the first `k` characters. */
  function Take(s: string, k: nat): (r: string)
    ensures |r| == if |s| < k then |s| else k
    ensures StartsWith(s, r)
  {
    if |s| <= k then s else s[..k]
  }

  /** The characters `String.prototype.trim` removes: the white space and
      line terminators of ECMAScript (sections 12.2 and 12.3 of ECMA-262),
      that is tab, vertical tab, form feed, the byte-order mark, the space
      separators of Unicode category Zs, line feed, carriage return, and the
      line and paragraph separators. */
  predicate IsWhitespace(c: char) {
    c == '\t' || c == '\n' || c == '\U{000B}' || c == '\U{000C}' || c == '\r' || c == ' '
    || c == '\U{00A0}' || c == '\U{1680}' || ('\U{2000}' <= c <= '\U{200A}')
    || c == '\U{2028}' || c == '\U{2029}' || c == '\U{202F}' || c == '\U{205F}'
    || c == '\U{3000}' || c == '\U{FEFF}'
  }

  function TrimStart(s: string): string
    decreases |s|
  {
    if s != [] && IsWhitespace(s[0]) then TrimStart(s[1..]) else s
  }

  function TrimEnd(s: string): string
    decreases |s|
  {
    if s != [] && IsWhitespace(s[|s| - 1]) then TrimEnd(s[..|s| - 1]) else s
  }

  /** `s.trim()`. */
  function Trim(s: string): string {
    TrimEnd(TrimStart(s))
  }

  /** Every character is white space: the queries the search boxes treat as empty. */
  predicate IsBlank(s: string) {
    forall i :: 0 <= i < |s| ==> IsWhitespace(s[i])
  }

  /** `!s.trim()` holds exactly for blank strings. */
  lemma TrimEmptyIffBlank(s: string)
    ensures Trim(s) == "" <==> IsBlank(s)
  {
    TrimStartBlank(s);
    TrimEndKeepsNonBlank(TrimStart(s));
  }

  lemma {:induction false} TrimStartBlank(s: string)
    ensures TrimStart(s) == "" <==> IsBlank(s)
    ensures TrimStart(s) != "" ==> !IsWhitespace(TrimStart(s)[0])
    decreases |s|
  {
    if s != [] && IsWhitespace(s[0]) {
      TrimStartBlank(s[1..]);
      assert IsBlank(s) <==> IsBlank(s[1..]) by {
        if IsBlank(s[1..]) {
          forall i | 0 <= i < |s| ensures IsWhitespace(s[i]) {
            if i > 0 { assert s[i] == s[1..][i - 1]; }
          }
        }
      }
    }
  }

  /** Trimming the end of a string that starts with a non-white-space code
      unit cannot make it empty. */
  lemma {:induction false} TrimEndKeepsNonBlank(s: string)
    ensures s != [] && !IsWhitespace(s[0]) ==> TrimEnd(s) != ""
    decreases |s|
  {
    if s != [] && !IsWhitespace(s[0]) && IsWhitespace(s[|s| - 1]) {
      TrimEndKeepsNonBlank(s[..|s| - 1]);
    }
  }

  /** Lexicographic order on scalar values: the total order this model uses in place
      of the locale-dependent `String.prototype.localeCompare`. */
  predicate LexLe(a: string, b: string)
    decreases |a|
  {
    a == [] || (b != [] && (a[0] < b[0] || (a[0] == b[0] && LexLe(a[1..], b[1..]))))
  }

  lemma {:induction false} LexLeTotal(a: string, b: string)
    ensures LexLe(a, b) || LexLe(b, a)
    decreases |a|
  {
    if a != [] && b != [] && a[0] == b[0] {
      LexLeTotal(a[1..], b[1..]);
    }
  }

  lemma {:induction false} LexLeTransitive(a: string, b: string, c: string)
    requires LexLe(a, b) && LexLe(b, c)
    ensures LexLe(a, c)
    decreases |a|
  {
    if a != [] && a[0] == b[0] && b[0] == c[0] {
      LexLeTransitive(a[1..], b[1..], c[1..]);
    }
  }

  lemma {:induction false} LexLeAntisymmetric(a: string, b: string)
    requires LexLe(a, b) && LexLe(b, a)
    ensures a == b
    decreases |a|
  {
    if a != [] {
      LexLeAntisymmetric(a[1..], b[1..]);
      assert a == [a[0]] + a[1..] && b == [b[0]] + b[1..];
    }
  }
}

=== FILE: tmdb.dfy ===
/** The shapes of the external metadata API the application reads
    (types/tmdb.ts): search results and movie / series details. The API
    itself is outside the model; its answers are inputs. */
module Tmdb {
  import opened Wrappers

  /** `media_type` of a multi-search result. */
  datatype SearchMediaType = SearchMovie | SearchTv | SearchPerson

  /** One multi-search result; films carry `title`/`release_date`, series
      `name`/`first_air_date`, and either may be absent. */
  datatype SearchResult = SearchResult(
    id: int,
    mediaType: SearchMediaType,
    title: Option<string>,
    name: Option<string>,
    posterPath: Option<string>,
    releaseDate: Option<string>,
    firstAirDate: Option<string>)

  datatype Genre = Genre(id: int, name: string)

  /** Details of a film or of a series. `genres` and `episode_run_time` are
      read through optional chaining, so their absence is modelled. */
  datatype Details =
    | MovieDetails(
        id: int,
        title: string,
        overview: string,
        posterPath: Option<string>,
        backdropPath: Option<string>,
        releaseDate: string,
        voteAverage: real,
        genres: Option<seq<Genre>>,
        runtime: Option<int>)
    | TvDetails(
        id: int,
        name: string,
        overview: string,
        posterPath: Option<string>,
        backdropPath: Option<string>,
        firstAirDate: string,
        voteAverage: real,
        genres: Option<seq<Genre>>,
        episodeRunTime: Option<seq<int>>,
        numberOfSeasons: int)
}

=== FILE: wizard.dfy ===
/** The onboarding wizard (hooks/useOnboarding.ts and the step wiring of
    app/onboarding/page.tsx): three steps, advance guards, the provider and
    series selections, and the outcome of `finish`. */
module Wizard {
  import opened Wrappers
  import opened Schema
  import opened Seqs
  import opened Tmdb
  import Providers

  /** `OnboardingStep = 1 | 2 | 3`. */
  type Step = s: int | 1 <= s <= 3 witness 1

  datatype Wizard = Wizard(
    step: Step,
    allProviders: seq<StreamingProvider>,
    selectedProviderIds: seq<Uuid>,
    selectedSeries: seq<SearchResult>,
    saving: bool,
    error: Option<string>)

  /** The state the hook starts in, once the providers are loaded. */
  function Initial(allProviders: seq<StreamingProvider>): Wizard {
    Wizard(1, allProviders, [], [], false, None)
  }

  /** At least one streaming service chosen. */
  predicate CanAdvanceFromStep1(w: Wizard) {
    |w.selectedProviderIds| >= 1
  }

  /** At least three favourite series chosen. */
  predicate CanAdvanceFromStep2(w: Wizard) {
    |w.selectedSeries| >= 3
  }

  /** `next`: from step 1 only with a provider chosen, from step 2 only with
      three series chosen, never past step 3. Nothing but the step changes. */
  function Next(w: Wizard): (r: Wizard)
    ensures r == w.(step := r.step)
    ensures r.step == w.step || r.step == w.step + 1
    ensures w.step == 1 ==> (r.step == 2 <==> CanAdvanceFromStep1(w))
    ensures w.step == 2 ==> (r.step == 3 <==> CanAdvanceFromStep2(w))
    ensures w.step == 3 ==> r == w
  {
    if w.step == 1 && CanAdvanceFromStep1(w) then w.(step := 2)
    else if w.step == 2 && CanAdvanceFromStep2(w) then w.(step := 3)
    else w
  }

  /** `back`: one step down from 2 or 3, nothing at step 1. */
  function Back(w: Wizard): (r: Wizard)
    ensures r == w.(step := r.step)
    ensures w.step == 1 ==> r == w
    ensures w.step > 1 ==> r.step == w.step - 1
  {
    if w.step == 2 then w.(step := 1)
    else if w.step == 3 then w.(step := 2)
    else w
  }

  /** A step forward is undone by a step back. */
  lemma BackUndoesNext(w: Wizard)
    requires Next(w).step != w.step
    ensures Back(Next(w)) == w
  {
  }

  /** A step back is undone by a step forward when the guard of the earlier
      step still holds. */
  lemma NextUndoesBack(w: Wizard)
    requires w.step == 2 ==> CanAdvanceFromStep1(w)
    requires w.step == 3 ==> CanAdvanceFromStep2(w)
    requires w.step > 1
    ensures Next(Back(w)) == w
  {
  }

  /** `prev.some((s) => s.id === series.id)`: a series with that id is
      chosen; also the "selected" mark of a result tile. */
  predicate HasSeries(selected: seq<SearchResult>, id: int) {
    exists k :: 0 <= k < |selected| && selected[k].id == id
  }

  function IdIsNot(id: int): SearchResult -> bool {
    (s: SearchResult) => s.id != id
  }

  /** No series chosen twice. */
  predicate UniqueSeriesIds(selected: seq<SearchResult>) {
    forall i, j :: 0 <= i < j < |selected| ==> selected[i].id != selected[j].id
  }

  /** `toggleSeries`: a chosen series is removed (every entry with its id),
      any other is appended. The selection never holds an id twice, and the
      toggled series is chosen afterwards exactly when it was not before. */
  function ToggleSeries(selected: seq<SearchResult>, series: SearchResult): (r: seq<SearchResult>)
    ensures HasSeries(selected, series.id) ==>
      && (forall x :: x in r <==> x in selected && x.id != series.id)
      && IsSubsequence(r, selected)
      && |r| == CountWhere(selected, IdIsNot(series.id))
    ensures !HasSeries(selected, series.id) ==> r == selected + [series]
    ensures HasSeries(r, series.id) <==> !HasSeries(selected, series.id)
    ensures UniqueSeriesIds(selected) ==> UniqueSeriesIds(r)
  {
    if HasSeries(selected, series.id) then
      var r := Filter(selected, IdIsNot(series.id));
      FilterMembers(selected, IdIsNot(series.id));
      FilterIsSubsequence(selected, IdIsNot(series.id));
      assert !HasSeries(r, series.id) by {
        forall k | 0 <= k < |r| ensures r[k].id != series.id {
          assert IdIsNot(series.id)(r[k]);
        }
      }
      assert UniqueSeriesIds(selected) ==> UniqueSeriesIds(r) by {
        if UniqueSeriesIds(selected) {
          FilterKeepsUniqueIds(selected, IdIsNot(series.id));
        }
      }
      r
    else
      var r := selected + [series];
      assert r[|selected|].id == series.id;
      r
  }

  /** A filter of a list with distinct ids has distinct ids. */
  lemma {:induction false} FilterKeepsUniqueIds(s: seq<SearchResult>, p: SearchResult -> bool)
    requires UniqueSeriesIds(s)
    ensures UniqueSeriesIds(Filter(s, p))
    decreases |s|
  {
    if s != [] {
      var s' := s[..|s| - 1];
      var x := s[|s| - 1];
      FilterKeepsUniqueIds(s', p);
      var f' := Filter(s', p);
      var f := Filter(s, p);
      assert f == f' + (if p(x) then [x] else []);
      forall i, j | 0 <= i < j < |f| ensures f[i].id != f[j].id {
        if j == |f'| {
          assert f[i] in s';
          var k :| 0 <= k < |s'| && s'[k] == f[i];
          assert s[k] == f[i] && s[|s| - 1] == x;
        }
      }
    }
  }

  /** Adding a series and clicking it again restores the selection. */
  lemma {:induction false} ToggleSeriesTwice(selected: seq<SearchResult>, series: SearchResult)
    requires !HasSeries(selected, series.id)
    ensures ToggleSeries(ToggleSeries(selected, series), series) == selected
  {
    var once := selected + [series];
    assert once[|selected|].id == series.id;
    FilterAppend(selected, [series], IdIsNot(series.id));
    assert forall k :: 0 <= k < |selected| ==> IdIsNot(series.id)(selected[k]);
    FilterAll(selected, IdIsNot(series.id));
    assert Filter([series], IdIsNot(series.id)) == [];
  }

  /** The series record `finish` passes on. */
  datatype SeriesChoice = SeriesChoice(id: int, name: string, posterPath: Option<string>)

  /** `s.name ?? s.title ?? ""`: only a missing field falls through, so an
      empty name is kept. */
  function MappedName(s: SearchResult): (name: string)
    ensures s.name.Some? ==> name == s.name.value
    ensures s.name.None? && s.title.Some? ==> name == s.title.value
    ensures s.name.None? && s.title.None? ==> name == ""
  {
    match s.name
    case Some(n) => n
    case None => s.title.GetOr("")
  }

  /** The mapped series list: one record per chosen series, in order, with
      its id, name and poster. */
  function MappedSeries(selected: seq<SearchResult>): (r: seq<SeriesChoice>)
    ensures |r| == |selected|
    ensures forall k :: 0 <= k < |selected| ==>
      r[k] == SeriesChoice(selected[k].id, MappedName(selected[k]), selected[k].posterPath)
  {
    seq(|selected|, k requires 0 <= k < |selected| =>
      SeriesChoice(selected[k].id, MappedName(selected[k]), selected[k].posterPath))
  }

  /** Mapping keeps distinct ids distinct. */
  lemma MappedSeriesKeepsIds(selected: seq<SearchResult>)
    requires UniqueSeriesIds(selected)
    ensures forall i, j :: 0 <= i < j < |selected| ==>
      MappedSeries(selected)[i].id != MappedSeries(selected)[j].id
  {
  }

  const FinishFailedMessage := "Something went wrong. Please try again."

  /** `finish` starting: saving, with no error shown. */
  function StartFinish(w: Wizard): (r: Wizard)
    ensures r.saving && r.error.None?
    ensures r.step == w.step && r.allProviders == w.allProviders
    ensures r.selectedProviderIds == w.selectedProviderIds && r.selectedSeries == w.selectedSeries
  {
    w.(saving := true, error := None)
  }

  /** How the call to the onboarding service ended. */
  datatype FinishOutcome = Completed(error: Option<DbError>) | Threw

  /** The wizard after `finish` settled, and whether it navigated to the feed. */
  datatype FinishResult = FinishResult(wizard: Wizard, toFeed: bool)

  /** `finish` settling: an error or an exception shows the generic message
      and re-enables the buttons; success navigates to the feed and leaves
      the wizard saving. The selections are never changed. */
  function SettleFinish(w: Wizard, outcome: FinishOutcome): (r: FinishResult)
    requires w.saving && w.error.None?
    ensures r.toFeed <==> outcome == Completed(None)
    ensures r.toFeed ==> r.wizard == w
    ensures !r.toFeed ==> r.wizard == w.(saving := false, error := Some(FinishFailedMessage))
  {
    match outcome
    case Completed(None) => FinishResult(w, true)
    case _ => FinishResult(w.(saving := false, error := Some(FinishFailedMessage)), false)
  }

  /** The two buttons of the completion screen. */
  datatype CompletionClick = ClickBack | ClickFinish

  /** A click on the completion screen reaches its handler only when the
      button is enabled: back steps back, finish starts saving. */
  function CompletionClickAt(w: Wizard, c: CompletionClick): (r: Wizard)
    ensures w.saving ==> r == w
    ensures !w.saving && c == ClickBack ==> r == Back(w)
    ensures !w.saving && c == ClickFinish ==> r == StartFinish(w)
  {
    var controls := Providers.CompletionControlsFor(w.saving);
    match c
    case ClickBack => if controls.backDisabled then w else Back(w)
    case ClickFinish => if controls.finishDisabled then w else StartFinish(w)
  }

  /** Once finish is clicked, the screen says it is setting up, and further
      clicks on either button change nothing until the save settles: only
      one save is ever in flight. */
  lemma FinishClickLocksScreen(w: Wizard, c: CompletionClick)
    requires !w.saving
    ensures var r := CompletionClickAt(w, ClickFinish);
      && r.saving && r.error.None?
      && Providers.CompletionControlsFor(r.saving).finishLabel == "Setting up your profile..."
      && CompletionClickAt(r, c) == r
  {
  }

  /** A failed save shows the message and hands the screen back: both
      buttons are enabled again, the button reads "Get Started", and the
      selections are those the user made. */
  lemma FailedFinishReenables(w: Wizard, outcome: FinishOutcome)
    requires !w.saving
    requires outcome != Completed(None)
    ensures var settled := SettleFinish(CompletionClickAt(w, ClickFinish), outcome);
      var controls := Providers.CompletionControlsFor(settled.wizard.saving);
      && !settled.toFeed
      && settled.wizard.error == Some(FinishFailedMessage)
      && !controls.backDisabled && !controls.finishDisabled
      && controls.finishLabel == "Get Started"
      && settled.wizard.step == w.step
      && settled.wizard.selectedProviderIds == w.selectedProviderIds
      && settled.wizard.selectedSeries == w.selectedSeries
  {
  }

  /** The actions each step's screen offers (app/onboarding/page.tsx):
      step 1 toggles providers and continues; step 2 toggles series,
      continues and goes back; step 3 goes back (finishing leaves the
      wizard). */
  datatype Event = NextEvent | BackEvent | ToggleProviderEvent(p: StreamingProvider)
                 | ToggleSeriesEvent(s: SearchResult)

  predicate Offered(step: Step, e: Event) {
    match e
    case NextEvent => step <= 2
    case BackEvent => step >= 2
    case ToggleProviderEvent(_) => step == 1
    case ToggleSeriesEvent(_) => step == 2
  }

  function Dispatch(w: Wizard, e: Event): Wizard {
    match e
    case NextEvent => Next(w)
    case BackEvent => Back(w)
    case ToggleProviderEvent(p) =>
      w.(selectedProviderIds := Providers.ToggleProvider(w.allProviders, w.selectedProviderIds, p))
    case ToggleSeriesEvent(s) => w.(selectedSeries := ToggleSeries(w.selectedSeries, s))
  }

  /** The guards of the steps already passed still hold. */
  predicate Ready(w: Wizard) {
    && (w.step >= 2 ==> CanAdvanceFromStep1(w))
    && (w.step == 3 ==> CanAdvanceFromStep2(w))
  }

  /** Each offered action keeps the passed guards true. */
  lemma DispatchKeepsReady(w: Wizard, e: Event)
    requires Ready(w) && Offered(w.step, e)
    ensures Ready(Dispatch(w, e))
  {
  }

  /** Applies a sequence of actions, each one offered at the step reached. */
  function Run(w: Wizard, es: seq<Event>): (r: Option<Wizard>)
    ensures r.Some? ==> r.value.allProviders == w.allProviders
    decreases |es|
  {
    if es == [] then Some(w)
    else if !Offered(w.step, es[0]) then None
    else Run(Dispatch(w, es[0]), es[1..])
  }

  /** Whatever the user clicks, the completion screen is reached only with
      a streaming service and three series chosen. */
  lemma {:induction false} RunKeepsReady(w: Wizard, es: seq<Event>)
    requires Ready(w)
    requires Run(w, es).Some?
    ensures Ready(Run(w, es).value)
    ensures Run(w, es).value.step == 3 ==>
      |Run(w, es).value.selectedProviderIds| >= 1 && |Run(w, es).value.selectedSeries| >= 3
    decreases |es|
  {
    if es != [] {
      DispatchKeepsReady(w, es[0]);
      RunKeepsReady(Dispatch(w, es[0]), es[1..]);
    }
  }
}

=== FILE: wrappers.dfy ===
/** Optional values, used for the nullable columns and fields of the application
    (`string | null`, `number | undefined`) and for failed remote calls. */
module Wrappers {

  /** `None` models `null` / `undefined`; `Some(v)` a present value. */
  datatype Option<T> = None | Some(value: T) {

    /** The JavaScript `??` operator: the value if present, otherwise `default`. */
    function GetOr(default: T): T {
      match this
      case Some(v) => v
      case None => default
    }
  }

  /** The JavaScript `||` operator on an optional string: absent values and the
      empty string are both falsy and fall through to `default`. */
  function OrElse(s: Option<string>, default: string): string {
    if s.Some? && s.value != "" then s.value else default
  }

  /** `x || null` on a string: the empty string becomes `null`. */
  function EmptyToNull(s: string): Option<string> {
    if s == "" then None else Some(s)
  }
}
